=== FILE: README.md ===
# buildel web client: a verified model

Buildel is a dashboard and visual builder for AI pipelines made of typed blocks.
This project models the parts of its two web front-ends (`apps/web-remix`, the
current Remix application, and `apps/web`, the earlier Next.js one) that carry
logic rather than layout, and proves what they promise.

- **Pipeline run session** (`PipelineRunSession`, `PipelinesHooks`, `MessageRouter`).
  `usePipelineRun` is modelled as a class whose fields are the hook's refs and state:
  the status (`idle`, `starting`, `running`), the socket's connection flag, the
  channels created so far and the current one, the `onOpen`/`onError` callbacks
  registered on the socket, and logs of what was sent out and which UI callbacks ran.
  The realtime transport enters as events: the socket opening, a socket error, a
  join reply, an inbound message, a file conversion finishing. Each method states
  its whole new state. Each class keeps an invariant, `Valid()`:
  - the status is `running` only when some channel has joined;
  - every channel is on the session's topic;
  - the current channel is the last one created.
  The inbound router is defined once and shared by both variants. It is proved
  equivalent to an independent tagged parse of the event name.
- **Builder and node helpers**:
  - `BlockIO`, `NodeFields`, `RunPipelineButton`, `UndoRedo`, `Layout`;
  - `Placeholders` (the three `{{...}}` patterns the code uses), `PromptInputs`;
  - `ReadonlyFields`, `BuildLoader`, `EditBlockForm`, `InterfaceConfigForm`.
  Each is a pure function with its defining property and a partner lemma: an
  inverse, an order or permutation property, or an independent characterisation.
  `NodeFields.CollectFields`, `NodeFields.OnSubmit` and
  `InfiniteFetch.BuildUrlWithParams` keep the source's loops as methods.
- **Pages and server**:
  - `InfiniteFetch`: the page cache, a class;
  - `SearchParams` and `ChunksSearch`: `URLSearchParams` as a class mutated by `set`/`delete`;
  - `ChatMessages`, `Routes`, `HomeLoader`;
  - `ServerUtils`: the loader and action builders;
  - `Csp`: the `Content-Security-Policy` header.
- `Strings` holds the JavaScript string operations the code relies on:
  `indexOf`, `replace` with a string pattern, `split`/`join`, and `toString` of an integer.
  `Js` holds the JSON-like value type.

The run client's code behaves as follows, and the model follows it:

- A second `startRun` on a connected socket creates and joins a second channel.
  It does not reuse the first (`PipelineRunSession.StartTwice`).
- A join reply other than `ok` leaves the status at `starting`, not `idle`.
  There is no error or timeout handler on the join (`PipelineRunSession.StartRejected`).
- In `apps/web`, every render replaces the socket ref with a new unconnected
  socket. So a second `startRun` after a re-render connects a second socket
  (`PipelinesHooks.RenderForcesReconnect`).
- In `apps/web-remix`, a File or FileList payload is refused with a console error
  and nothing is sent. Only `apps/web` converts files to bytes.
- In `apps/web`, the pushes of a FileList each wait on their own conversion.
  Their order on the wire is therefore not the list order
  (`PipelinesHooks.FileListOrderNotEnforced`).

## Model

| member | source | states |
|---|---|---|
| MessageRouter.PrefixIsFirstPart | apps/web-remix/app/components/pages/pipelines/show/usePipelineRun.tsx:42-51 | `event.startsWith(p + ":")` holds exactly when splitting on `:` gives at least two parts, the first of which is `p` |
| MessageRouter.Route | apps/web-remix/app/components/pages/pipelines/show/usePipelineRun.tsx:41-55 | the router always returns the payload unchanged |
| MessageRouter.RouteMatchesParse | apps/web-remix/app/components/pages/pipelines/show/usePipelineRun.tsx:41-55 | the three independent prefix tests make exactly the callbacks that an independent tagged parse of the event calls for, and never more than one |
| MessageRouter.RouteOutput | apps/web-remix/app/components/pages/pipelines/show/usePipelineRun.tsx:42-45 | `output:B:O` calls `onOutput(B, O, payload)` and nothing else |
| MessageRouter.RouteStart | apps/web-remix/app/components/pages/pipelines/show/usePipelineRun.tsx:46-49 | `start:B` calls `onStatusChange(B, true)` and nothing else |
| MessageRouter.RouteStop | apps/web-remix/app/components/pages/pipelines/show/usePipelineRun.tsx:50-53 | `stop:B` calls `onStatusChange(B, false)` and nothing else |
| MessageRouter.RouteUnknown | apps/web-remix/app/components/pages/pipelines/show/usePipelineRun.tsx:41-55 | an event whose first part is not `output`, `start` or `stop` calls no callback |
| MessageRouter.Parse | apps/web-remix/app/components/pages/pipelines/show/usePipelineRun.tsx:41-55 | an independent tagged reading of an event name, split on `:`; `RouteMatchesParse` equates the router with it |
| MessageRouter.Dispatch | apps/web-remix/app/components/pages/pipelines/show/usePipelineRun.tsx:41-55 | the one callback each kind of event calls for, none for an unknown one; `RouteMatchesParse` equates the router with it |
| PipelineRunSession.ChannelTopic | apps/web-remix/app/components/pages/pipelines/show/usePipelineRun.tsx:32-38 | the channel name splits on `:` into `pipelines`, the organisation id and the pipeline id |
| PipelineRunSession.InputEvent | apps/web-remix/app/components/pages/pipelines/show/usePipelineRun.tsx:98 | the event name splits on `:` into `input` followed by the parts of the topic, so a `{block}:{input}` topic gives exactly `input`, the block and the input |
| PipelineRunSession.JoinHookedKeepsJoined | apps/web-remix/app/components/pages/pipelines/show/usePipelineRun.tsx:60-66 | when the socket opens, exactly the hooked channels that were closed start joining; a joined channel is left as it is |
| PipelineRunSession.PipelineRun.constructor | apps/web-remix/app/components/pages/pipelines/show/usePipelineRun.tsx:16-20 | a mounted session is `idle` with an unconnected socket, no channel and empty logs |
| PipelineRunSession.PipelineRun.StartRun | apps/web-remix/app/components/pages/pipelines/show/usePipelineRun.tsx:22-76 | the auth request names the socket and the channel; with a token the status is `starting` and a fresh channel with the token as params is current, joined at once on a connected socket, else registered with `onOpen`/`onError`; a rejected fetch changes nothing else |
| PipelineRunSession.PipelineRun.SocketOpened | apps/web-remix/app/components/pages/pipelines/show/usePipelineRun.tsx:58-66 | once callbacks are registered, opening connects the socket and joins the hooked channels; the status is unchanged |
| PipelineRunSession.PipelineRun.RunOpenHooks | apps/web-remix/app/components/pages/pipelines/show/usePipelineRun.tsx:58-66 | the `onOpen` callbacks run in registration order, each joining its channel when it is closed |
| PipelineRunSession.PipelineRun.SocketErrored | apps/web-remix/app/components/pages/pipelines/show/usePipelineRun.tsx:67-69 | a socket error sets `idle` when an `onError` callback was registered, and changes no channel |
| PipelineRunSession.PipelineRun.JoinReplied | apps/web-remix/app/components/pages/pipelines/show/usePipelineRun.tsx:62-74 | only an `ok` reply to a joining channel sets `running`; any other reply leaves the status as it was (`starting`) |
| PipelineRunSession.PipelineRun.Receive | apps/web-remix/app/components/pages/pipelines/show/usePipelineRun.tsx:41-55 | an inbound message appends the dispatched callbacks, returns the payload and changes nothing else |
| PipelineRunSession.PipelineRun.StopRun | apps/web-remix/app/components/pages/pipelines/show/usePipelineRun.tsx:78-83 | without a channel the assertion fails and nothing changes; otherwise the channel is left and the status is `idle` unconditionally |
| PipelineRunSession.PipelineRun.Push | apps/web-remix/app/components/pages/pipelines/show/usePipelineRun.tsx:85-102 | a status other than `running` alerts without returning; no channel fails the assertion; a File or FileList logs an error and sends nothing; any other value is sent once as `input:{topic}` with the payload unchanged |
| PipelineRunSession.StartOpenJoin | apps/web-remix/app/components/pages/pipelines/show/usePipelineRun.tsx:22-66 | start, open and an `ok` join give `running` on `pipelines:{org}:{pipeline}` with nothing pushed |
| PipelineRunSession.StartRejected | apps/web-remix/app/components/pages/pipelines/show/usePipelineRun.tsx:62-65 | a join that is not `ok` leaves the status at `starting` |
| PipelineRunSession.StartSocketError | apps/web-remix/app/components/pages/pipelines/show/usePipelineRun.tsx:67-69 | a socket error after `startRun` gives `idle` |
| PipelineRunSession.StartTwice | apps/web-remix/app/components/pages/pipelines/show/usePipelineRun.tsx:58-75 | a second `startRun` on a connected socket creates a second channel and joins it at once, without a second `onOpen` callback |
| PipelineRunSession.PushAfterStop | apps/web-remix/app/components/pages/pipelines/show/usePipelineRun.tsx:78-99 | after a stop, a push alerts and is still handed to the left channel's `push` |
| PipelineRunSession.PushBeforeStart | apps/web-remix/app/components/pages/pipelines/show/usePipelineRun.tsx:87-91 | a push before any `startRun` fails the channel assertion and sends nothing |
| PipelinesHooks.LegacyChannelTopic | apps/web/src/modules/Pipelines/pipelines.hooks.tsx:133 | the channel name splits on `:` into `pipelines` followed by the parts of the pipeline id, so an id without a colon gives exactly two parts and no organisation segment |
| PipelinesHooks.PipelineRun.constructor | apps/web/src/modules/Pipelines/pipelines.hooks.tsx:119-127 | the first render builds one unconnected socket; the status is `idle` and there is no channel |
| PipelinesHooks.PipelineRun.Render | apps/web/src/modules/Pipelines/pipelines.hooks.tsx:121-125 | every render replaces `socket.current` with a new unconnected socket and changes nothing else |
| PipelinesHooks.PipelineRun.StartRun | apps/web/src/modules/Pipelines/pipelines.hooks.tsx:129-169 | the status is `starting` and a fresh channel with empty params is current; it is joined at once on a connected socket, otherwise the current socket is connected and gets the `onOpen`/`onError` callbacks |
| PipelinesHooks.PipelineRun.SocketOpened | apps/web/src/modules/Pipelines/pipelines.hooks.tsx:151-159 | a socket that was asked to connect joins its hooked channels when it opens; one never asked changes nothing |
| PipelinesHooks.PipelineRun.SocketErrored | apps/web/src/modules/Pipelines/pipelines.hooks.tsx:160-162 | an error on a socket with an `onError` callback sets `idle` |
| PipelinesHooks.PipelineRun.JoinReplied | apps/web/src/modules/Pipelines/pipelines.hooks.tsx:155-167 | only an `ok` reply to a joining channel sets `running` |
| PipelinesHooks.PipelineRun.Receive | apps/web/src/modules/Pipelines/pipelines.hooks.tsx:134-148 | the same dispatch and payload pass-through as the Remix router |
| PipelinesHooks.PipelineRun.StopRun | apps/web/src/modules/Pipelines/pipelines.hooks.tsx:171-176 | without a channel the assertion fails; otherwise the channel is left and the status is `idle` |
| PipelinesHooks.PipelineRun.Push | apps/web/src/modules/Pipelines/pipelines.hooks.tsx:178-203 | a status other than `running` alerts and carries on; no channel fails the assertion; a plain value is pushed once to `input:{topic}`; a File starts one byte conversion and a FileList one per file, in list order |
| PipelinesHooks.PipelineRun.ConversionDone | apps/web/src/modules/Pipelines/pipelines.hooks.tsx:187-196 | a finished conversion, taken in any order, pushes its bytes once on the current channel and leaves the pending list |
| PipelinesHooks.Conversions | apps/web/src/modules/Pipelines/pipelines.hooks.tsx:191-197 | one conversion per file, in list order, all under the same event |
| PipelinesHooks.RunningSession | apps/web/src/modules/Pipelines/pipelines.hooks.tsx:129-167 | `startRun`, the socket opening and an `ok` join leave a running session with a channel and nothing pending or sent |
| PipelinesHooks.FileListOrderNotEnforced | apps/web/src/modules/Pipelines/pipelines.hooks.tsx:191-197 | two files whose conversions finish in reverse order are sent in reverse order |
| PipelinesHooks.RenderForcesReconnect | apps/web/src/modules/Pipelines/pipelines.hooks.tsx:121-152 | a re-render between two `startRun` calls makes the second one connect a second socket |
| PipelinesHooks.NameIO | apps/web/src/modules/Pipelines/pipelines.hooks.tsx:236-241 | only the name changes, to `{block}:{io}`; the length and every other field are kept |
| PipelinesHooks.GetBlocksIOInOrder | apps/web/src/modules/Pipelines/pipelines.hooks.tsx:214-234 | the `reduce` lists the public inputs and outputs block by block, in declaration order |
| PipelinesHooks.PublicInputsMembers | apps/web/src/modules/Pipelines/pipelines.hooks.tsx:214-234 | an input is listed exactly when it is a public input of some block, renamed `{block}:{io}` |
| PipelinesHooks.BlockInputs | apps/web/src/modules/Pipelines/pipelines.hooks.tsx:217-226 | one block's public inputs renamed `{block}:{io}`; `BlockInputsMembers` characterises its elements |
| PipelinesHooks.BlockInputsMembers | apps/web/src/modules/Pipelines/pipelines.hooks.tsx:217-226 | an entry of one block's list is exactly one of its public inputs with the name `{block}:{io}` |
| PipelinesHooks.PublicInputsAppend | apps/web/src/modules/Pipelines/pipelines.hooks.tsx:224-226 | one more block appends its public inputs after those of the blocks before it |
| PipelinesHooks.BlockOutputs | apps/web/src/modules/Pipelines/pipelines.hooks.tsx:220-227 | one block's public outputs renamed `{block}:{io}` |
| PipelinesHooks.GetBlocksIO | apps/web/src/modules/Pipelines/pipelines.hooks.tsx:214-234 | the `reduce` as written, from the last block back; `GetBlocksIOInOrder` equates it with the block-by-block lists |
| PipelinesHooks.PublicInputs | apps/web/src/modules/Pipelines/pipelines.hooks.tsx:214-234 | the public inputs block by block from the first; `PublicInputsMembers` characterises its elements |
| PipelinesHooks.PublicOutputs | apps/web/src/modules/Pipelines/pipelines.hooks.tsx:214-234 | the public outputs block by block from the first; `GetBlocksIOInOrder` equates it with the reduce |
| PipelinesHooks.PipelineRun.StartConversions | apps/web/src/modules/Pipelines/pipelines.hooks.tsx:191-197 | one pending conversion per file of a `FileList`, appended in list order, and the invariant is kept |
| BlockIO.PublicOnly | apps/web-remix/app/components/pages/pipelines/build/loader.server.tsx:80-82 | exactly the public entries are kept, and no more than there were |
| BlockIO.PublicOnlyAppend | apps/web/src/modules/Pipelines/pipelines.hooks.tsx:217-222 | the filter keeps the order: the public entries of `a + b` are those of `a`, then those of `b` |
| BlockIO.PublicOnlyKeepsPublic | apps/web-remix/app/components/pages/pipelines/build/loader.server.tsx:80-82 | a list that is all public is kept whole |
| NodeFields.Keys | apps/web-remix/app/components/pages/pipelines/show/CustomNodes/NodeFields.tsx:34-38 | the object's keys are exactly the form's keys, each once |
| NodeFields.FirstIndex | apps/web-remix/app/components/pages/pipelines/show/CustomNodes/NodeFields.tsx:34-36 | the position of the first entry with the key: it has the key and no earlier entry does |
| NodeFields.KeysInFirstEntryOrder | apps/web-remix/app/components/pages/pipelines/show/CustomNodes/NodeFields.tsx:34-38 | the keys come in the order of their first entries, as a plain object filled entry by entry lists them |
| NodeFields.PushesForKeys | apps/web-remix/app/components/pages/pipelines/show/CustomNodes/NodeFields.tsx:38-46 | the pushes of the given keys in their order, each key under `{blockName}:{key}` with its last value; `NodeFields.OnSubmit` proves its loop builds exactly this |
| NodeFields.LastValue | apps/web-remix/app/components/pages/pipelines/show/CustomNodes/NodeFields.tsx:34-36 | a repeated key keeps the value of its last entry |
| NodeFields.PushesFor | apps/web-remix/app/components/pages/pipelines/show/CustomNodes/NodeFields.tsx:40-46 | an array value is pushed element by element in order; any other value is pushed once, unchanged |
| NodeFields.CollectFields | apps/web-remix/app/components/pages/pipelines/show/CustomNodes/NodeFields.tsx:31-36 | the `for` loop leaves exactly the form's keys, each with the last value entered for it |
| NodeFields.AppendPushes | apps/web-remix/app/components/pages/pipelines/show/CustomNodes/NodeFields.tsx:40-46 | the loop over one key appends exactly that key's pushes |
| NodeFields.OnSubmit | apps/web-remix/app/components/pages/pipelines/show/CustomNodes/NodeFields.tsx:26-50 | the block's events are cleared first, then every key of `Keys` is pushed under `{blockName}:{key}` with its last value, in that list's order (first-entry order, by `NodeFields.KeysInFirstEntryOrder`) |
| NodeFields.RepeatedKeyKeepsLast | apps/web-remix/app/components/pages/pipelines/show/CustomNodes/NodeFields.tsx:34-46 | a key entered twice is pushed once, with its second value, at its first position |
| NodeFields.SendEnabled | apps/web-remix/app/components/pages/pipelines/show/CustomNodes/NodeFields.tsx:128 | the button's `disabled` test: enabled exactly when the status is `running`; its meaning for the run is stated by `NodeFields.PushFromForm` |
| NodeFields.PushFromForm | apps/web-remix/app/components/pages/pipelines/show/usePipelineRun.tsx:85-102 | the send button is enabled exactly when pushing through the run hook raises no "Start process first" alert, and a push from an enabled button never fails the channel assertion |
| NodeFields.TextFieldsMessagesAppend | apps/web-remix/app/components/pages/pipelines/show/CustomNodes/NodeFields.tsx:173-177 | the text of two batches of events is the text of the first followed by that of the second, so messages come in event order |
| NodeFields.TextFieldsMessagesSingle | apps/web-remix/app/components/pages/pipelines/show/CustomNodes/NodeFields.tsx:174-176 | an event from another output adds nothing; one from the named output adds its message |
| NodeFields.TextFieldsMessagesLength | apps/web-remix/app/components/pages/pipelines/show/CustomNodes/NodeFields.tsx:173-177 | the text is no longer than all messages together |
| NodeFields.TextFieldsMessages | apps/web-remix/app/components/pages/pipelines/show/CustomNodes/NodeFields.tsx:173-177 | the messages of the events from the named output, joined in event order; its properties are the three `TextFieldsMessages` lemmas |
| RunPipelineButton.HandleRun | apps/web-remix/app/components/pages/pipelines/builder/RunPipelineButton.tsx:15-33 | an invalid workflow gives the "Invalid workflow" toast whatever else holds; a valid unsaved one gives "Unsaved changes" and calls neither start nor stop; otherwise `idle` calls `startRun` only and `starting`/`running` call `stopRun` only |
| RunPipelineButton.ClickMatchesLabel | apps/web-remix/app/components/pages/pipelines/builder/RunPipelineButton.tsx:28-44 | on a valid, saved workflow the click does what the caption (`Run`/`Stop`) says |
| UndoRedo.Initial | apps/web-remix/app/components/pages/pipelines/useUndoRedo.tsx:46-50 | the history starts with the initial value alone, at position 0 |
| UndoRedo.Reduce | apps/web-remix/app/components/pages/pipelines/useUndoRedo.tsx:15-43 | the reducer as written; `UndoMovesBack`, `RedoMovesForward`, `UndoThenRedo`, `RedoThenUndo`, `SetRecords` and `UndoRedoKeepSize` state what it does |
| UndoRedo.ReduceIntended | apps/web-remix/app/components/pages/pipelines/useUndoRedo.tsx:15-43 | the reducer with the no-op guard on `data`; `IntendedSetSameValueIsNoOp` and `IntendedAgreesElsewhere` relate it to the one as written |
| UndoRedo.AllowUndo | apps/web-remix/app/components/pages/pipelines/useUndoRedo.tsx:68 | `allowUndo` holds exactly when an UNDO would change the history |
| UndoRedo.AllowRedo | apps/web-remix/app/components/pages/pipelines/useUndoRedo.tsx:69 | `allowRedo` holds exactly when a REDO would change the history |
| UndoRedo.UndoMovesBack | apps/web-remix/app/components/pages/pipelines/useUndoRedo.tsx:34-41 | UNDO with an empty `prev` returns the state unchanged; otherwise the last of `prev` becomes current, the old current goes to the front of `next`, and the timeline is the same with the cursor one place back |
| UndoRedo.RedoMovesForward | apps/web-remix/app/components/pages/pipelines/useUndoRedo.tsx:26-33 | REDO with an empty `next` returns the state unchanged; otherwise the first of `next` becomes current, the old current is appended to `prev`, and the cursor moves one place forward in the same timeline |
| UndoRedo.UndoRedoKeepSize | apps/web-remix/app/components/pages/pipelines/useUndoRedo.tsx:26-41 | UNDO and REDO keep `|prev| + 1 + |next|` |
| UndoRedo.UndoThenRedo | apps/web-remix/app/components/pages/pipelines/useUndoRedo.tsx:26-41 | an UNDO that did something is cancelled by a REDO |
| UndoRedo.RedoThenUndo | apps/web-remix/app/components/pages/pipelines/useUndoRedo.tsx:26-41 | a REDO that did something is cancelled by an UNDO |
| UndoRedo.SetRecords | apps/web-remix/app/components/pages/pipelines/useUndoRedo.tsx:19-25 | a recorded SET appends the old current to `prev`, makes `data` current and clears `next`; an ignored SET replaces only the current value |
| UndoRedo.SetSameValueRecordsDuplicate | apps/web-remix/app/components/pages/pipelines/useUndoRedo.tsx:18 | as written, the guard compares the current value with the whole `{data, ignore}` payload, so setting the current value again records a duplicate entry |
| UndoRedo.IntendedSetSameValueIsNoOp | apps/web-remix/app/components/pages/pipelines/useUndoRedo.tsx:18 | with the guard on `data`, setting the current value again leaves the history as it is |
| UndoRedo.IntendedAgreesElsewhere | apps/web-remix/app/components/pages/pipelines/useUndoRedo.tsx:15-43 | apart from that guard, the corrected reducer agrees with the one as written |
| Layout.LayoutReducer | apps/web/src/modules/Layout/LayoutContext.tsx:28-46 | `toggleSidebar` sets the given value or negates the old one; `toggleSidebarCollapse` sets the given value or negates the old one, with `undefined` becoming `true`; each leaves the other field as it is; an unknown type throws `Unhandled action type: …` |
| Layout.ToggleSidebarTwice | apps/web/src/modules/Layout/LayoutContext.tsx:30-33 | toggling the sidebar twice without a value restores the state |
| Layout.ToggleCollapseTwice | apps/web/src/modules/Layout/LayoutContext.tsx:34-40 | toggling the collapse twice without a value restores a boolean flag, and turns `undefined` into `false` |
| Layout.CollapseDefinedAfterToggle | apps/web/src/modules/Layout/LayoutContext.tsx:34-40 | after a collapse toggle the flag is always defined |
| Placeholders.ClosingFromIsFirst | apps/web-remix/app/components/pages/pipelines/CustomNodes/NodePromptInputs.tsx:97 | the lazy `(.*?)}}` closes at the first `}}` with no line terminator before it, and finds none when every later `}}` is past a line terminator |
| Placeholders.MatchSpans | apps/web-remix/app/components/pages/pipelines/CustomNodes/NodePromptInputs.tsx:97 | the spans `match(/{{(.*?)}}/g)` reports lie in the text, each at least `{{}}` long, in order and without overlap |
| Placeholders.MatchSpansAreMatches | apps/web-remix/app/components/pages/pipelines/CustomNodes/NodePromptInputs.tsx:97 | every reported span starts with `{{` and ends at the first `}}` its line allows |
| Placeholders.MatchSpansLeftmost | apps/web-remix/app/components/pages/pipelines/CustomNodes/NodePromptInputs.tsx:97 | the first span is the leftmost match, and there is none exactly when no match starts in the rest of the text |
| Placeholders.ClosingIsFirst | apps/web-remix/app/components/pages/pipelines/CustomNodes/NodePromptInputs.tsx:97 | the lazy body closes at the first `}}` when no line terminator comes before it |
| Placeholders.FirstSpan | apps/web-remix/app/components/pages/pipelines/CustomNodes/NodePromptInputs.tsx:97 | a match with no `{` before it is the first span, and the scan continues after it |
| Placeholders.NoSpans | apps/web-remix/app/components/pages/pipelines/CustomNodes/NodePromptInputs.tsx:97 | text without `{` has no match |
| Placeholders.LazyReplaceWithoutPlaceholder | apps/web-remix/app/components/pages/pipelines/build/loader.server.tsx:90 | text without `{{` is kept as it is |
| Placeholders.LazyReplaceOne | apps/web-remix/app/components/pages/pipelines/build/loader.server.tsx:90 | a single `{{key}}` is replaced by `context[key]` and the text around it is kept |
| Placeholders.LazyReplace | apps/web-remix/app/components/pages/pipelines/build/loader.server.tsx:90 | every lazy `{{key}}` match replaced by `context[key]`; `LazyReplaceWithoutPlaceholder` and `LazyReplaceOne` state it |
| Placeholders.KeyRunLength | apps/web-remix/app/components/pages/pipelines/Nodes/CustomNodes/NodeReadonlyFields.tsx:178 | the run of word characters and dots is maximal |
| Placeholders.WordKeyAt | apps/web-remix/app/components/pages/pipelines/Nodes/CustomNodes/NodeReadonlyFields.tsx:178 | a `{{([\w.]+)}}` match is at least five characters long and lies in the text |
| Placeholders.DotFrom | apps/web-remix/app/components/pages/pipelines/Nodes/CustomNodes/NodeReadonlyFields.tsx:179 | a position found holds a dot and lies at or after the start |
| Placeholders.DotFromIsFirst | apps/web-remix/app/components/pages/pipelines/Nodes/CustomNodes/NodeReadonlyFields.tsx:179 | the dot found is the first one, so `[^.]+` runs up to it |
| Placeholders.DotFromNone | apps/web-remix/app/components/pages/pipelines/Nodes/CustomNodes/NodeReadonlyFields.tsx:179 | a key without a dot has none found |
| Placeholders.CleanKeyShorter | apps/web-remix/app/components/pages/pipelines/Nodes/CustomNodes/NodeReadonlyFields.tsx:179 | cleaning never lengthens a key |
| Placeholders.CleanKeyDropsFirstSegment | apps/web-remix/app/components/pages/pipelines/Nodes/CustomNodes/NodeReadonlyFields.tsx:179 | `segment.rest` loses its first segment and the dot |
| Placeholders.CleanKeyWithoutDot | apps/web-remix/app/components/pages/pipelines/Nodes/CustomNodes/NodeReadonlyFields.tsx:179 | a key without a dot is kept |
| Placeholders.CleanKey | apps/web-remix/app/components/pages/pipelines/Nodes/CustomNodes/NodeReadonlyFields.tsx:179 | `key.replace(/^[^.]+\./, '')`; `CleanKeyShorter`, `CleanKeyDropsFirstSegment` and `CleanKeyWithoutDot` state it |
| Placeholders.KeyValue | apps/web-remix/app/components/pages/pipelines/Nodes/CustomNodes/NodeReadonlyFields.tsx:179-183 | the value of the cleaned key, or that key when it is missing; used by `PlaceholderReplaced` |
| Placeholders.ReplaceWordKeysNoBrace | apps/web-remix/app/components/pages/pipelines/Nodes/CustomNodes/NodeReadonlyFields.tsx:178-184 | text without `{` is kept as it is |
| Placeholders.PlaceholderReplaced | apps/web-remix/app/components/pages/pipelines/Nodes/CustomNodes/NodeReadonlyFields.tsx:178-184 | a `{{key}}` placeholder is replaced by `context[cleanedKey]`, or by the cleaned key when that is missing, and the scan continues after it |
| Placeholders.ReplaceWordKeys | apps/web-remix/app/components/pages/pipelines/Nodes/CustomNodes/NodeReadonlyFields.tsx:178-184 | the global `{{([\w.]+)}}` replacement; `ReplaceWordKeysNoBrace` and `PlaceholderReplaced` state it |
| Placeholders.KeyRunExact | apps/web-remix/app/components/pages/pipelines/Nodes/CustomNodes/NodeReadonlyFields.tsx:178 | a run of key characters followed by another character has exactly that length |
| PromptInputs.StripBraces | apps/web-remix/app/components/pages/pipelines/CustomNodes/NodePromptInputs.tsx:98 | removing `{{` and `}}` never lengthens the text |
| PromptInputs.Texts | apps/web-remix/app/components/pages/pipelines/CustomNodes/NodePromptInputs.tsx:97-99 | one text per span, each the span with its braces removed |
| PromptInputs.InputsFromTemplate | apps/web-remix/app/components/pages/pipelines/CustomNodes/NodePromptInputs.tsx:96-100 | one input per match of the lazy pattern, left to right |
| PromptInputs.Inputs | apps/web-remix/app/components/pages/pipelines/CustomNodes/NodePromptInputs.tsx:27-31 | the distinct references, each split on `:`; `NoMatchNoInputs`, `SplitAll` and `Render` state its properties |
| PromptInputs.StripReference | apps/web-remix/app/components/pages/pipelines/CustomNodes/NodePromptInputs.tsx:98 | removing the braces of `{{x}}` gives back `x` |
| PromptInputs.SingleReference | apps/web-remix/app/components/pages/pipelines/CustomNodes/NodePromptInputs.tsx:96-100 | a template that is one reference `{{x}}` gives exactly `[x]` |
| PromptInputs.RemoveDuplicates | apps/web-remix/app/components/pages/pipelines/CustomNodes/NodePromptInputs.tsx:102-104 | no string twice, and exactly the strings of the input |
| PromptInputs.FirstIndex | apps/web-remix/app/components/pages/pipelines/CustomNodes/NodePromptInputs.tsx:102-104 | the position of the first occurrence |
| PromptInputs.RemoveDuplicatesKeepsOrder | apps/web-remix/app/components/pages/pipelines/CustomNodes/NodePromptInputs.tsx:102-104 | the kept strings come in the order of their first occurrences |
| PromptInputs.SplitInput | apps/web-remix/app/components/pages/pipelines/CustomNodes/NodePromptInputs.tsx:106-108 | at least one part, and joining the parts with `:` gives back the input |
| PromptInputs.IsConnected | apps/web-remix/app/components/pages/pipelines/CustomNodes/NodePromptInputs.tsx:110-120 | a reference without a colon (`{{block}}`) is never connected, since `input[1]` is `undefined`; otherwise it is connected exactly when some connection comes from block `input[0]` and output `input[1]` |
| PromptInputs.NotConnected | apps/web-remix/app/components/pages/pipelines/CustomNodes/NodePromptInputs.tsx:33-37 | the filter never lengthens the list |
| PromptInputs.NotConnectedMembers | apps/web-remix/app/components/pages/pipelines/CustomNodes/NodePromptInputs.tsx:33-37 | exactly the inputs for which the connection check is false |
| PromptInputs.NotConnectedAppend | apps/web-remix/app/components/pages/pipelines/CustomNodes/NodePromptInputs.tsx:33-37 | the filter keeps the order of the inputs |
| PromptInputs.Connections | apps/web-remix/app/components/pages/pipelines/CustomNodes/NodePromptInputs.tsx:21-25 | exactly the data of the edges that carry some |
| PromptInputs.SplitAll | apps/web-remix/app/components/pages/pipelines/CustomNodes/NodePromptInputs.tsx:27-31 | each reference is split, and joining its parts gives it back |
| PromptInputs.NoMatchNoInputs | apps/web-remix/app/components/pages/pipelines/CustomNodes/NodePromptInputs.tsx:96-100 | a template with no match gives no inputs |
| PromptInputs.Render | apps/web-remix/app/components/pages/pipelines/CustomNodes/NodePromptInputs.tsx:14-71 | nothing is rendered exactly when there are no inputs; otherwise the not-connected list holds exactly the inputs the check rejects |
| PromptInputs.MissingTemplateRendersNothing | apps/web-remix/app/components/pages/pipelines/CustomNodes/NodePromptInputs.tsx:19-39 | a missing `prompt_template` counts as `''` and renders nothing |
| ReadonlyFields.IsObjectField | apps/web-remix/app/components/pages/pipelines/Nodes/CustomNodes/NodeReadonlyFields.tsx:208-212 | true exactly when the schema is an object whose `type` is `'object'` |
| ReadonlyFields.Opts | apps/web-remix/app/components/pages/pipelines/Nodes/CustomNodes/NodeReadonlyFields.tsx:37 | `schema?.properties?.opts`, `undefined` where a step is missing; `ReadonlyProperties` states what is read from it |
| ReadonlyFields.OptProperties | apps/web-remix/app/components/pages/pipelines/Nodes/CustomNodes/NodeReadonlyFields.tsx:39-40 | the fields of `opts.properties ?? {}`; `ReadonlyProperties` states what is kept from it |
| ReadonlyFields.ReadonlyProperties | apps/web-remix/app/components/pages/pipelines/Nodes/CustomNodes/NodeReadonlyFields.tsx:35-53 | exactly the `opts.properties` entries marked `readonly`, unchanged, when `opts` is an object field; `{}` otherwise |
| ReadonlyFields.RenderedKeys | apps/web-remix/app/components/pages/pipelines/Nodes/CustomNodes/NodeReadonlyFields.tsx:55-64 | exactly the properties of type string, number or boolean produce an item |
| ReadonlyFields.Renderable | apps/web-remix/app/components/pages/pipelines/Nodes/CustomNodes/NodeReadonlyFields.tsx:57-62 | a property of type string, number or boolean; `RenderedKeys` states that exactly these produce an item |
| ReadonlyFields.RenderedAreReadonlyScalars | apps/web-remix/app/components/pages/pipelines/Nodes/CustomNodes/NodeReadonlyFields.tsx:35-64 | a rendered property comes from an object `opts`, is marked `readonly`, and is of one of the three scalar types |
| ReadonlyFields.ShowValue | apps/web-remix/app/components/pages/pipelines/Nodes/CustomNodes/NodeReadonlyFields.tsx:214-220 | every boolean and number is shown; any other value by its truthiness |
| ReadonlyFields.ShowValueHides | apps/web-remix/app/components/pages/pipelines/Nodes/CustomNodes/NodeReadonlyFields.tsx:214-220 | exactly `''`, `undefined` and `null` are hidden, so `false` and `0` are shown |
| ReadonlyFields.Find | apps/web-remix/app/components/pages/pipelines/Nodes/CustomNodes/NodeReadonlyFields.tsx:195 | the index of the first option with the value, or none when no option has it |
| ReadonlyFields.DisplayedValue | apps/web-remix/app/components/pages/pipelines/Nodes/CustomNodes/NodeReadonlyFields.tsx:193-197 | the label of the first option whose value matches (the value when that label is missing), otherwise the raw value |
| ReadonlyFields.ReadyUrlIds | apps/web-remix/app/components/pages/pipelines/Nodes/CustomNodes/NodeReadonlyFields.tsx:175-177 | the first `{{organization_id}}` and the first `{{pipeline_id}}` become the ids and the rest of the URL is kept |
| ReadonlyFields.ReadyUrlWithoutPlaceholders | apps/web-remix/app/components/pages/pipelines/Nodes/CustomNodes/NodeReadonlyFields.tsx:175-184 | a URL without braces is used as it is |
| ReadonlyFields.ReadyUrl | apps/web-remix/app/components/pages/pipelines/Nodes/CustomNodes/NodeReadonlyFields.tsx:175-184 | the two id replacements, then the `{{key}}` replacement; `ReadyUrlIds` and `ReadyUrlWithoutPlaceholders` state it |
| Strings.ReplaceFirst | apps/web-remix/app/components/pages/pipelines/Nodes/CustomNodes/NodeReadonlyFields.tsx:176-177 | a string pattern replaces only its first occurrence, and nothing when it does not occur |
| Strings.SplitJoin | apps/web-remix/app/components/pages/pipelines/show/usePipelineRun.tsx:43-51 | splitting on `:` the parts joined with `:` gives the parts back, when no part holds a colon |
| Strings.SplitCons | apps/web-remix/app/components/pages/pipelines/show/usePipelineRun.tsx:42-51 | a text that starts with a part free of the one-character separator and then the separator splits into that part followed by the split of the rest |
| Strings.SplitFree | apps/web-remix/app/components/pages/pipelines/show/usePipelineRun.tsx:42-51 | a text without the separator splits into itself alone |
| Strings.JoinSplit | apps/web-remix/app/components/pages/pipelines/CustomNodes/NodePromptInputs.tsx:106-108 | joining with `:` the parts of a split gives the text back |
| Strings.SplitPartsFree | apps/web-remix/app/components/pages/pipelines/show/usePipelineRun.tsx:43-51 | no part of a split contains the separator |
| BuildLoader.PrepareIO | apps/web-remix/app/components/pages/pipelines/build/loader.server.tsx:84-86 | `public` becomes false and the name and type are kept |
| BuildLoader.PreparedPublic | apps/web-remix/app/components/pages/pipelines/build/loader.server.tsx:49-51 | one prepared entry per public entry, in order |
| BuildLoader.PrepareIOsUrlOne | apps/web-remix/app/components/pages/pipelines/build/loader.server.tsx:88-92 | a URL with one `{{key}}` gets `context[key]` in its place, then loses its first `/api` |
| BuildLoader.PrepareIOsUrl | apps/web-remix/app/components/pages/pipelines/build/loader.server.tsx:88-92 | the lazy `{{key}}` replacement followed by removing the first `/api`; `PrepareIOsUrlOne` states it for one placeholder |
| BuildLoader.UrlContext | apps/web-remix/app/components/pages/pipelines/build/loader.server.tsx:43-46 | the context object `{organization_id, 'opts.workflow'}` the dynamic-I/O URL is filled from |
| BuildLoader.FindType | apps/web-remix/app/components/pages/pipelines/build/loader.server.tsx:36-38 | the first block type whose `type` matches, or none when no type matches |
| BuildLoader.MergeBlock | apps/web-remix/app/components/pages/pipelines/build/loader.server.tsx:35-68 | a block whose type has no match is returned unchanged; otherwise only its block type changes |
| BuildLoader.StaticTypeAttached | apps/web-remix/app/components/pages/pipelines/build/loader.server.tsx:41-67 | without `dynamic_ios` or without `opts.workflow`, the block type is attached unchanged |
| BuildLoader.DynamicIOsAppended | apps/web-remix/app/components/pages/pipelines/build/loader.server.tsx:41-61 | with both, the static inputs, outputs and ios come first, unchanged, and every appended entry is non-public |
| BuildLoader.MergeBlocks | apps/web-remix/app/components/pages/pipelines/build/loader.server.tsx:34-69 | every block is merged, in order |
| EditBlockForm.HandleUpdate | apps/web-remix/app/components/pages/pipelines/builder/EditBlockForm.tsx:40-47 | the submitted config has the keys of both; the form's fields win and every other config field is kept |
| EditBlockForm.Suggestion | apps/web-remix/app/components/pages/pipelines/builder/EditBlockForm.tsx:148 | the input before its first `->`, or all of it when there is none; the result holds no `->` |
| EditBlockForm.GenerateSuggestions | apps/web-remix/app/components/pages/pipelines/builder/EditBlockForm.tsx:147-149 | one suggestion per input, in order, none containing `->` |
| EditBlockForm.SuggestionOfConnection | apps/web-remix/app/components/pages/pipelines/builder/EditBlockForm.tsx:148 | `a->b` suggests `a` when `a` has no arrow, as `text_input_1:output->input?reset=true` gives `text_input_1:output` |
| EditBlockForm.SelectField | apps/web-remix/app/components/pages/pipelines/builder/EditBlockForm.tsx:65-98 | a field whose type is not `string` fails the assertion; a string field renders nothing unless it is an async select; then the first `:organization_id` of the URL is replaced by the id and the extra option has name and id `{pipelineId}_{blockName}` |
| InterfaceConfigForm.BlocksOfTypes | apps/web-remix/app/components/pages/pipelines/interface/websiteChatbot/InterfaceConfigForm.tsx:37-49 | exactly the blocks whose type is one of the given types, and no more than there were |
| InterfaceConfigForm.BlocksOfTypesAppend | apps/web-remix/app/components/pages/pipelines/interface/websiteChatbot/InterfaceConfigForm.tsx:37-49 | the filter keeps config order |
| InterfaceConfigForm.OptionsByType | apps/web-remix/app/components/pages/pipelines/interface/websiteChatbot/InterfaceConfigForm.tsx:37-49 | the input options are exactly the `text_input`, `file_input` and `image_input` blocks; the output options are exactly the `text_output` blocks; the audio options are exactly the `audio_input` and `audio_output` blocks |
| InterfaceConfigForm.InputOptions | apps/web-remix/app/components/pages/pipelines/interface/websiteChatbot/InterfaceConfigForm.tsx:37-39 | the `text_input`, `file_input` and `image_input` blocks, by `OptionsByType` |
| InterfaceConfigForm.OutputOptions | apps/web-remix/app/components/pages/pipelines/interface/websiteChatbot/InterfaceConfigForm.tsx:40-42 | the `text_output` blocks, by `OptionsByType` |
| InterfaceConfigForm.AudioInputOptions | apps/web-remix/app/components/pages/pipelines/interface/websiteChatbot/InterfaceConfigForm.tsx:44-46 | the `audio_input` blocks, by `OptionsByType` |
| InterfaceConfigForm.AudioOutputOptions | apps/web-remix/app/components/pages/pipelines/interface/websiteChatbot/InterfaceConfigForm.tsx:47-49 | the `audio_output` blocks, by `OptionsByType` |
| InterfaceConfigForm.HexDigitValue | apps/web-remix/app/components/pages/pipelines/interface/websiteChatbot/InterfaceConfigForm.tsx:240 | a hexadecimal digit as written reads back as its value |
| InterfaceConfigForm.EncodeEntry | apps/web-remix/app/components/pages/pipelines/interface/websiteChatbot/InterfaceConfigForm.tsx:240 | `JSON.stringify({name, type})`: the two keys in that order, each value a string literal |
| InterfaceConfigForm.UnescapeEscape | apps/web-remix/app/components/pages/pipelines/interface/websiteChatbot/InterfaceConfigForm.tsx:53 | every escape `JSON.stringify` writes reads back as its character |
| InterfaceConfigForm.EscapeCharPlain | apps/web-remix/app/components/pages/pipelines/interface/websiteChatbot/InterfaceConfigForm.tsx:240 | a character written without a backslash is written as itself, and is neither a quote, a backslash nor a control character |
| InterfaceConfigForm.EscapeChar | apps/web-remix/app/components/pages/pipelines/interface/websiteChatbot/InterfaceConfigForm.tsx:240 | how `JSON.stringify` writes one character; `EscapeCharPlain` and `DecodeCharStep` show it reads back |
| InterfaceConfigForm.EncodeString | apps/web-remix/app/components/pages/pipelines/interface/websiteChatbot/InterfaceConfigForm.tsx:240 | `JSON.stringify` of a string; `DecodeEscapeBody` shows its body reads back |
| InterfaceConfigForm.DecodeCharStep | apps/web-remix/app/components/pages/pipelines/interface/websiteChatbot/InterfaceConfigForm.tsx:53 | one character as `JSON.stringify` writes it, escaped or not, `JSON.parse` reads back as that character |
| InterfaceConfigForm.DecodeEscapeBody | apps/web-remix/app/components/pages/pipelines/interface/websiteChatbot/InterfaceConfigForm.tsx:53 | the body of a string literal, up to its closing quote, decodes to the string |
| InterfaceConfigForm.DecodeEncodeEntry | apps/web-remix/app/components/pages/pipelines/interface/websiteChatbot/InterfaceConfigForm.tsx:52-58 | what `toSelectDefaults` writes for an entry, `handleOnSubmit` parses back to the same `{name, type}` |
| InterfaceConfigForm.DecodeEntry | apps/web-remix/app/components/pages/pipelines/interface/websiteChatbot/InterfaceConfigForm.tsx:53 | `JSON.parse` of an entry text; `DecodeEncodeEntry` shows it inverts `EncodeEntry` |
| InterfaceConfigForm.EncodeAll | apps/web-remix/app/components/pages/pipelines/interface/websiteChatbot/InterfaceConfigForm.tsx:239-250 | one text per entry, in order |
| InterfaceConfigForm.DecodeAll | apps/web-remix/app/components/pages/pipelines/interface/websiteChatbot/InterfaceConfigForm.tsx:52-81 | every text parsed in order; one text that does not parse makes the whole list fail, as `JSON.parse` throws |
| InterfaceConfigForm.DecodeAllEncodeAll | apps/web-remix/app/components/pages/pipelines/interface/websiteChatbot/InterfaceConfigForm.tsx:52-81 | encoding a list of entries and decoding it gives the list back |
| InterfaceConfigForm.NonEmptyMessages | apps/web-remix/app/components/pages/pipelines/interface/websiteChatbot/InterfaceConfigForm.tsx:91-93 | exactly the non-empty messages are kept |
| InterfaceConfigForm.NonEmptyMessagesAppend | apps/web-remix/app/components/pages/pipelines/interface/websiteChatbot/InterfaceConfigForm.tsx:91-93 | the kept messages keep their order |
| InterfaceConfigForm.HandleOnSubmit | apps/web-remix/app/components/pages/pipelines/interface/websiteChatbot/InterfaceConfigForm.tsx:51-98 | the submit fails exactly when some text does not parse; otherwise every field of `interface_config` other than `webchat` is kept, and the webchat has the four entry lists parsed from the form's texts, in order, the non-empty messages, the description and the public flag |
| InterfaceConfigForm.SubmitDefaults | apps/web-remix/app/components/pages/pipelines/interface/websiteChatbot/InterfaceConfigForm.tsx:51-98 | submitting the defaults unchanged gives back the same webchat config, without its empty messages |
| InterfaceConfigForm.ToSelectDefaults | apps/web-remix/app/components/pages/pipelines/interface/websiteChatbot/InterfaceConfigForm.tsx:236-252 | every entry list written with `JSON.stringify({name, type})`, the rest copied; `SubmitDefaults` shows a submit gives it back |
| InfiniteFetch.LastSet | apps/web-remix/app/components/pagination/useInfiniteFetch.tsx:74-78 | the value last given to a name among the defined parameters, or none when it was never given one |
| InfiniteFetch.SetAll | apps/web-remix/app/components/pagination/useInfiniteFetch.tsx:74-78 | the query after each defined parameter is `set` in turn; `SetAllGet` and `SetAllOutside` state its effect, and `BuildUrlWithParams` proves its loop computes it |
| InfiniteFetch.SetAllGet | apps/web-remix/app/components/pagination/useInfiniteFetch.tsx:74-78 | after the loop a parameter set last wins, and a name never set keeps the value it had |
| InfiniteFetch.SetAllOutside | apps/web-remix/app/components/pagination/useInfiniteFetch.tsx:74-78 | parameters with other names, and their order, are left alone |
| InfiniteFetch.BuildUrlWithParams | apps/web-remix/app/components/pagination/useInfiniteFetch.tsx:68-81 | the pathname is kept, and every defined parameter is `set` in turn on the base URL's query |
| InfiniteFetch.MinKey | apps/web-remix/app/components/pagination/useInfiniteFetch.tsx:51 | the smallest page number of the cache |
| InfiniteFetch.MinKeyWithLaterPage | apps/web-remix/app/components/pagination/useInfiniteFetch.tsx:51 | adding a page after every cached one keeps the first page first |
| InfiniteFetch.MergedDataNextPage | apps/web-remix/app/components/pagination/useInfiniteFetch.tsx:50-55 | storing a page after every cached one appends its items to the merged list, since pages are concatenated in ascending order |
| InfiniteFetch.TotalItemsRemove | apps/web-remix/app/components/pagination/useInfiniteFetch.tsx:50-55 | the item total of the cached pages does not depend on which page is counted first |
| InfiniteFetch.TotalItemsAdd | apps/web-remix/app/components/pagination/useInfiniteFetch.tsx:50-55 | caching a new page, at any page number, adds its item count to the total |
| InfiniteFetch.MergedDataLength | apps/web-remix/app/components/pagination/useInfiniteFetch.tsx:50-55 | the merged list, taken in ascending page order, is as long as all cached pages together, counted in any order |
| InfiniteFetch.MergedData | apps/web-remix/app/components/pagination/useInfiniteFetch.tsx:50-55 | `Object.values(data)` concatenated, pages in ascending order; `MergedDataNextPage` and `MergedDataLength` state its properties |
| InfiniteFetch.PageCache.Merged | apps/web-remix/app/components/pagination/useInfiniteFetch.tsx:50-55 | the cache's `mergedData`, `MergedData` of its pages |
| InfiniteFetch.PageCache.LoadParams | apps/web-remix/app/components/pagination/useInfiniteFetch.tsx:33-37 | the `page`, `limit` and `search` a load carries, as `PaginationChanged` sends them |
| InfiniteFetch.PageCache.constructor | apps/web-remix/app/components/pagination/useInfiniteFetch.tsx:15-23 | the cache starts with the current page mapped to `initialData`, or `[]` when there is none; nothing is loaded |
| InfiniteFetch.PageCache.FetchNextPage | apps/web-remix/app/components/pagination/useInfiniteFetch.tsx:25-28 | `goToNext` is called only while the fetcher is idle; nothing else changes |
| InfiniteFetch.PageCache.PaginationChanged | apps/web-remix/app/components/pagination/useInfiniteFetch.tsx:30-40 | a load is issued only when the page, limit or search changed and the page is absent from the cache; it goes to the loader's path with `page`, `limit` and `search` set |
| InfiniteFetch.PageCache.FetcherData | apps/web-remix/app/components/pagination/useInfiniteFetch.tsx:42-48 | a non-empty response is stored under the current page and other pages are kept; an empty or missing one leaves the cache unchanged |
| SearchParams.GetParamFirst | apps/web-remix/app/components/pages/knowledgeBase/collectionGraph/components/ChunksSearch.tsx:47-54 | `get` answers `null` exactly when no pair has the name, and otherwise the value of the first pair with it |
| SearchParams.GetParam | apps/web-remix/app/components/pages/knowledgeBase/collectionGraph/components/ChunksSearch.tsx:47-54 | `get`; `GetParamFirst` states it answers with the first pair |
| SearchParams.SetEntries | apps/web-remix/app/components/pages/knowledgeBase/collectionGraph/components/ChunksSearch.tsx:45-53 | `set`; `SetGet`, `SetLeavesOne`, `SetInPlace` and `SetOutside` state it |
| SearchParams.Deleted | apps/web-remix/app/components/pages/knowledgeBase/collectionGraph/components/ChunksSearch.tsx:162 | `delete`; `DeletedGet`, `DeletedCount` and `DeletedOutside` state it |
| SearchParams.DeletedGet | apps/web-remix/app/components/pages/knowledgeBase/collectionGraph/components/ChunksSearch.tsx:162 | after `delete`, `get` of that name is `null` and of any other name is what it was |
| SearchParams.SetGet | apps/web-remix/app/components/pages/knowledgeBase/collectionGraph/components/ChunksSearch.tsx:45-53 | after `set`, `get` gives the new value for that name and what it gave before for any other |
| SearchParams.DeletedCount | apps/web-remix/app/components/pages/knowledgeBase/collectionGraph/components/ChunksSearch.tsx:162 | `delete` leaves no pair with the name |
| SearchParams.SetLeavesOne | apps/web-remix/app/components/pages/knowledgeBase/collectionGraph/components/ChunksSearch.tsx:45-53 | `set` leaves exactly one pair with the name |
| SearchParams.SetInPlace | apps/web-remix/app/components/pages/knowledgeBase/collectionGraph/components/ChunksSearch.tsx:45-53 | `set` on a present name replaces its first pair in place and keeps every pair before it |
| SearchParams.DeletedOutside | apps/web-remix/app/components/pages/knowledgeBase/collectionGraph/components/ChunksSearch.tsx:162 | `delete` leaves the pairs with other names, and their order, alone |
| SearchParams.SetOutside | apps/web-remix/app/components/pages/knowledgeBase/collectionGraph/components/ChunksSearch.tsx:45-53 | `set` leaves the pairs with other names, and their order, alone |
| SearchParams.UrlSearchParams.Set | apps/web-remix/app/components/pages/knowledgeBase/collectionGraph/components/ChunksSearch.tsx:45 | the object's pairs become the `set` result; `get` of the name gives the value and of any other name what it gave before |
| SearchParams.UrlSearchParams.Delete | apps/web-remix/app/components/pages/knowledgeBase/collectionGraph/components/ChunksSearch.tsx:162 | the object's pairs become the `delete` result; `get` of the name is `null` and of any other name what it was |
| ChunksSearch.OptionalToString | apps/web-remix/app/components/pages/knowledgeBase/collectionGraph/components/ChunksSearch.tsx:46 | the text is empty exactly when the number is undefined, so `0` gives `"0"` |
| ChunksSearch.OptionalParam | apps/web-remix/app/components/pages/knowledgeBase/collectionGraph/components/ChunksSearch.tsx:46-47 | an optional number leaves a parameter exactly when it is defined, `0` included |
| ChunksSearch.SetOptional | apps/web-remix/app/components/pages/knowledgeBase/collectionGraph/components/ChunksSearch.tsx:46-54 | `set` then `delete` when empty: the parameter is present exactly when the value is defined, and no other parameter changes |
| ChunksSearch.SetManaged | apps/web-remix/app/components/pages/knowledgeBase/collectionGraph/components/ChunksSearch.tsx:45-52 | `set` of a managed name gives it the value and changes no other parameter |
| ChunksSearch.OnSubmit | apps/web-remix/app/components/pages/knowledgeBase/collectionGraph/components/ChunksSearch.tsx:41-60 | the pathname is kept; `query` is the submitted query; `limit`, `token_limit` and `memory_id` are present exactly when defined; the two `extend_*` flags are `"true"` or `"false"`; every other parameter, and their order, is kept |
| ChunksSearch.Clear | apps/web-remix/app/components/pages/knowledgeBase/collectionGraph/components/ChunksSearch.tsx:158-167 | `query` is removed and every other parameter, and their order, and the pathname are kept |
| ChatMessages.Rev | apps/web-remix/app/components/chat/ChatMessages.tsx:17 | the mapped list has the messages' length and holds at position `i` the message `i` places from the end |
| ChatMessages.Reversed | apps/web-remix/app/components/chat/ChatMessages.tsx:15-18 | with no messages the list is `initialMessages`, or empty when that is undefined; otherwise the messages newest first |
| ChatMessages.ReversedTwice | apps/web-remix/app/components/chat/ChatMessages.tsx:15-18 | reversing a non-empty list twice gives it back, whatever the fallback |
| ChatMessages.RevLast | apps/web-remix/app/components/chat/ChatMessages.tsx:17 | the newest message is shown first, followed by the earlier ones reversed |
| ChatMessages.RevPermutes | apps/web-remix/app/components/chat/ChatMessages.tsx:17 | the reversed list shows the same messages, each as often: a permutation |
| Routes.Path | apps/web-remix/app/utils/routes.utils.ts:1-32 | every route is `/` followed by its segments joined with `/` |
| Routes.PathSegments | apps/web-remix/app/utils/routes.utils.ts:1-32 | a path whose segments hold no `/` splits back into an empty part and those segments |
| Routes.PathAppend | apps/web-remix/app/utils/routes.utils.ts:7-31 | appending `/segment` to a route is the path with one more segment |
| Routes.Organization | apps/web-remix/app/utils/routes.utils.ts:6 | the organization page is the one-segment path of its id |
| Routes.NewOrganization | apps/web-remix/app/utils/routes.utils.ts:7 | the path `organizations`/`new` |
| Routes.Pipelines | apps/web-remix/app/utils/routes.utils.ts:8-9 | the path organization id / `pipelines` |
| Routes.Pipeline | apps/web-remix/app/utils/routes.utils.ts:10-11 | the path organization id / `pipelines` / pipeline id |
| Routes.PipelineRuns | apps/web-remix/app/utils/routes.utils.ts:12-13 | the pipeline's path followed by the segment `overview` |
| Routes.PipelineInterface | apps/web-remix/app/utils/routes.utils.ts:14-15 | the pipeline's path followed by the segment `interface` |
| Routes.PipelineSettings | apps/web-remix/app/utils/routes.utils.ts:16-17 | the pipeline's path followed by the segment `settings` |
| Routes.PipelinesNew | apps/web-remix/app/utils/routes.utils.ts:18-19 | the path organization id / `pipelines` / `new` |
| Routes.KnowledgeBase | apps/web-remix/app/utils/routes.utils.ts:20-21 | the path organization id / `knowledge-base` |
| Routes.CollectionKnowledgeBase | apps/web-remix/app/utils/routes.utils.ts:22-25 | the path organization id / `knowledge-base` / collection name |
| Routes.CollectionKnowledgeBaseNew | apps/web-remix/app/utils/routes.utils.ts:26-29 | the collection's path followed by the segment `new` |
| Routes.ApiKeys | apps/web-remix/app/utils/routes.utils.ts:30-31 | the path organization id / `api-keys` |
| Routes.RoutesAreAbsolute | apps/web-remix/app/utils/routes.utils.ts:1-32 | every route, constant or built, starts with `/` |
| Routes.PipelineSegments | apps/web-remix/app/utils/routes.utils.ts:10-11 | a pipeline's path reads back as its organization id and pipeline id when neither holds `/` |
| Routes.PipelineInjective | apps/web-remix/app/utils/routes.utils.ts:10-11 | two pipelines with the same path have the same ids, for ids without `/` |
| Routes.CollectionSegments | apps/web-remix/app/utils/routes.utils.ts:26-29 | a new-document path reads back as its organization id and collection name when neither holds `/` |
| Routes.PipelinePagesNest | apps/web-remix/app/utils/routes.utils.ts:8-19 | overview, interface and settings lie under the pipeline's path, the pipeline under the pipelines list, and the new-pipeline page is the path of a pipeline with id `new` |
| HomeLoader.FindIndex | apps/web-remix/app/components/pages/home/loader.tsx:18 | the index of the first organization with the saved id, or -1 exactly when none has it |
| HomeLoader.At | apps/web-remix/app/components/pages/home/loader.tsx:19 | `at` is defined exactly for indices from `-length` to `length - 1`, a negative one counting from the end |
| HomeLoader.Redirect | apps/web-remix/app/components/pages/home/loader.tsx:17-25 | the saved organization's pipelines when it is listed; otherwise (the index is -1) the last organization's pipelines; with no organizations the new-organization page |
| HomeLoader.RedirectIsKnownPage | apps/web-remix/app/components/pages/home/loader.tsx:21-25 | the redirect is the new-organization page or the pipelines of a listed organization |
| ServerUtils.LoaderSettles | apps/web-remix/app/utils.server.ts:13-46 | a handler's return value is passed through unchanged; an unknown API error throws the 500 reply with the toast cookie, not found throws the 404, unauthorized throws the login redirect; a validation error or any other error is rethrown unchanged; a loader never returns a reply of its own |
| ServerUtils.HandlerFor | apps/web-remix/app/utils.server.ts:65-96 | a request method other than POST, DELETE, PATCH, PUT and GET has no handler |
| ServerUtils.ActionSettles | apps/web-remix/app/utils.server.ts:48-127 | no handler for the method returns a 404; a handler's return value is passed through; an unknown API error returns a 500 with the toast cookie; a validation error returns its field errors; not found throws the 404 and unauthorized the login redirect; any other error is rethrown unchanged |
| ServerUtils.UnknownMethodNotFound | apps/web-remix/app/utils.server.ts:65-126 | any other method settles as a returned 404 |
| ServerUtils.LoaderAndActionAgree | apps/web-remix/app/utils.server.ts:17-124 | loaders and actions settle a handler's outcome alike, except that the action returns the validation and unknown-API replies where the loader rethrows and throws them |
| ServerUtils.UnauthorizedRedirectsToLogin | apps/web-remix/app/utils.server.ts:35-106 | unauthorized throws, in both builders, a redirect to `/login` that expires the session cookie |
| ServerUtils.ApiUrl | apps/web-remix/app/utils.server.ts:132-135 | the fetched URL is `PAGE_URL` (or `undefined`) and `/super-api`, followed by exactly the requested path |
| Csp.WsRun | apps/web-remix/server.mjs:181 | the length of the leading whitespace run: all whitespace, and followed by non-whitespace or the end |
| Csp.CollapseAppend | apps/web-remix/server.mjs:181 | the replacement distributes over a concatenation that does not join two whitespace runs |
| Csp.CollapseFixed | apps/web-remix/server.mjs:181 | text with no two adjacent whitespace characters is left unchanged |
| Csp.CollapseLeavesNoDouble | apps/web-remix/server.mjs:181 | after the replacement no two adjacent characters are whitespace |
| Csp.Collapse | apps/web-remix/server.mjs:181 | `.replace(/\s{2,}/g, ' ')`; `CollapseAppend`, `CollapseFixed` and `CollapseLeavesNoDouble` state it |
| Csp.Trim | apps/web-remix/server.mjs:182 | the trimmed text is empty or starts and ends with non-whitespace |
| Csp.TrimIsSlice | apps/web-remix/server.mjs:182 | trimming removes only whitespace, from the two ends |
| Csp.TrimKeeps | apps/web-remix/server.mjs:182 | a word that starts and ends with non-whitespace survives trimming |
| Csp.TrimKeepsNoDouble | apps/web-remix/server.mjs:182 | trimming keeps text free of double whitespace |
| Csp.EmbeddablePages | apps/web-remix/server.mjs:98-99 | every URL under `/webchats` or `/forms` may be embedded |
| Csp.IsIframeAllowed | apps/web-remix/server.mjs:98-99 | the URL starts with `/webchats` or `/forms`; `EmbeddablePages` states it |
| Csp.Template | apps/web-remix/server.mjs:168-180 | the template literal; `PolicyHasNonce` and `PolicyHasConnectSrc` state what survives collapsing |
| Csp.ConnectSrc | apps/web-remix/server.mjs:172 | the `connect-src` line; `ConnectSrcCollapsed` states its collapsed form |
| Csp.FrameAncestors | apps/web-remix/server.mjs:184-188 | the appended `frame-ancestors` directive; `CreateCsp` states it ends the policy |
| Csp.CreateCsp | apps/web-remix/server.mjs:167-191 | the policy is the collapsed and trimmed template followed by `frame-ancestors *` for embeddable pages and `frame-ancestors 'self'` otherwise; before that suffix no two whitespace characters are adjacent; it holds the nonce source and the collapsed `connect-src` directive |
| Csp.NonceSourceFixed | apps/web-remix/server.mjs:169 | a nonce without whitespace gives a quoted source that the replacement leaves alone |
| Csp.ConnectSrcCollapsed | apps/web-remix/server.mjs:172-181 | the `connect-src` line collapses to `'self'`, `ws:` only in development, the API URL and plausible, separated by single spaces |
| Csp.PolicyHasNonce | apps/web-remix/server.mjs:168-182 | the finished template holds the request's nonce source |
| Csp.PolicyHasConnectSrc | apps/web-remix/server.mjs:168-182 | the finished template holds the collapsed `connect-src` directive |
| Strings.IndexOf | apps/web-remix/app/components/pages/pipelines/Nodes/CustomNodes/NodeReadonlyFields.tsx:176-177 | the first position at which the pattern occurs, and none exactly when it does not occur |
| Strings.SplitHead | apps/web-remix/app/components/pages/pipelines/show/usePipelineRun.tsx:43-51 | the first part of a split is the whole text without a separator, and otherwise the text before the first separator |
| Strings.NatToString | apps/web-remix/app/components/pages/pipelines/Nodes/CustomNodes/NodeReadonlyFields.tsx:176-177 | `toString()` of a non-negative id is a non-empty run of decimal digits |
| Strings.ReplaceFirstAt | apps/web-remix/app/components/pages/pipelines/Nodes/CustomNodes/NodeReadonlyFields.tsx:176-177 | when no earlier character can start the pattern, the occurrence after the prefix is the one replaced |
| SearchParams.UrlSearchParams.constructor | apps/web-remix/app/components/pages/knowledgeBase/collectionGraph/components/ChunksSearch.tsx:44 | `new URLSearchParams(url.search)` holds the URL's pairs, in order |
| Js.Coalesce | apps/web-remix/app/components/pages/pipelines/Nodes/CustomNodes/NodeReadonlyFields.tsx:39-40 | `??` gives another value than `||` exactly when the value is `false`, `0` or `''` and the fallback is something else |

## Left out

- The realtime transport: the phoenix socket and channel, the `channel_auth` token fetch and `File.arrayBuffer()`. They enter the model as events and parameters: the token is an `Option`, the bytes are opaque `seq<bv8>`. Rejoins, timeouts and heartbeats are not modelled.
- The random socket id (`uuid`) and the CSP nonce (`crypto.randomBytes`) are parameters.
- Interleaving of asynchronous callbacks: each event is one atomic method call, and any order of calls is allowed.
- The thin `apps/web-remix/.../pipelines/usePipelineRun.tsx` wrapper and the `@buildel/buildel` package are not part of this model.
- Numbers are unbounded integers, and ids are naturals. Floating point, `Number()` parsing and number formatting other than `toString` of a natural are not modelled.
- Object key order is not modelled, because objects are maps; the one exception is the key list of a submitted form (`NodeFields.Keys`). This affects the key order of `Object.keys`, of spreads and of `JSON.stringify` beyond the `{name, type}` entries.
- lodash `isEqual` is structural equality of values, and lodash `merge` is not modelled.
- `JSON.parse` is modelled only on the compact form `JSON.stringify` writes for `{name, type}` entries. Lone UTF-16 surrogates are not modelled.
- URL parsing and `URLSearchParams.toString` (percent-encoding) are not modelled: a URL is a pathname plus a list of name/value pairs.
- The Zod schemas (`search.schema.ts` and others) are taken as already applied: the model receives typed values.
- `usePagination` is reduced to a count of `goToNext` calls.
- `fetcher.load` is a logged request, and the fetcher state is a parameter.
- `useInfiniteFetch`'s `dataExtractor` is a parameter.
- `setToastError`'s cookie is a parameter. The `validationError` response of `remix-validated-form` is kept abstract, as its field errors. A redirect is assumed to be a 302.
- `fetchTyped` itself, and the merge of its headers with the caller's options, are not modelled. Only the URL `requestFetchTyped` builds is.
- The build loader's `Promise.all` of API calls is not modelled. The dynamic I/O fetch is a parameter.
- The `onRequest` headers other than `Content-Security-Policy`, Fastify's setup, static files and the metrics server are not modelled.
- Rendering, styling and the React Flow graph editor are not modelled. Where a component's output matters (`NodePromptInputs`, `NodeReadonlyFields`), the model computes what is shown, not the markup.
- Csp.PolicyHasConnectSrc: the proof covers an `API_URL` that is set (or `undefined`) and contains no whitespace. It also shows `ws:` in the directive only in development, not its absence from the rest of the policy.
- Csp.PolicyHasNonce: the proof covers a nonce without whitespace, as a hexadecimal nonce always is.
- Csp.CreateCsp: its containment clauses carry the same two conditions.
- BuildLoader.PrepareIOsUrlOne: the replacement is proved for a URL with one `{{key}}` placeholder. A URL with several is covered by the definition (`Placeholders.LazyReplace`), but no lemma states it.
- Placeholders.LazyReplaceOne: likewise, it covers one placeholder.
- HomeLoader.FindIndex: `getOrganizationId` (the saved id read from the request's cookie) is not part of this model; its result is taken to be a number or nothing. Were it a string, `org.id === organizationId` would never hold and the loader would always pick `at(-1)`.
- ReadonlyFields.ReadyUrl: the form context is a map from names to strings, taken as already turned into text. The source's context can hold numbers, booleans or objects, which the template replacement converts to text; that conversion is not modelled.
- NodeFields.Keys: the keys are listed in first-entry order. `Object.keys` lists integer-like keys (`"0"`, `"12"`) first, in ascending order, and the model does not; block input names are not integer-like.

## Findings

| source | as written | input that shows it | evidently intended | confidence | as-written member | corrected member |
|---|---|---|---|---|---|---|
| apps/web-remix/app/components/pages/pipelines/useUndoRedo.tsx:18 | the no-op guard is `isEqual(state.curr, action.payload)`, comparing the current value with the whole `{data, ignore}` payload | current value `1`, then `SET` with `data = 1`, `ignore = false`: the guard never fires, and the history records `1` twice | compare with `action.payload.data`, so setting the current value again changes nothing | not executed | UndoRedo.SetSameValueRecordsDuplicate | UndoRedo.IntendedSetSameValueIsNoOp |

=== FILE: block_io.dfy ===
/** The inputs and outputs of a block type, as both web apps receive them from the API. */
module BlockIO {

  /** An input, output or io of a block type; only public ones can be wired from outside. */
  datatype IO = IO(name: string, ioType: string, public: bool)

  /** `ios.filter((io) => io.public)`, which both apps' `getPublicIOs` helpers compute. */
  function PublicOnly(ios: seq<IO>): (r: seq<IO>)
    ensures |r| <= |ios|
    ensures forall x :: x in r <==> x in ios && x.public
  {
    if ios == [] then []
    else (if ios[0].public then [ios[0]] else []) + PublicOnly(ios[1..])
  }

  /** Filtering keeps the order: the public entries of `a + b` are those of `a`, then those of `b`. */
  lemma {:induction false} PublicOnlyAppend(a: seq<IO>, b: seq<IO>)
    ensures PublicOnly(a + b) == PublicOnly(a) + PublicOnly(b)
  {
    if a != [] {
      assert (a + b)[1..] == a[1..] + b;
      PublicOnlyAppend(a[1..], b);
    } else {
      assert a + b == b;
    }
  }

  /** A list that is already all public is kept whole. */
  lemma {:induction false} PublicOnlyKeepsPublic(ios: seq<IO>)
    requires forall i :: 0 <= i < |ios| ==> ios[i].public
    ensures PublicOnly(ios) == ios
  {
    if ios != [] {
      PublicOnlyKeepsPublic(ios[1..]);
    }
  }
}

=== FILE: build_loader.dfy ===
/**
 * `build/loader.server.tsx`: the pipeline builder's loader, which attaches to
 * every block its block type, extended with the dynamic I/Os of a block whose
 * type declares them and that names a workflow.
 */
module BuildLoader {
  import opened Wrappers
  import opened Strings
  import opened Placeholders
  import opened BlockIO

  /** The API's description of a block type. */
  datatype BlockType = BlockType(
    typeName: string,
    inputs: seq<IO>,
    outputs: seq<IO>,
    ios: seq<IO>,
    /** The URL template of the dynamic-I/O endpoint; `""` when there is none. */
    dynamicIos: string)

  /** A block of the pipeline config, with the block type the loader attached, if any. */
  datatype Block = Block(name: string, typeName: string, workflow: Option<string>, blockType: Option<BlockType>)

  /** The dynamic-I/O endpoint's answer. */
  datatype DynamicIOs = DynamicIOs(inputs: seq<IO>, outputs: seq<IO>, ios: seq<IO>)

  /** `prepareIO`: the I/O made non-public. */
  function PrepareIO(io: IO): (r: IO)
    ensures r.name == io.name && r.ioType == io.ioType && !r.public
  {
    io.(public := false)
  }

  /** `getPublicIOs(ios).map(prepareIO)` */
  function PreparedPublic(ios: seq<IO>): (r: seq<IO>)
    ensures |r| == |PublicOnly(ios)|
    ensures forall i :: 0 <= i < |r| ==> r[i] == PrepareIO(PublicOnly(ios)[i])
  {
    var pub := PublicOnly(ios);
    seq(|pub|, i requires 0 <= i < |pub| => PrepareIO(pub[i]))
  }

  /**
   * `prepareIOsUrl`: every lazy `{{key}}` becomes `context[key]` (the string
   * `"undefined"` for a missing key), then the first `/api` is removed.
   */
  function PrepareIOsUrl(url: string, context: map<string, string>): string {
    ReplaceFirst(LazyReplace(url, 0, context), "/api", "")
  }

  /**
   * With one `{{key}}` reference, the URL is the text around it with the
   * reference replaced, minus its first `/api`.
   */
  lemma PrepareIOsUrlOne(url: string, a: nat, j: nat, context: map<string, string>)
    requires a + 2 <= j && OpenAt(url, a) && CloseAt(url, j)
    requires forall q :: 0 <= q < a ==> url[q] != '{'
    requires forall m :: a + 2 <= m < j ==> url[m] != '}' && !IsLineTerminator(url[m])
    requires forall q :: j + 2 <= q < |url| ==> url[q] != '{'
    ensures PrepareIOsUrl(url, context)
      == ReplaceFirst(url[..a] + LookupOrUndefined(context, url[a + 2..j]) + url[j + 2..], "/api", "")
  {
    LazyReplaceOne(url, a, j, context);
  }

  /** `blockTypes.find((blockType) => blockType.type === block.type)` */
  function FindType(types: seq<BlockType>, typeName: string): (r: Option<BlockType>)
    ensures r.Some? ==> r.value in types && r.value.typeName == typeName
    ensures r.None? ==> forall t :: t in types ==> t.typeName != typeName
    ensures r.Some? ==> exists i :: (0 <= i < |types| && types[i] == r.value
      && forall j :: 0 <= j < i ==> types[j].typeName != typeName)
  {
    if types == [] then None
    else if types[0].typeName == typeName then Some(types[0])
    else
      var r := FindType(types[1..], typeName);
      if r.Some? then
        assert exists i :: (0 <= i < |types| && types[i] == r.value
          && forall j :: 0 <= j < i ==> types[j].typeName != typeName) by {
          var i :| 0 <= i < |types[1..]| && types[1..][i] == r.value
            && forall j :: 0 <= j < i ==> types[1..][j].typeName != typeName;
          assert types[i + 1] == r.value;
          forall j | 0 <= j < i + 1 ensures types[j].typeName != typeName {
            if j > 0 { assert types[j] == types[1..][j - 1]; }
          }
        }
        r
      else r
  }

  /** The context the dynamic-I/O URL is filled from. */
  function UrlContext(organizationId: string, workflow: string): map<string, string> {
    map["organization_id" := organizationId, "opts.workflow" := workflow]
  }

  /**
   * The loader's per-block step. `fetchDynamic` stands for the dynamic-I/O
   * request: it maps a prepared URL to the endpoint's answer.
   */
  function MergeBlock(block: Block, types: seq<BlockType>, organizationId: string,
                      fetchDynamic: string -> DynamicIOs): (r: Block)
    ensures FindType(types, block.typeName).None? ==> r == block
    ensures r.name == block.name && r.typeName == block.typeName && r.workflow == block.workflow
  {
    match FindType(types, block.typeName)
    case None => block
    case Some(bt) =>
      if bt.dynamicIos != "" && block.workflow.Some? && block.workflow.value != "" then
        var dynamic := fetchDynamic(PrepareIOsUrl(bt.dynamicIos, UrlContext(organizationId, block.workflow.value)));
        block.(blockType := Some(bt.(
          inputs := bt.inputs + PreparedPublic(dynamic.inputs),
          outputs := bt.outputs + PreparedPublic(dynamic.outputs),
          ios := bt.ios + PreparedPublic(dynamic.ios))))
      else block.(blockType := Some(bt))
  }

  /** Without dynamic I/Os or without a workflow, the block type is attached as it is. */
  lemma StaticTypeAttached(block: Block, types: seq<BlockType>, organizationId: string,
                           fetchDynamic: string -> DynamicIOs)
    requires FindType(types, block.typeName).Some?
    requires FindType(types, block.typeName).value.dynamicIos == "" || block.workflow.None? || block.workflow == Some("")
    ensures MergeBlock(block, types, organizationId, fetchDynamic).blockType == FindType(types, block.typeName)
  {
  }

  /**
   * With both, the static lists come first, unchanged, followed by the public
   * dynamic entries in their order, every one of them non-public.
   */
  lemma DynamicIOsAppended(block: Block, types: seq<BlockType>, organizationId: string,
                           fetchDynamic: string -> DynamicIOs)
    requires FindType(types, block.typeName).Some?
    requires FindType(types, block.typeName).value.dynamicIos != ""
    requires block.workflow.Some? && block.workflow.value != ""
    ensures var bt := FindType(types, block.typeName).value;
      var merged := MergeBlock(block, types, organizationId, fetchDynamic).blockType.value;
      && merged.typeName == bt.typeName && merged.dynamicIos == bt.dynamicIos
      && merged.inputs[..|bt.inputs|] == bt.inputs
      && merged.outputs[..|bt.outputs|] == bt.outputs
      && merged.ios[..|bt.ios|] == bt.ios
      && (forall i :: |bt.inputs| <= i < |merged.inputs| ==> !merged.inputs[i].public)
      && (forall i :: |bt.outputs| <= i < |merged.outputs| ==> !merged.outputs[i].public)
      && (forall i :: |bt.ios| <= i < |merged.ios| ==> !merged.ios[i].public)
  {
    var bt := FindType(types, block.typeName).value;
    var merged := MergeBlock(block, types, organizationId, fetchDynamic).blockType.value;
    assert merged.inputs[..|bt.inputs|] == bt.inputs;
    assert merged.outputs[..|bt.outputs|] == bt.outputs;
    assert merged.ios[..|bt.ios|] == bt.ios;
  }

  /** The loader's `Promise.all(blocks.map(…))`: each block merged, in order. */
  function MergeBlocks(blocks: seq<Block>, types: seq<BlockType>, organizationId: string,
                       fetchDynamic: string -> DynamicIOs): (r: seq<Block>)
    ensures |r| == |blocks|
    ensures forall i :: 0 <= i < |blocks| ==> r[i] == MergeBlock(blocks[i], types, organizationId, fetchDynamic)
  {
    seq(|blocks|, i requires 0 <= i < |blocks| => MergeBlock(blocks[i], types, organizationId, fetchDynamic))
  }
}

=== FILE: chat_messages.dfy ===
/** `ChatMessages`: the list shown newest first, with a fallback while there are no messages. */
module ChatMessages {
  import opened Wrappers

  /** `messages.map((_, idx) => messages[messages.length - 1 - idx])` */
  function Rev<M>(messages: seq<M>): (r: seq<M>)
    ensures |r| == |messages|
    ensures forall i :: 0 <= i < |r| ==> r[i] == messages[|messages| - 1 - i]
  {
    seq(|messages|, i requires 0 <= i < |messages| => messages[|messages| - 1 - i])
  }

  /** `reversed`: `initialMessages ?? []` when there are no messages, the messages reversed otherwise. */
  function Reversed<M>(messages: seq<M>, initialMessages: Option<seq<M>>): (r: seq<M>)
    ensures |messages| == 0 ==> r == initialMessages.GetOr([])
    ensures |messages| > 0 ==> r == Rev(messages)
  {
    if |messages| == 0 then initialMessages.GetOr([]) else Rev(messages)
  }

  /** Reversing twice gives the original messages back, whatever the fallback. */
  lemma ReversedTwice<M>(messages: seq<M>, initial: Option<seq<M>>, initial': Option<seq<M>>)
    requires |messages| > 0
    ensures Reversed(Reversed(messages, initial), initial') == messages
  {
    assert Rev(Rev(messages)) == messages;
  }

  /** Reversal peels off the last message first. */
  lemma RevLast<M>(messages: seq<M>)
    requires |messages| > 0
    ensures Rev(messages) == [messages[|messages| - 1]] + Rev(messages[..|messages| - 1])
  {
  }

  /** Reversal shows the same messages, each as often: it is a permutation. */
  lemma {:induction false} RevPermutes<M>(messages: seq<M>)
    ensures multiset(Rev(messages)) == multiset(messages)
  {
    if |messages| > 0 {
      var init := messages[..|messages| - 1];
      RevLast(messages);
      RevPermutes(init);
      assert messages == init + [messages[|messages| - 1]];
    }
  }
}

=== FILE: chunks_search.dfy ===
/**
 * `ChunksSearch.tsx`: the knowledge-base chunk search form writes its values into
 * the page's query string and navigates to the same path.
 */
module ChunksSearch {
  import opened Wrappers
  import opened Strings
  import opened SearchParams

  /** A location: its pathname and its query parameters. */
  datatype Location = Location(pathname: string, search: seq<Param>)

  /** The validated form values; the three numbers are optional non-negative integers. */
  datatype SearchValues = SearchValues(
    query: string,
    limit: Option<nat>,
    tokenLimit: Option<nat>,
    extendNeighbors: bool,
    extendParents: bool,
    memoryId: Option<nat>)

  /** The parameters the form owns. */
  const Managed: set<string> := {"query", "limit", "token_limit", "extend_neighbors", "extend_parents", "memory_id"}

  /** `b.toString()` */
  function BoolToString(b: bool): string {
    if b then "true" else "false"
  }

  /** `n?.toString() ?? ''` */
  function OptionalToString(n: Option<nat>): (r: string)
    ensures r == "" <==> n.None?
  {
    match n
    case Some(v) => NatToString(v)
    case None => ""
  }

  /** The value an optional number leaves in the query string: absent when undefined, `0` included. */
  function OptionalParam(n: Option<nat>): (r: Option<string>)
    ensures r.Some? <==> n.Some?
  {
    match n
    case Some(v) => Some(NatToString(v))
    case None => None
  }

  /** `searchParams.set(name, n?.toString() ?? '')`, then `delete(name)` if `get(name) === ''`. */
  method SetOptional(params: UrlSearchParams, name: string, n: Option<nat>)
    modifies params
    ensures params.Get(name) == OptionalParam(n)
    ensures forall other :: other != name ==> params.Get(other) == old(params.Get(other))
    ensures name in Managed ==> Outside(params.entries, Managed) == Outside(old(params.entries), Managed)
  {
    if name in Managed {
      SetOutside(params.entries, name, OptionalToString(n), Managed);
    }
    params.Set(name, OptionalToString(n));
    if params.Get(name) == Some("") {
      if name in Managed {
        DeletedOutside(params.entries, name, Managed);
      }
      params.Delete(name);
    }
  }

  /** `searchParams.set(name, value)` with the untouched parameters followed along. */
  method SetManaged(params: UrlSearchParams, name: string, value: string)
    requires name in Managed
    modifies params
    ensures params.Get(name) == Some(value)
    ensures forall other :: other != name ==> params.Get(other) == old(params.Get(other))
    ensures Outside(params.entries, Managed) == Outside(old(params.entries), Managed)
  {
    SetOutside(params.entries, name, value, Managed);
    params.Set(name, value);
  }

  /**
   * `onSubmit`: `query` and both `extend_*` flags are always set, the three numbers
   * are present exactly when given, and every other parameter, in its order, and
   * the pathname are kept.
   */
  method OnSubmit(url: Location, values: SearchValues) returns (target: Location)
    ensures target.pathname == url.pathname
    ensures GetParam(target.search, "query") == Some(values.query)
    ensures GetParam(target.search, "limit") == OptionalParam(values.limit)
    ensures GetParam(target.search, "token_limit") == OptionalParam(values.tokenLimit)
    ensures GetParam(target.search, "extend_neighbors") == Some(BoolToString(values.extendNeighbors))
    ensures GetParam(target.search, "extend_parents") == Some(BoolToString(values.extendParents))
    ensures GetParam(target.search, "memory_id") == OptionalParam(values.memoryId)
    ensures Outside(target.search, Managed) == Outside(url.search, Managed)
  {
    var params := new UrlSearchParams(url.search);
    SetManaged(params, "query", values.query);
    SetOptional(params, "limit", values.limit);
    SetOptional(params, "token_limit", values.tokenLimit);
    SetManaged(params, "extend_neighbors", BoolToString(values.extendNeighbors));
    SetManaged(params, "extend_parents", BoolToString(values.extendParents));
    SetOptional(params, "memory_id", values.memoryId);
    target := Location(url.pathname, params.entries);
  }

  /** The clear button: `query` is removed and every other parameter kept, in order. */
  method Clear(url: Location) returns (target: Location)
    ensures target.pathname == url.pathname
    ensures GetParam(target.search, "query") == None
    ensures forall other :: other != "query" ==> GetParam(target.search, other) == GetParam(url.search, other)
    ensures Outside(target.search, {"query"}) == Outside(url.search, {"query"})
  {
    var params := new UrlSearchParams(url.search);
    DeletedOutside(params.entries, "query", {"query"});
    forall other | other != "query"
      ensures GetParam(Deleted(url.search, "query"), other) == GetParam(url.search, other)
    {
      DeletedGet(url.search, "query", other);
    }
    params.Delete("query");
    target := Location(url.pathname, params.entries);
  }
}

=== FILE: csp.dfy ===
/**
 * `createCSP` in `server.mjs`: the `Content-Security-Policy` header, built from
 * a multi-line template whose whitespace runs are collapsed and trimmed, with a
 * `frame-ancestors` directive chosen by whether the page may be embedded.
 */
module Csp {
  import opened Wrappers
  import opened Strings

  // ---- `.replace(/\s{2,}/g, ' ')` ----

  /** The length of the whitespace run at the start of `s`. */
  function WsRun(s: string): (n: nat)
    ensures n <= |s|
    ensures forall i :: 0 <= i < n ==> IsWhitespace(s[i])
    ensures n == |s| || !IsWhitespace(s[n])
  {
    if s == [] || !IsWhitespace(s[0]) then 0 else 1 + WsRun(s[1..])
  }

  /**
   * `s.replace(/\s{2,}/g, ' ')`: scanning left to right, a run of two or more
   * whitespace characters becomes one space; a lone whitespace character stays.
   */
  function Collapse(s: string): string
    decreases |s|
  {
    if s == [] then [] else Head(s) + Collapse(s[Skip(s)..])
  }

  /** How many characters one step of the scan consumes. */
  function Skip(s: string): (k: nat)
    requires s != []
    ensures 1 <= k <= |s|
  {
    if IsWhitespace(s[0]) && WsRun(s) >= 2 then WsRun(s) else 1
  }

  /** What one step of the scan writes: a space for a run, the character otherwise. */
  function Head(s: string): (h: string)
    requires s != []
    ensures |h| == 1 && (IsWhitespace(h[0]) <==> IsWhitespace(s[0]))
  {
    if IsWhitespace(s[0]) && WsRun(s) >= 2 then " " else [s[0]]
  }

  /** No two adjacent characters of `s` are both whitespace. */
  predicate NoDoubleWhitespace(s: string) {
    forall i :: 0 <= i < |s| - 1 ==> !(IsWhitespace(s[i]) && IsWhitespace(s[i + 1]))
  }

  /** The run at the start of `x + y` is the run of `x`, unless it reaches into `y`. */
  lemma WsRunAppend(x: string, y: string)
    requires WsRun(x) < |x| || y == [] || !IsWhitespace(y[0])
    ensures WsRun(x + y) == WsRun(x)
  {
    var n := WsRun(x);
    assert forall i :: 0 <= i < |x| ==> (x + y)[i] == x[i];
    assert n == |x| && y != [] ==> (x + y)[n] == y[0];
  }

  /** One scan step over `x + y` is the step over `x` when no run straddles the cut. */
  lemma StepAppend(x: string, y: string)
    requires x != []
    requires y == [] || !IsWhitespace(y[0]) || !IsWhitespace(x[|x| - 1])
    ensures Skip(x + y) == Skip(x) && Head(x + y) == Head(x)
    ensures (x + y)[Skip(x)..] == x[Skip(x)..] + y
  {
    assert WsRun(x) == |x| ==> IsWhitespace(x[|x| - 1]);
    WsRunAppend(x, y);
    assert (x + y)[0] == x[0];
    SliceAppend(x, y, Skip(x));
  }

  lemma SliceAppend(x: string, y: string, k: nat)
    requires k <= |x|
    ensures (x + y)[k..] == x[k..] + y
  {
  }

  /**
   * Collapsing works piece by piece when no whitespace run straddles the cut:
   * `x` ends, or `y` starts, with a character that is not whitespace.
   */
  lemma {:induction false} CollapseAppend(x: string, y: string)
    requires y == [] || !IsWhitespace(y[0]) || (x != [] && !IsWhitespace(x[|x| - 1]))
    ensures Collapse(x + y) == Collapse(x) + Collapse(y)
    decreases |x|
  {
    if x == [] {
      assert x + y == y;
    } else {
      var rest := x[Skip(x)..];
      if rest != [] {
        assert rest[|rest| - 1] == x[|x| - 1];
        CollapseAppend(rest, y);
      } else {
        assert rest + y == y;
      }
      CollapseAppendStep(x, y);
    }
  }

  /** The step case of `CollapseAppend`: one scan step, then the rest by hypothesis. */
  lemma CollapseAppendStep(x: string, y: string)
    requires x != []
    requires y == [] || !IsWhitespace(y[0]) || !IsWhitespace(x[|x| - 1])
    requires Collapse(x[Skip(x)..] + y) == Collapse(x[Skip(x)..]) + Collapse(y)
    ensures Collapse(x + y) == Collapse(x) + Collapse(y)
  {
    StepAppend(x, y);
    CollapseStep(x);
    CollapseStep(x + y);
    AppendAssoc(Head(x), Collapse(x[Skip(x)..]), Collapse(y));
  }

  lemma AppendAssoc(a: string, b: string, c: string)
    ensures a + (b + c) == (a + b) + c
  {
  }

  /** One step of the scan, unfolded. */
  lemma CollapseStep(s: string)
    requires s != []
    ensures Collapse(s) == Head(s) + Collapse(s[Skip(s)..])
  {
  }

  /** A string with no two adjacent whitespace characters is left as it is. */
  lemma {:induction false} CollapseFixed(s: string)
    requires NoDoubleWhitespace(s)
    ensures Collapse(s) == s
    decreases |s|
  {
    if s != [] {
      assert |s| > 1 ==> !(IsWhitespace(s[0]) && IsWhitespace(s[1]));
      assert Skip(s) == 1;
      CollapseFixed(s[1..]);
    }
  }

  /** Collapsing keeps whether the text starts with whitespace. */
  lemma CollapseHead(s: string)
    requires s != []
    ensures Collapse(s) != [] && (IsWhitespace(Collapse(s)[0]) <==> IsWhitespace(s[0]))
  {
  }

  /** After collapsing, no two adjacent characters are both whitespace. */
  lemma {:induction false} CollapseLeavesNoDouble(s: string)
    ensures NoDoubleWhitespace(Collapse(s))
    decreases |s|
  {
    if s != [] {
      var k := Skip(s);
      var rest := s[k..];
      CollapseLeavesNoDouble(rest);
      var r := Collapse(s);
      assert r[1..] == Collapse(rest);
      if rest != [] {
        CollapseHead(rest);
        assert IsWhitespace(s[0]) ==> !IsWhitespace(rest[0]);
      }
      forall i | 0 <= i < |r| - 1 ensures !(IsWhitespace(r[i]) && IsWhitespace(r[i + 1])) {
        if i > 0 {
          assert r[i] == r[1..][i - 1] && r[i + 1] == r[1..][i];
        }
      }
    }
  }

  // ---- `.trim()` ----

  /** The length of the whitespace run at the end of `s`. */
  function TrailingRun(s: string): (n: nat)
    ensures n <= |s|
    ensures forall i :: |s| - n <= i < |s| ==> IsWhitespace(s[i])
    ensures n == |s| || !IsWhitespace(s[|s| - n - 1])
  {
    if s == [] || !IsWhitespace(s[|s| - 1]) then 0
    else
      var n := TrailingRun(s[..|s| - 1]);
      assert forall i :: 0 <= i < |s| - 1 ==> s[..|s| - 1][i] == s[i];
      n + 1
  }

  /** `s.trim()`: the whitespace at both ends removed. */
  function Trim(s: string): (r: string)
    ensures r == [] || (!IsWhitespace(r[0]) && !IsWhitespace(r[|r| - 1]))
  {
    var t := s[WsRun(s)..];
    assert t != [] ==> !IsWhitespace(t[0]);
    var r := t[..|t| - TrailingRun(t)];
    assert r != [] ==> r[0] == t[0];
    r
  }

  /** Trimming cuts a slice out of the text. */
  lemma TrimIsSlice(s: string) returns (a: nat, e: nat)
    ensures a <= e <= |s| && Trim(s) == s[a..e]
    ensures forall i :: 0 <= i < a ==> IsWhitespace(s[i])
    ensures forall i :: e <= i < |s| ==> IsWhitespace(s[i])
  {
    a := WsRun(s);
    var t := s[a..];
    e := a + |t| - TrailingRun(t);
    assert forall i :: e <= i < |s| ==> s[i] == t[i - a];
  }

  /** Trimming keeps every occurrence of a text that starts and ends with non-whitespace. */
  lemma TrimKeeps(s: string, w: string, k: nat)
    requires OccursAt(s, w, k) && |w| >= 1
    requires !IsWhitespace(w[0]) && !IsWhitespace(w[|w| - 1])
    ensures Contains(Trim(s), w)
  {
    var a, e := TrimIsSlice(s);
    assert s[k] == w[0];
    assert s[k + |w| - 1] == w[|w| - 1];
    assert a <= k && k + |w| <= e;
    assert Trim(s)[k - a..k - a + |w|] == s[k..k + |w|];
    assert OccursAt(Trim(s), w, k - a);
  }

  /** Trimming a text without double whitespace leaves none. */
  lemma TrimKeepsNoDouble(s: string)
    requires NoDoubleWhitespace(s)
    ensures NoDoubleWhitespace(Trim(s))
  {
    var a, e := TrimIsSlice(s);
    assert forall i :: 0 <= i < e - a ==> Trim(s)[i] == s[a + i];
  }

  // ---- the policy ----

  /** The settings the policy reads from the environment. */
  datatype Env = Env(isDevelopment: bool, apiUrl: Option<string>)

  /** `${process.env.API_URL}`: `undefined` when unset. */
  function ApiUrlText(env: Env): string {
    env.apiUrl.GetOr("undefined")
  }

  /** The `connect-src` line: `ws:` only in development, then the API URL. */
  function ConnectSrc(env: Env): string {
    "connect-src 'self' " + (if env.isDevelopment then "ws:" else "") + " " + ApiUrlText(env) + " https://plausible.io;"
  }

  /** The template's line break and indentation before each directive. */
  const Indent := "\n    "

  /** The directives before `script-src`'s nonce, and after it up to `connect-src`. */
  const ScriptSrcHead := "script-src 'self' "
  const ScriptSrcTail := " https://www.youtube.com https://www.google.com/recaptcha/api.js;"
  const Middle := Indent + "img-src * blob: data: 'self';"
    + Indent + "font-src 'self' https://fonts.gstatic.com https://elpassion-design-system.s3.eu-west-1.amazonaws.com https://cdnjs.cloudflare.com;"
    + Indent
  /** The directives after `connect-src`, and the template's closing indentation. */
  const Rest := Indent + "style-src 'unsafe-inline' 'self' https://fonts.googleapis.com;"
    + Indent + "style-src-elem 'unsafe-inline' 'self' https://fonts.googleapis.com;"
    + Indent + "object-src 'none';"
    + Indent + "frame-src 'self' https://www.youtube.com https://www.google.com https://www.google.com/recaptcha/;"
    + Indent + "base-uri 'self';"
    + Indent + "form-action 'self' https://www.googleapis.com https://accounts.google.com https://github.com;"
    + Indent + "upgrade-insecure-requests;"
    + "\n  "

  /** `'nonce-{nonce}'` */
  function NonceSource(nonce: string): string {
    "'nonce-" + nonce + "'"
  }

  /** The template literal, before collapsing and trimming. */
  function Template(nonce: string, env: Env): string {
    Indent + ScriptSrcHead + NonceSource(nonce) + ScriptSrcTail + Middle + ConnectSrc(env) + Rest
  }

  /** `request.url.startsWith('/webchats') || request.url.startsWith('/forms')` */
  predicate IsIframeAllowed(url: string) {
    StartsWith(url, "/webchats") || StartsWith(url, "/forms")
  }

  /** Every page under `/webchats` or `/forms` may be embedded. */
  lemma {:induction false} EmbeddablePages(rest: string)
    ensures IsIframeAllowed("/webchats" + rest) && IsIframeAllowed("/forms" + rest)
  {
    assert ("/webchats" + rest)[..|"/webchats"|] == "/webchats";
    assert ("/forms" + rest)[..|"/forms"|] == "/forms";
  }

  /** The `frame-ancestors` directive appended to the policy. */
  function FrameAncestors(isIframeAllowed: bool): string {
    if isIframeAllowed then " frame-ancestors *;" else " frame-ancestors 'self';"
  }

  /**
   * `createCSP`: the collapsed and trimmed template, then the `frame-ancestors`
   * directive: `*` for embeddable pages, `'self'` otherwise.
   */
  method CreateCsp(nonce: string, isIframeAllowed: bool, env: Env) returns (csp: string)
    ensures csp == Trim(Collapse(Template(nonce, env))) + FrameAncestors(isIframeAllowed)
    ensures StartsWith(csp, Trim(Collapse(Template(nonce, env))))
    ensures isIframeAllowed ==> EndsWith(csp, " frame-ancestors *;")
    ensures !isIframeAllowed ==> EndsWith(csp, " frame-ancestors 'self';")
    ensures NoDoubleWhitespace(csp[..|csp| - |FrameAncestors(isIframeAllowed)|])
    ensures NoWhitespace(nonce) ==> Contains(csp, NonceSource(nonce))
    ensures NoWhitespace(ApiUrlText(env)) && ApiUrlText(env) != [] ==> Contains(csp, ConnectDirective(env))
  {
    csp := Trim(Collapse(Template(nonce, env)));
    var base := csp;
    if isIframeAllowed {
      csp := csp + " frame-ancestors *;";
    } else {
      csp := csp + " frame-ancestors 'self';";
    }
    assert csp[..|base|] == base;
    assert csp[|base|..] == FrameAncestors(isIframeAllowed);
    CollapseLeavesNoDouble(Template(nonce, env));
    TrimKeepsNoDouble(Collapse(Template(nonce, env)));
    if NoWhitespace(nonce) {
      PolicyHasNonce(nonce, env);
      ContainsAppend(base, FrameAncestors(isIframeAllowed), NonceSource(nonce));
    }
    if NoWhitespace(ApiUrlText(env)) && ApiUrlText(env) != [] {
      PolicyHasConnectSrc(nonce, env);
      ContainsAppend(base, FrameAncestors(isIframeAllowed), ConnectDirective(env));
    }
  }

  /** `s.endsWith(p)` */
  predicate EndsWith(s: string, p: string) {
    |p| <= |s| && s[|s| - |p|..] == p
  }

  // ---- what the policy holds ----

  lemma NoDoubleAppend(a: string, b: string)
    requires NoDoubleWhitespace(a) && NoDoubleWhitespace(b)
    requires a == [] || b == [] || !IsWhitespace(a[|a| - 1]) || !IsWhitespace(b[0])
    ensures NoDoubleWhitespace(a + b)
  {
    var s := a + b;
    forall i | 0 <= i < |s| - 1 ensures !(IsWhitespace(s[i]) && IsWhitespace(s[i + 1])) {
      if i + 1 < |a| {
        assert s[i] == a[i] && s[i + 1] == a[i + 1];
      } else if i >= |a| {
        assert s[i] == b[i - |a|] && s[i + 1] == b[i + 1 - |a|];
      } else {
        assert s[i] == a[|a| - 1] && s[i + 1] == b[0];
      }
    }
  }

  lemma NoWhitespaceNoDouble(s: string)
    requires NoWhitespace(s)
    ensures NoDoubleWhitespace(s)
  {
  }

  /** Two texts joined by one space: still no double whitespace. */
  lemma SpaceJoin(a: string, b: string)
    requires NoDoubleWhitespace(a) && NoDoubleWhitespace(b)
    requires a != [] && !IsWhitespace(a[|a| - 1]) && b != [] && !IsWhitespace(b[0])
    ensures NoDoubleWhitespace(a + " " + b)
    ensures (a + " " + b)[0] == a[0] && (a + " " + b)[|a + " " + b| - 1] == b[|b| - 1]
  {
    NoDoubleAppend(a, " ");
    NoDoubleAppend(a + " ", b);
  }

  lemma NonceWord()
    ensures NoWhitespace("'nonce-")
  {
  }

  lemma ConnectWord()
    ensures NoWhitespace("connect-src")
  {
  }

  lemma SelfWord()
    ensures NoWhitespace("'self'")
  {
  }

  lemma WsWord()
    ensures NoWhitespace("ws:")
  {
  }

  lemma PlausibleWord()
    ensures NoWhitespace("https://plausible.io;")
  {
  }

  lemma UndefinedWord()
    ensures NoWhitespace("undefined")
  {
  }

  /** The nonce source keeps its text through collapsing: it holds no whitespace. */
  lemma NonceSourceFixed(nonce: string)
    requires NoWhitespace(nonce)
    ensures var w := NonceSource(nonce); |w| >= 2 && w[0] == '\'' && w[|w| - 1] == '\''
    ensures Collapse(NonceSource(nonce)) == NonceSource(nonce)
  {
    NonceWord();
    var w := NonceSource(nonce);
    assert NoWhitespace(w) by {
      assert forall i :: 0 <= i < |w| ==> w[i] in "'nonce-" || w[i] in nonce || w[i] == '\'';
    }
    NoWhitespaceNoDouble(w);
    CollapseFixed(w);
  }

  /** The `connect-src` directive as the policy carries it: the empty `ws:` slot leaves one space. */
  function ConnectDirective(env: Env): string {
    "connect-src 'self' " + (if env.isDevelopment then "ws: " else "") + ApiUrlText(env) + " https://plausible.io;"
  }

  /** The two fixed parts of the `connect-src` line, cut at their spaces. */
  lemma ConnectLiterals()
    ensures "connect-src 'self' " == ("connect-src" + " " + "'self'") + " "
    ensures " https://plausible.io;" == " " + "https://plausible.io;"
  {
  }

  /** Regrouping the pieces of the `connect-src` line around its spaces. */
  lemma ConnectRegroup(head: string, api: string, plausible: string)
    ensures (head + " ") + "ws:" + " " + api + (" " + plausible)
      == head + " " + "ws:" + " " + (api + " " + plausible)
    ensures (head + " ") + "ws: " + api + (" " + plausible)
      == head + " " + "ws:" + " " + (api + " " + plausible)
    ensures (head + " ") + "" + " " + api + (" " + plausible)
      == head + ("  " + (api + " " + plausible))
    ensures (head + " ") + "" + api + (" " + plausible)
      == head + " " + (api + " " + plausible)
  {
  }

  /** The `connect-src` line and directive cut into words and spaces. */
  lemma ConnectShapes(env: Env)
    ensures var head := "connect-src" + " " + "'self'";
      var tail := ApiUrlText(env) + " " + "https://plausible.io;";
      (env.isDevelopment ==>
        (ConnectSrc(env) == head + " " + "ws:" + " " + tail
         && ConnectDirective(env) == ConnectSrc(env)))
      && (!env.isDevelopment ==>
        (ConnectSrc(env) == head + ("  " + tail)
         && ConnectDirective(env) == head + " " + tail))
  {
    ConnectLiterals();
    ConnectRegroup("connect-src" + " " + "'self'", ApiUrlText(env), "https://plausible.io;");
  }

  /** Two spaces between words that need no collapsing become one. */
  lemma CollapseDoubleSpace(h: string, t: string)
    requires NoDoubleWhitespace(h) && NoDoubleWhitespace(t)
    requires h != [] && !IsWhitespace(h[|h| - 1]) && t != [] && !IsWhitespace(t[0])
    ensures Collapse(h + ("  " + t)) == h + " " + t
  {
    CollapseAppend(h, "  " + t);
    CollapseAppend("  ", t);
    CollapseTwoSpaces();
    CollapseFixed(h);
    CollapseFixed(t);
    AppendAssoc(h, " ", t);
  }

  lemma CollapseTwoSpaces()
    ensures Collapse("  ") == " "
  {
    assert WsRun("  ") == 2;
  }

  /** Collapsing turns the `connect-src` line into the directive. */
  lemma ConnectSrcCollapsed(env: Env)
    requires NoWhitespace(ApiUrlText(env)) && ApiUrlText(env) != []
    ensures Collapse(ConnectSrc(env)) == ConnectDirective(env)
  {
    var api := ApiUrlText(env);
    ConnectWord();
    SelfWord();
    PlausibleWord();
    NoWhitespaceNoDouble("connect-src");
    NoWhitespaceNoDouble("'self'");
    NoWhitespaceNoDouble("https://plausible.io;");
    NoWhitespaceNoDouble(api);
    var head := "connect-src" + " " + "'self'";
    SpaceJoin("connect-src", "'self'");
    var tail := api + " " + "https://plausible.io;";
    SpaceJoin(api, "https://plausible.io;");
    ConnectShapes(env);
    if env.isDevelopment {
      WsWord();
      NoWhitespaceNoDouble("ws:");
      SpaceJoin(head, "ws:");
      SpaceJoin(head + " " + "ws:", tail);
      CollapseFixed(ConnectSrc(env));
    } else {
      CollapseDoubleSpace(head, tail);
    }
  }

  /**
   * A piece that starts and ends with non-whitespace and collapses to `d` leaves
   * `d` in the collapsed and trimmed text around it.
   */
  lemma CollapseTrimKeeps(a: string, w: string, b: string, d: string)
    requires Collapse(w) == d && |w| >= 1 && |d| >= 1
    requires !IsWhitespace(w[0]) && !IsWhitespace(w[|w| - 1])
    requires !IsWhitespace(d[0]) && !IsWhitespace(d[|d| - 1])
    ensures Contains(Trim(Collapse(a + (w + b))), d)
  {
    assert (w + b)[0] == w[0];
    CollapseAppend(a, w + b);
    CollapseAppend(w, b);
    OccursBetween(Collapse(a), d, Collapse(b));
    TrimKeeps(Collapse(a + (w + b)), d, |Collapse(a)|);
  }

  /** A text occurs where it is placed between two others. */
  lemma OccursBetween(p: string, d: string, q: string)
    ensures OccursAt(p + (d + q), d, |p|)
  {
    assert (p + (d + q))[|p|..|p| + |d|] == d;
  }

  /** Regrouping the template's seven pieces around the nonce. */
  lemma RegroupAtNonce(i: string, h: string, w: string, t: string, m: string, c: string, r: string)
    ensures i + h + w + t + m + c + r == (i + h) + (w + (t + m + c + r))
  {
  }

  /** Regrouping the template's seven pieces around the `connect-src` line. */
  lemma RegroupAtConnect(i: string, h: string, n: string, t: string, m: string, c: string, r: string)
    ensures i + h + n + t + m + c + r == (i + h + n + t + m) + (c + r)
  {
  }

  /** The policy names the request's nonce as a script source. */
  lemma PolicyHasNonce(nonce: string, env: Env)
    requires NoWhitespace(nonce)
    ensures Contains(Trim(Collapse(Template(nonce, env))), NonceSource(nonce))
  {
    var w := NonceSource(nonce);
    RegroupAtNonce(Indent, ScriptSrcHead, w, ScriptSrcTail, Middle, ConnectSrc(env), Rest);
    NonceSourceFixed(nonce);
    CollapseTrimKeeps(Indent + ScriptSrcHead, w, ScriptSrcTail + Middle + ConnectSrc(env) + Rest, w);
  }

  /** The policy carries the `connect-src` directive, with `ws:` exactly in development. */
  lemma PolicyHasConnectSrc(nonce: string, env: Env)
    requires NoWhitespace(ApiUrlText(env)) && ApiUrlText(env) != []
    ensures Contains(Trim(Collapse(Template(nonce, env))), ConnectDirective(env))
  {
    var a := Indent + ScriptSrcHead + NonceSource(nonce) + ScriptSrcTail + Middle;
    var w := ConnectSrc(env);
    var d := ConnectDirective(env);
    RegroupAtConnect(Indent, ScriptSrcHead, NonceSource(nonce), ScriptSrcTail, Middle, w, Rest);
    assert w[0] == 'c' && w[|w| - 1] == ';';
    assert d[0] == 'c' && d[|d| - 1] == ';';
    ConnectSrcCollapsed(env);
    CollapseTrimKeeps(a, w, Rest, d);
  }

  /** Whatever contains `w` still does once more text is appended. */
  lemma ContainsAppend(s: string, t: string, w: string)
    requires Contains(s, w)
    ensures Contains(s + t, w)
  {
    var k: nat :| k <= |s| && OccursAt(s, w, k);
    assert (s + t)[k..k + |w|] == s[k..k + |w|];
    assert OccursAt(s + t, w, k);
  }
}

=== FILE: edit_block_form.dfy ===
/** `EditBlockForm.tsx`: the block settings form of the pipeline builder. */
module EditBlockForm {
  import opened Wrappers
  import opened Strings
  import Js

  /** `handleUpdate`: `{...blockConfig, ...data}`, the form's fields over the config's. */
  function HandleUpdate(blockConfig: map<string, Js.Value>, data: map<string, Js.Value>): (r: map<string, Js.Value>)
    ensures forall k :: k in r <==> k in blockConfig || k in data
    ensures forall k :: k in data ==> r[k] == data[k]
    ensures forall k :: k in blockConfig && k !in data ==> r[k] == blockConfig[k]
  {
    blockConfig + data
  }

  /** `suggestion.split("->").at(0) ?? ""`: the text before the first `->`, or all of it. */
  function Suggestion(input: string): (r: string)
    ensures !Contains(r, "->")
    ensures IndexOf(input, "->").None? ==> r == input
    ensures IndexOf(input, "->").Some? ==> r == input[..IndexOf(input, "->").value]
  {
    SplitHead(input, "->");
    SplitPartsFree(input, "->");
    Split(input, "->")[0]
  }

  /** `generateSuggestions`: one suggestion per input, in order. */
  function GenerateSuggestions(inputs: seq<string>): (r: seq<string>)
    ensures |r| == |inputs|
    ensures forall i :: 0 <= i < |inputs| ==> r[i] == Suggestion(inputs[i])
    ensures forall i :: 0 <= i < |r| ==> !Contains(r[i], "->")
  {
    seq(|inputs|, i requires 0 <= i < |inputs| => Suggestion(inputs[i]))
  }

  /** An input `a->b` whose `a` has no arrow suggests `a`. */
  lemma SuggestionOfConnection(a: string, b: string)
    requires !Contains(a, "->")
    ensures Suggestion(a + "->" + b) == a
  {
    var s := a + "->" + b;
    assert OccursAt(s, "->", |a|) by {
      assert s[|a|..|a| + 2] == "->";
    }
    forall i: nat | i < |a|
      ensures !OccursAt(s, "->", i)
    {
      if i + 2 <= |a| {
        assert s[i..i + 2] == a[i..i + 2];
        assert !OccursAt(a, "->", i);
      } else {
        assert s[i + 1] == '-';
        assert "->"[1] == '>';
      }
    }
    assert IndexOf(s, "->") == Some(|a|);
    assert s[..|a|] == a;
  }

  /** What the async select of a string field is given. */
  datatype AsyncSelect = AsyncSelect(url: string, additionalOption: MemoryCollection)

  /** The extra option: a memory collection named after the pipeline and the block. */
  datatype MemoryCollection = MemoryCollection(name: string, id: string)

  /** What `SelectField` does: fail its assertion, render nothing, or render an async select. */
  datatype SelectRender = AssertionFailed | Nothing | Rendered(select: AsyncSelect)

  /**
   * `SelectField`: the field must be a string field, or the assertion fails;
   * nothing is rendered unless it is presented as an async select; then the
   * first `:organization_id` of its URL becomes the organisation id and the
   * extra option is `{pipelineId}_{blockName}` as both name and id.
   */
  function SelectField(fieldType: string, presentAs: Option<string>, url: string, organizationId: nat,
                       pipelineId: nat, blockName: string): (r: SelectRender)
    ensures r.AssertionFailed? <==> fieldType != "string"
    ensures r.Rendered? <==> fieldType == "string" && presentAs == Some("async-select")
    ensures r.Rendered? ==>
      && r.select.url == ReplaceFirst(url, ":organization_id", NatToString(organizationId))
      && r.select.additionalOption.name == r.select.additionalOption.id
      && r.select.additionalOption.id == NatToString(pipelineId) + "_" + blockName
  {
    if fieldType != "string" then AssertionFailed
    else if presentAs != Some("async-select") then Nothing
    else
      var baseMemoryCollection := NatToString(pipelineId) + "_" + blockName;
      Rendered(AsyncSelect(ReplaceFirst(url, ":organization_id", NatToString(organizationId)),
                           MemoryCollection(baseMemoryCollection, baseMemoryCollection)))
  }
}

=== FILE: home_loader.dfy ===
/** The home page's loader: it sends the user to an organization's pipelines or to create one. */
module HomeLoader {
  import opened Wrappers
  import opened Routes

  /** `organizations.findIndex((org) => org.id === organizationId)`; -1 when there is none. */
  function FindIndex(ids: seq<nat>, saved: Option<nat>): (r: int)
    ensures r == -1 || 0 <= r < |ids|
    ensures r >= 0 ==> Some(ids[r]) == saved && forall j :: 0 <= j < r ==> Some(ids[j]) != saved
    ensures r == -1 <==> forall j :: 0 <= j < |ids| ==> Some(ids[j]) != saved
  {
    if ids == [] then -1
    else if Some(ids[0]) == saved then 0
    else
      var r := FindIndex(ids[1..], saved);
      assert forall j :: 1 <= j < |ids| ==> ids[j] == ids[1..][j - 1];
      if r == -1 then -1 else r + 1
  }

  /** `Array.prototype.at`: a negative index counts from the end. */
  function At(ids: seq<nat>, i: int): (r: Option<nat>)
    ensures r.Some? <==> -|ids| <= i < |ids|
    ensures 0 <= i < |ids| ==> r == Some(ids[i])
    ensures -|ids| <= i < 0 ==> r == Some(ids[|ids| + i])
  {
    if 0 <= i < |ids| then Some(ids[i])
    else if -|ids| <= i < 0 then Some(ids[|ids| + i])
    else None
  }

  /**
   * The loader's redirect target. The saved organization when it is in the list;
   * otherwise `at(-1)` picks the last organization; with none, the new-organization page.
   */
  function Redirect(ids: seq<nat>, saved: Option<nat>): (location: string)
    ensures (exists j :: 0 <= j < |ids| && Some(ids[j]) == saved) ==>
      location == Pipelines(Number(saved.value))
    ensures (forall j :: 0 <= j < |ids| ==> Some(ids[j]) != saved) && |ids| > 0 ==>
      location == Pipelines(Number(ids[|ids| - 1]))
    ensures ids == [] ==> location == NewOrganization()
  {
    match At(ids, FindIndex(ids, saved))
    case Some(id) => Pipelines(Number(id))
    case None => NewOrganization()
  }

  /** The loader always redirects to one of the organization's pipelines, or to create one. */
  lemma RedirectIsKnownPage(ids: seq<nat>, saved: Option<nat>)
    ensures Redirect(ids, saved) == NewOrganization()
      || exists j :: 0 <= j < |ids| && Redirect(ids, saved) == Pipelines(Number(ids[j]))
  {
    var i := FindIndex(ids, saved);
    if i >= 0 {
      assert Redirect(ids, saved) == Pipelines(Number(ids[i]));
    } else if |ids| > 0 {
      assert Redirect(ids, saved) == Pipelines(Number(ids[|ids| - 1]));
    }
  }
}

=== FILE: infinite_fetch.dfy ===
/**
 * `useInfiniteFetch`: a page cache keyed by page number, filled by a fetcher as
 * the pagination moves on, read as one list in page order.
 */
module InfiniteFetch {
  import opened Wrappers
  import opened Strings
  import opened SearchParams

  /** A parsed URL: its pathname and its query parameters. */
  datatype Location = Location(pathname: string, search: seq<Param>)

  // ---- buildUrlWithParams ----

  /** The query parameters after setting each defined parameter in turn. */
  function SetAll(entries: seq<Param>, params: seq<(string, Option<string>)>): seq<Param> {
    if params == [] then entries
    else
      var prev := SetAll(entries, params[..|params| - 1]);
      var last := params[|params| - 1];
      if last.1.Some? then SetEntries(prev, last.0, last.1.value) else prev
  }

  /** The value last given to `name` among the defined parameters. */
  function LastSet(params: seq<(string, Option<string>)>, name: string): (r: Option<string>)
    ensures r.Some? ==> exists i :: 0 <= i < |params| && params[i] == (name, r)
    ensures r.None? ==> forall i :: 0 <= i < |params| && params[i].0 == name ==> params[i].1.None?
  {
    if params == [] then None
    else
      var last := params[|params| - 1];
      if last.0 == name && last.1.Some? then Some(last.1.value)
      else
        var r := LastSet(params[..|params| - 1], name);
        assert forall i :: 0 <= i < |params| - 1 ==> params[..|params| - 1][i] == params[i];
        r
  }

  /** A parameter set last wins; a name never set keeps the value it had. */
  lemma {:induction false} SetAllGet(entries: seq<Param>, params: seq<(string, Option<string>)>, name: string)
    ensures GetParam(SetAll(entries, params), name)
      == if LastSet(params, name).Some? then LastSet(params, name) else GetParam(entries, name)
  {
    if params != [] {
      var init := params[..|params| - 1];
      var last := params[|params| - 1];
      SetAllGet(entries, init, name);
      if last.1.Some? {
        SetGet(SetAll(entries, init), last.0, last.1.value, name);
      }
    }
  }

  /** Setting parameters named inside `names` leaves the others, and their order, alone. */
  lemma {:induction false} SetAllOutside(entries: seq<Param>, params: seq<(string, Option<string>)>, names: set<string>)
    requires forall i :: 0 <= i < |params| ==> params[i].0 in names
    ensures Outside(SetAll(entries, params), names) == Outside(entries, names)
  {
    if params != [] {
      var init := params[..|params| - 1];
      var last := params[|params| - 1];
      SetAllOutside(entries, init, names);
      if last.1.Some? {
        SetOutside(SetAll(entries, init), last.0, last.1.value, names);
      }
    }
  }

  /** `buildUrlWithParams`: every defined parameter is `set` on the base URL, in order. */
  method BuildUrlWithParams(base: Location, params: seq<(string, Option<string>)>) returns (url: Location)
    ensures url.pathname == base.pathname
    ensures url.search == SetAll(base.search, params)
    ensures forall name :: (GetParam(url.search, name)
      == if LastSet(params, name).Some? then LastSet(params, name) else GetParam(base.search, name))
  {
    var searchParams := new UrlSearchParams(base.search);
    var i := 0;
    while i < |params|
      invariant 0 <= i <= |params|
      invariant searchParams.entries == SetAll(base.search, params[..i])
    {
      assert params[..i + 1][..i] == params[..i];
      if params[i].1.Some? {
        searchParams.Set(params[i].0, params[i].1.value);
      }
      i := i + 1;
    }
    assert params[..i] == params;
    url := Location(base.pathname, searchParams.entries);
    forall name {
      SetAllGet(base.search, params, name);
    }
  }

  // ---- mergedData ----

  /** The smallest page number in the cache. */
  ghost function MinKey(keys: set<nat>): (r: nat)
    requires keys != {}
    ensures r in keys && forall k :: k in keys ==> r <= k
  {
    var x :| x in keys;
    if keys == {x} then x
    else
      var m := MinKey(keys - {x});
      assert forall k :: k in keys ==> k == x || k in keys - {x};
      if x < m then x else m
  }

  /** `Object.values(data)` concatenated: integer keys come out in ascending order. */
  ghost function MergedData<T>(data: map<nat, seq<T>>): seq<T>
    decreases |data.Keys|
  {
    if data.Keys == {} then []
    else
      var k := MinKey(data.Keys);
      assert |(data - {k}).Keys| < |data.Keys| by {
        assert (data - {k}).Keys == data.Keys - {k};
      }
      data[k] + MergedData(data - {k})
  }

  lemma MapRemoveUpdate<T>(data: map<nat, seq<T>>, m: nat, page: nat, items: seq<T>)
    requires m != page
    ensures data[page := items] - {m} == (data - {m})[page := items]
  {
    assert (data[page := items] - {m}).Keys == ((data - {m})[page := items]).Keys;
  }

  /** The first cached page is still the first once a later page is added. */
  lemma MinKeyWithLaterPage<T>(data: map<nat, seq<T>>, page: nat, items: seq<T>)
    requires data.Keys != {} && forall k :: k in data ==> k < page
    ensures MinKey(data[page := items].Keys) == MinKey(data.Keys)
  {
    var m := MinKey(data.Keys);
    var n := MinKey(data[page := items].Keys);
    assert m in data[page := items].Keys;
    assert n in data.Keys || n == page;
  }

  /** Loading a page after every cached one appends its items to the merged list. */
  lemma {:induction false} MergedDataNextPage<T>(data: map<nat, seq<T>>, page: nat, items: seq<T>)
    requires forall k :: k in data ==> k < page
    ensures MergedData(data[page := items]) == MergedData(data) + items
    decreases |data.Keys|
  {
    var d := data[page := items];
    if data.Keys == {} {
      assert d.Keys == {page};
      assert MinKey(d.Keys) == page;
      assert (d - {page}).Keys == {};
    } else {
      var m := MinKey(data.Keys);
      var rest := MergedData(data - {m});
      assert MergedData(d) == d[m] + MergedData(d - {m}) by {
        MinKeyWithLaterPage(data, page, items);
      }
      assert MergedData(d - {m}) == rest + items by {
        MapRemoveUpdate(data, m, page, items);
        assert (data - {m}).Keys == data.Keys - {m};
        MergedDataNextPage(data - {m}, page, items);
      }
      assert d[m] == data[m];
      assert MergedData(data) == data[m] + rest;
      assert data[m] + (rest + items) == (data[m] + rest) + items;
    }
  }

  /**
   * The number of items in all cached pages together, counted in no particular
   * order: any key may be taken first.
   */
  ghost function TotalItems<T>(data: map<nat, seq<T>>): nat
    decreases |data.Keys|
  {
    if data.Keys == {} then 0
    else
      var k :| k in data.Keys;
      assert (data - {k}).Keys == data.Keys - {k};
      |data[k]| + TotalItems(data - {k})
  }

  /** Whichever page is counted first, the total is the same. */
  lemma {:induction false} TotalItemsRemove<T>(data: map<nat, seq<T>>, m: nat)
    requires m in data
    ensures TotalItems(data) == |data[m]| + TotalItems(data - {m})
    decreases |data.Keys|
  {
    var k :| k in data.Keys && TotalItems(data) == |data[k]| + TotalItems(data - {k});
    if k != m {
      assert (data - {k}).Keys == data.Keys - {k};
      assert (data - {m}).Keys == data.Keys - {m};
      TotalItemsRemove(data - {k}, m);
      TotalItemsRemove(data - {m}, k);
      assert data - {k} - {m} == data - {m} - {k};
    }
  }

  /** Caching a page not yet cached, at any page number, adds its items to the total. */
  lemma TotalItemsAdd<T>(data: map<nat, seq<T>>, page: nat, items: seq<T>)
    requires page !in data
    ensures TotalItems(data[page := items]) == TotalItems(data) + |items|
  {
    TotalItemsRemove(data[page := items], page);
    assert data[page := items] - {page} == data;
  }

  /** The merged list holds every cached page's items and nothing else: its length is their total. */
  lemma {:induction false} MergedDataLength<T>(data: map<nat, seq<T>>)
    ensures |MergedData(data)| == TotalItems(data)
    decreases |data.Keys|
  {
    if data.Keys != {} {
      var k := MinKey(data.Keys);
      assert (data - {k}).Keys == data.Keys - {k};
      TotalItemsRemove(data, k);
      MergedDataLength(data - {k});
    }
  }

  // ---- the hook ----

  /** The hook's state: the pagination, the page cache and the fetcher. */
  class PageCache<T> {
    const loaderUrl: Location
    var page: nat
    var limit: nat
    var search: string
    var data: map<nat, seq<T>>
    var fetcherIdle: bool
    /** The URLs `fetcher.load` was called with, in order. */
    var loads: seq<Location>
    /** How many times `goToNext` was called. */
    var nextPageRequests: nat

    /** The query parameters a load carries. */
    function LoadParams(): seq<(string, Option<string>)>
      reads this
    {
      [("page", Some(NatToString(page))), ("limit", Some(NatToString(limit))), ("search", Some(search))]
    }

    /** The first render: the current page holds `initialData`, or `[]`; it is cached, so nothing loads. */
    constructor(loaderUrl: Location, page: nat, limit: nat, search: string, initialData: Option<seq<T>>)
      ensures this.loaderUrl == loaderUrl && this.page == page && this.limit == limit && this.search == search
      ensures data == map[page := initialData.GetOr([])]
      ensures fetcherIdle && loads == [] && nextPageRequests == 0
    {
      this.loaderUrl := loaderUrl;
      this.page := page;
      this.limit := limit;
      this.search := search;
      data := map[page := initialData.GetOr([])];
      fetcherIdle := true;
      loads := [];
      nextPageRequests := 0;
    }

    /** `fetchNextPage`: asks the pagination for the next page only while the fetcher is idle. */
    method FetchNextPage()
      modifies this
      ensures nextPageRequests == if old(fetcherIdle) then old(nextPageRequests) + 1 else old(nextPageRequests)
      ensures page == old(page) && data == old(data) && loads == old(loads) && fetcherIdle == old(fetcherIdle)
    {
      if !fetcherIdle {
        return;
      }
      nextPageRequests := nextPageRequests + 1;
    }

    /**
     * The pagination moved: when `page`, `limit` or `search` changed, the effect
     * loads the page if the cache does not hold it.
     */
    method PaginationChanged(newPage: nat, newLimit: nat, newSearch: string)
      modifies this
      ensures page == newPage && limit == newLimit && search == newSearch && data == old(data)
      ensures var changed := newPage != old(page) || newLimit != old(limit) || newSearch != old(search);
        if changed && newPage !in old(data) then
          |loads| == |old(loads)| + 1 && loads[..|old(loads)|] == old(loads) && !fetcherIdle
          && loads[|old(loads)|].pathname == loaderUrl.pathname
          && GetParam(loads[|old(loads)|].search, "page") == Some(NatToString(newPage))
          && GetParam(loads[|old(loads)|].search, "limit") == Some(NatToString(newLimit))
          && GetParam(loads[|old(loads)|].search, "search") == Some(newSearch)
        else loads == old(loads) && fetcherIdle == old(fetcherIdle)
    {
      var changed := newPage != page || newLimit != limit || newSearch != search;
      page, limit, search := newPage, newLimit, newSearch;
      if !changed || page in data {
        return;
      }
      var params := LoadParams();
      assert LastSet(params, "search") == Some(newSearch);
      assert LastSet(params, "limit") == Some(NatToString(newLimit)) by {
        assert params[..2] == [params[0], params[1]];
      }
      assert LastSet(params, "page") == Some(NatToString(newPage)) by {
        assert params[..2] == [params[0], params[1]];
        assert params[..2][..1] == [params[0]];
      }
      var url := BuildUrlWithParams(loaderUrl, params);
      loads := loads + [url];
      fetcherIdle := false;
    }

    /**
     * New fetcher data: the fetcher is idle again, and a non-empty extracted list
     * is stored under the current page; other pages are kept.
     */
    method FetcherData(extracted: Option<seq<T>>)
      modifies this
      ensures fetcherIdle
      ensures page == old(page) && loads == old(loads)
      ensures extracted.Some? && |extracted.value| > 0 ==> data == old(data)[page := extracted.value]
      ensures extracted.None? || |extracted.value| == 0 ==> data == old(data)
    {
      fetcherIdle := true;
      if extracted.Some? && |extracted.value| > 0 {
        data := data[page := extracted.value];
      }
    }

    /** `mergedData` */
    ghost function Merged(): seq<T>
      reads this
    {
      MergedData(data)
    }
  }
}

=== FILE: interface_config_form.dfy ===
/**
 * `InterfaceConfigForm.tsx`: the website-chatbot settings of a pipeline. Each
 * selected block travels through the form as the JSON text of `{name, type}`.
 */
module InterfaceConfigForm {
  import opened Wrappers
  import opened Strings
  import Js

  /** A block of the pipeline config: its name and its block type. */
  datatype Block = Block(name: string, blockType: string)

  /** The blocks whose type is one of `types`, in config order. */
  function BlocksOfTypes(blocks: seq<Block>, types: set<string>): (r: seq<Block>)
    ensures |r| <= |blocks|
    ensures forall b :: b in r <==> b in blocks && b.blockType in types
  {
    if blocks == [] then []
    else (if blocks[0].blockType in types then [blocks[0]] else []) + BlocksOfTypes(blocks[1..], types)
  }

  /** Filtering keeps config order: it distributes over concatenation. */
  lemma {:induction false} BlocksOfTypesAppend(a: seq<Block>, b: seq<Block>, types: set<string>)
    ensures BlocksOfTypes(a + b, types) == BlocksOfTypes(a, types) + BlocksOfTypes(b, types)
  {
    if a != [] {
      assert (a + b)[1..] == a[1..] + b;
      BlocksOfTypesAppend(a[1..], b, types);
    } else {
      assert a + b == b;
    }
  }

  /** The options of the four selects. */
  function InputOptions(blocks: seq<Block>): seq<Block> {
    BlocksOfTypes(blocks, {"text_input", "file_input", "image_input"})
  }

  function OutputOptions(blocks: seq<Block>): seq<Block> {
    BlocksOfTypes(blocks, {"text_output"})
  }

  function AudioInputOptions(blocks: seq<Block>): seq<Block> {
    BlocksOfTypes(blocks, {"audio_input"})
  }

  function AudioOutputOptions(blocks: seq<Block>): seq<Block> {
    BlocksOfTypes(blocks, {"audio_output"})
  }

  /** Each select offers exactly the blocks of its types. */
  lemma OptionsByType(blocks: seq<Block>, b: Block)
    ensures b in InputOptions(blocks) <==>
      b in blocks && (b.blockType == "text_input" || b.blockType == "file_input" || b.blockType == "image_input")
    ensures b in OutputOptions(blocks) <==> b in blocks && b.blockType == "text_output"
    ensures b in AudioInputOptions(blocks) <==> b in blocks && b.blockType == "audio_input"
    ensures b in AudioOutputOptions(blocks) <==> b in blocks && b.blockType == "audio_output"
  {
  }

  // ---- JSON text of `{name, type}` ----

  /** A selected block as the interface config stores it. */
  datatype Entry = Entry(name: string, entryType: string)

  /** A lower-case hexadecimal digit, as `JSON.stringify` writes them. */
  function HexDigit(d: nat): (c: char)
    requires d < 16
  {
    "0123456789abcdef"[d]
  }

  /** The value of a hexadecimal digit of either case. */
  function HexValue(c: char): Option<nat> {
    if '0' <= c <= '9' then Some(c as nat - '0' as nat)
    else if 'a' <= c <= 'f' then Some(c as nat - 'a' as nat + 10)
    else if 'A' <= c <= 'F' then Some(c as nat - 'A' as nat + 10)
    else None
  }

  lemma HexDigitValue(d: nat)
    requires d < 16
    ensures HexValue(HexDigit(d)) == Some(d)
  {
  }

  /** How `JSON.stringify` writes one character inside a string literal. */
  function EscapeChar(c: char): (r: string)
    ensures |r| >= 1
  {
    if c == '"' then "\\\""
    else if c == '\\' then "\\\\"
    else if c as int == 8 then "\\b"
    else if c as int == 12 then "\\f"
    else if c == '\n' then "\\n"
    else if c == '\r' then "\\r"
    else if c == '\t' then "\\t"
    else if (c as int) < 0x20 then "\\u00" + [HexDigit(c as nat / 16), HexDigit(c as nat % 16)]
    else [c]
  }

  /** The characters of a string literal between its quotes. */
  function EscapeBody(s: string): string {
    if s == [] then "" else EscapeChar(s[0]) + EscapeBody(s[1..])
  }

  /** `JSON.stringify(s)` for a string. */
  function EncodeString(s: string): string {
    "\"" + EscapeBody(s) + "\""
  }

  /** The text before the name's characters, and between the name's and the type's. */
  const NameOpen := "{\"name\":\""
  const TypeOpen := "\",\"type\":\""

  /** `JSON.stringify({ name, type })` */
  function EncodeEntry(e: Entry): (r: string)
    ensures r == "{\"name\":" + EncodeString(e.name) + ",\"type\":" + EncodeString(e.entryType) + "}"
  {
    EntryLiterals();
    EntryRegroup("{\"name\":", ",\"type\":", "}", "\"", EscapeBody(e.name), EscapeBody(e.entryType));
    NameOpen + EscapeBody(e.name) + TypeOpen + EscapeBody(e.entryType) + "\"}"
  }

  /** The fixed parts of an entry, as `JSON.stringify` writes them around the two string literals. */
  lemma EntryLiterals()
    ensures NameOpen == "{\"name\":" + "\""
    ensures TypeOpen == "\"" + ",\"type\":" + "\""
    ensures "\"}" == "\"" + "}"
  {
  }

  /** Moving the quotes of two string literals into the text around them. */
  lemma EntryRegroup(a: string, b: string, c: string, q: string, x: string, y: string)
    ensures a + (q + x + q) + b + (q + y + q) + c == (a + q) + x + (q + b + q) + y + (q + c)
  {
  }

  /** The character an escape `\x` stands for, and how many characters it takes. */
  function Unescape(t: string): Option<(char, nat)>
    requires |t| >= 1 && t[0] == '\\'
    ensures var r := Unescape(t); r.Some? ==> 2 <= r.value.1 <= |t|
  {
    if |t| < 2 then None
    else if t[1] == '"' then Some(('"', 2))
    else if t[1] == '\\' then Some(('\\', 2))
    else if t[1] == '/' then Some(('/', 2))
    else if t[1] == 'b' then Some((8 as char, 2))
    else if t[1] == 'f' then Some((12 as char, 2))
    else if t[1] == 'n' then Some(('\n', 2))
    else if t[1] == 'r' then Some(('\r', 2))
    else if t[1] == 't' then Some(('\t', 2))
    else if t[1] == 'u' && |t| >= 6 then
      match (HexValue(t[2]), HexValue(t[3]), HexValue(t[4]), HexValue(t[5]))
      case (Some(a), Some(b), Some(c), Some(d)) =>
        var code := ((a * 16 + b) * 16 + c) * 16 + d;
        if 0xD800 <= code < 0xE000 || code >= 0x10000 then None else Some((code as char, 6))
      case _ => None
    else None
  }

  /**
   * `JSON.parse` reading the rest of a string literal: the decoded characters and
   * the number of characters read, closing quote included.
   */
  function DecodeBody(t: string): (r: Option<(string, nat)>)
    ensures r.Some? ==> 1 <= r.value.1 <= |t|
    decreases |t|
  {
    if t == [] then None
    else if t[0] == '"' then Some(("", 1))
    else if t[0] == '\\' then
      match Unescape(t)
      case None => None
      case Some((c, n)) =>
        match DecodeBody(t[n..])
        case None => None
        case Some((rest, m)) => Some(([c] + rest, n + m))
    else if (t[0] as int) < 0x20 then None
    else
      match DecodeBody(t[1..])
      case None => None
      case Some((rest, m)) => Some(([t[0]] + rest, 1 + m))
  }

  /** Decoding an escaped character reads back that character. */
  lemma UnescapeEscape(c: char, rest: string)
    requires EscapeChar(c)[0] == '\\'
    ensures Unescape(EscapeChar(c) + rest) == Some((c, |EscapeChar(c)|))
  {
    var t := EscapeChar(c) + rest;
    if (c as int) < 0x20 && c as int != 8 && c as int != 12 && c != '\n' && c != '\r' && c != '\t' {
      var hi, lo := c as nat / 16, c as nat % 16;
      assert t[..6] == "\\u00" + [HexDigit(hi), HexDigit(lo)];
      assert t[2] == '0' && t[3] == '0' && t[4] == HexDigit(hi) && t[5] == HexDigit(lo);
      HexDigitValue(hi);
      HexDigitValue(lo);
      assert ((0 * 16 + 0) * 16 + hi) * 16 + lo == c as int;
    }
  }

  /** One decoding step over an escape. */
  lemma DecodeEscapedStep(t: string, c: char, n: nat, x: string, m: nat)
    requires |t| >= 1 && t[0] == '\\' && Unescape(t) == Some((c, n))
    requires DecodeBody(t[n..]) == Some((x, m))
    ensures DecodeBody(t) == Some(([c] + x, n + m))
  {
  }

  /** One decoding step over a plain character. */
  lemma DecodePlainStep(t: string, x: string, m: nat)
    requires |t| >= 1 && t[0] != '"' && t[0] != '\\' && (t[0] as int) >= 0x20
    requires DecodeBody(t[1..]) == Some((x, m))
    ensures DecodeBody(t) == Some(([t[0]] + x, 1 + m))
  {
  }

  /** A character needs no escape exactly when it stands for itself. */
  lemma EscapeCharPlain(c: char)
    ensures EscapeChar(c)[0] != '\\' ==> EscapeChar(c) == [c] && c != '"' && c != '\\' && (c as int) >= 0x20
  {
  }

  /** One character as `JSON.stringify` writes it reads back as that character. */
  lemma DecodeCharStep(c: char, after: string, x: string, m: nat)
    requires DecodeBody(after) == Some((x, m))
    ensures DecodeBody(EscapeChar(c) + after) == Some(([c] + x, |EscapeChar(c)| + m))
  {
    var e := EscapeChar(c);
    var t := e + after;
    assert t[0] == e[0] && t[|e|..] == after;
    if e[0] == '\\' {
      UnescapeEscape(c, after);
      DecodeEscapedStep(t, c, |e|, x, m);
    } else {
      EscapeCharPlain(c);
      DecodePlainStep(t, x, m);
    }
  }

  /** A string literal's body, followed by its closing quote, decodes to the string. */
  lemma {:induction false} DecodeEscapeBody(s: string, rest: string)
    ensures DecodeBody(EscapeBody(s) + "\"" + rest) == Some((s, |EscapeBody(s)| + 1))
  {
    var t := EscapeBody(s) + "\"" + rest;
    if s == [] {
      assert t[0] == '"';
    } else {
      var e := EscapeChar(s[0]);
      var after := EscapeBody(s[1..]) + "\"" + rest;
      DecodeEscapeBody(s[1..], rest);
      assert EscapeBody(s) == e + EscapeBody(s[1..]);
      assert t == e + after;
      DecodeCharStep(s[0], after, s[1..], |EscapeBody(s[1..])| + 1);
      assert [s[0]] + s[1..] == s;
    }
  }

  /**
   * `JSON.parse(text)` read as `{name, type}`: the compact text `JSON.stringify`
   * writes; anything else counts as a parse failure.
   */
  function DecodeEntry(text: string): Option<Entry> {
    if !StartsWith(text, NameOpen) then None
    else match DecodeBody(text[|NameOpen|..])
      case None => None
      case Some((name, n)) =>
        var rest := text[|NameOpen| + n - 1..];
        if !StartsWith(rest, TypeOpen) then None
        else match DecodeBody(rest[|TypeOpen|..])
          case None => None
          case Some((entryType, m)) =>
            if rest[|TypeOpen| + m..] == "}" then Some(Entry(name, entryType)) else None
  }

  lemma DropPrefix(p: string, x: string)
    ensures StartsWith(p + x, p) && (p + x)[|p|..] == x
  {
    assert (p + x)[..|p|] == p;
  }

  /** `DecodeEntry` succeeds once its two string literals decode and the text closes. */
  lemma DecodeEntryParts(text: string, name: string, n: nat, entryType: string, m: nat)
    requires StartsWith(text, NameOpen) && |NameOpen| + n - 1 <= |text|
    requires DecodeBody(text[|NameOpen|..]) == Some((name, n))
    requires StartsWith(text[|NameOpen| + n - 1..], TypeOpen)
      && |TypeOpen| <= |text[|NameOpen| + n - 1..]|
    requires DecodeBody(text[|NameOpen| + n - 1..][|TypeOpen|..]) == Some((entryType, m))
    requires |TypeOpen| + m <= |text[|NameOpen| + n - 1..]|
      && text[|NameOpen| + n - 1..][|TypeOpen| + m..] == "}"
    ensures DecodeEntry(text) == Some(Entry(name, entryType))
  {
  }

  /** Concatenation regrouped: `p + q + r` read after `p`. */
  lemma Regroup(p: string, q: string, r: string)
    ensures p + q + r == p + (q + r)
    ensures StartsWith(p + q + r, p) && (p + q + r)[|p|..] == q + r
  {
    DropPrefix(p, q + r);
  }

  /** Where the pieces of an entry text sit. */
  lemma EntryTextShape(b1: string, b2: string)
    ensures var text := NameOpen + b1 + TypeOpen + b2 + "\"}";
      StartsWith(text, NameOpen)
      && text[|NameOpen|..] == b1 + "\"" + (TypeOpen[1..] + b2 + "\"}")
      && text[|NameOpen| + |b1|..] == TypeOpen + (b2 + "\"" + "}")
  {
    var text := NameOpen + b1 + TypeOpen + b2 + "\"}";
    var close := b2 + "\"" + "}";
    assert "\"" + "}" == "\"}";
    assert text == NameOpen + b1 + (TypeOpen + close);
    Regroup(NameOpen, b1, TypeOpen + close);
    Regroup(NameOpen + b1, TypeOpen, close);
    assert TypeOpen == "\"" + TypeOpen[1..];
    assert b1 + (TypeOpen + close) == b1 + "\"" + (TypeOpen[1..] + close);
  }

  /** The entry text decodes once each of its two literal bodies does. */
  lemma DecodeEntryText(b1: string, b2: string, name: string, entryType: string)
    requires DecodeBody(b1 + "\"" + (TypeOpen[1..] + b2 + "\"}")) == Some((name, |b1| + 1))
    requires DecodeBody(b2 + "\"" + "}") == Some((entryType, |b2| + 1))
    ensures DecodeEntry(NameOpen + b1 + TypeOpen + b2 + "\"}") == Some(Entry(name, entryType))
  {
    var text := NameOpen + b1 + TypeOpen + b2 + "\"}";
    EntryTextShape(b1, b2);
    var rest := text[|NameOpen| + |b1|..];
    Regroup(TypeOpen, b2 + "\"", "}");
    assert b2 + "\"" + "}" == (b2 + "\"") + "}";
    DecodeEntryParts(text, name, |b1| + 1, entryType, |b2| + 1);
  }

  /** What `toSelectDefaults` writes, `handleOnSubmit` reads back. */
  lemma DecodeEncodeEntry(e: Entry)
    ensures DecodeEntry(EncodeEntry(e)) == Some(e)
  {
    var b1 := EscapeBody(e.name);
    var b2 := EscapeBody(e.entryType);
    DecodeEscapeBody(e.name, TypeOpen[1..] + b2 + "\"}");
    DecodeEscapeBody(e.entryType, "}");
    DecodeEntryText(b1, b2, e.name, e.entryType);
  }

  // ---- defaults and submission ----

  /** The `webchat` part of the interface config. */
  datatype Webchat = Webchat(
    inputs: seq<Entry>,
    outputs: seq<Entry>,
    audioInputs: seq<Entry>,
    audioOutputs: seq<Entry>,
    description: string,
    suggestedMessages: seq<string>,
    public: bool)

  /** The form's values: each selected block as its JSON text. */
  datatype WebchatForm = WebchatForm(
    inputs: seq<string>,
    outputs: seq<string>,
    audioInputs: seq<string>,
    audioOutputs: seq<string>,
    description: string,
    suggestedMessages: seq<string>,
    public: bool)

  function EncodeAll(entries: seq<Entry>): (r: seq<string>)
    ensures |r| == |entries|
    ensures forall i :: 0 <= i < |entries| ==> r[i] == EncodeEntry(entries[i])
  {
    seq(|entries|, i requires 0 <= i < |entries| => EncodeEntry(entries[i]))
  }

  /** Every text parsed; the first that fails makes the whole submit fail, as `JSON.parse` throws. */
  function DecodeAll(texts: seq<string>): (r: Option<seq<Entry>>)
    ensures r.Some? ==> |r.value| == |texts| && forall i :: 0 <= i < |texts| ==> DecodeEntry(texts[i]) == Some(r.value[i])
    ensures r.None? ==> exists i :: 0 <= i < |texts| && DecodeEntry(texts[i]).None?
  {
    if texts == [] then Some([])
    else match (DecodeEntry(texts[0]), DecodeAll(texts[1..]))
      case (Some(e), Some(es)) => Some([e] + es)
      case (None, _) => None
      case (_, None) =>
        assert exists i :: 0 <= i < |texts| && DecodeEntry(texts[i]).None? by {
          var i :| 0 <= i < |texts[1..]| && DecodeEntry(texts[1..][i]).None?;
          assert texts[i + 1] == texts[1..][i];
        }
        None
  }

  lemma {:induction false} DecodeAllEncodeAll(entries: seq<Entry>)
    ensures DecodeAll(EncodeAll(entries)) == Some(entries)
  {
    if entries != [] {
      DecodeEncodeEntry(entries[0]);
      assert entries == [entries[0]] + entries[1..];
      assert EncodeAll(entries)[1..] == EncodeAll(entries[1..]);
      DecodeAllEncodeAll(entries[1..]);
    }
  }

  /** `toSelectDefaults` */
  function ToSelectDefaults(w: Webchat): WebchatForm {
    WebchatForm(EncodeAll(w.inputs), EncodeAll(w.outputs), EncodeAll(w.audioInputs), EncodeAll(w.audioOutputs),
                w.description, w.suggestedMessages, w.public)
  }

  /** `suggested_messages.filter((msg) => !!msg)` */
  function NonEmptyMessages(messages: seq<string>): (r: seq<string>)
    ensures |r| <= |messages|
    ensures forall m :: m in r <==> m in messages && m != ""
  {
    if messages == [] then []
    else (if messages[0] != "" then [messages[0]] else []) + NonEmptyMessages(messages[1..])
  }

  /** Dropping empty messages keeps the others in order: it distributes over concatenation. */
  lemma {:induction false} NonEmptyMessagesAppend(a: seq<string>, b: seq<string>)
    ensures NonEmptyMessages(a + b) == NonEmptyMessages(a) + NonEmptyMessages(b)
  {
    if a != [] {
      assert (a + b)[1..] == a[1..] + b;
      NonEmptyMessagesAppend(a[1..], b);
    } else {
      assert a + b == b;
    }
  }

  /** The body sent: the other fields of `interface_config`, and the new `webchat`. */
  datatype InterfaceConfig = InterfaceConfig(otherFields: map<string, Js.Value>, webchat: Webchat)

  /** `handleOnSubmit`: a text that does not parse makes it throw (`None`). */
  function HandleOnSubmit(interfaceConfig: map<string, Js.Value>, data: WebchatForm): (r: Option<InterfaceConfig>)
    ensures r.Some? <==> (DecodeAll(data.inputs).Some? && DecodeAll(data.outputs).Some?
      && DecodeAll(data.audioInputs).Some? && DecodeAll(data.audioOutputs).Some?)
    ensures r.Some? ==> forall k :: k in r.value.otherFields <==> k in interfaceConfig && k != "webchat"
    ensures r.Some? ==> forall k :: k in r.value.otherFields ==> r.value.otherFields[k] == interfaceConfig[k]
    ensures r.Some? ==> (r.value.webchat.suggestedMessages == NonEmptyMessages(data.suggestedMessages)
      && r.value.webchat.description == data.description && r.value.webchat.public == data.public)
    ensures r.Some? ==> (r.value.webchat.inputs == DecodeAll(data.inputs).value
      && r.value.webchat.outputs == DecodeAll(data.outputs).value
      && r.value.webchat.audioInputs == DecodeAll(data.audioInputs).value
      && r.value.webchat.audioOutputs == DecodeAll(data.audioOutputs).value)
  {
    match (DecodeAll(data.inputs), DecodeAll(data.outputs), DecodeAll(data.audioInputs), DecodeAll(data.audioOutputs))
    case (Some(inputs), Some(outputs), Some(audioInputs), Some(audioOutputs)) =>
      Some(InterfaceConfig(
        map k | k in interfaceConfig && k != "webchat" :: interfaceConfig[k],
        Webchat(inputs, outputs, audioInputs, audioOutputs, data.description,
                NonEmptyMessages(data.suggestedMessages), data.public)))
    case _ => None
  }

  /**
   * Submitting the defaults unchanged gives back the same webchat config, minus
   * its empty suggested messages.
   */
  lemma SubmitDefaults(interfaceConfig: map<string, Js.Value>, w: Webchat)
    ensures HandleOnSubmit(interfaceConfig, ToSelectDefaults(w)).Some?
    ensures HandleOnSubmit(interfaceConfig, ToSelectDefaults(w)).value.webchat
      == w.(suggestedMessages := NonEmptyMessages(w.suggestedMessages))
  {
    DecodeAllEncodeAll(w.inputs);
    DecodeAllEncodeAll(w.outputs);
    DecodeAllEncodeAll(w.audioInputs);
    DecodeAllEncodeAll(w.audioOutputs);
  }
}

=== FILE: js.dfy ===
/** The JavaScript values the model needs: JSON-like data with `undefined`. */
module Js {

  /**
   * A JavaScript value. Numbers are integers (floating point is not modelled);
   * objects compare by content, as lodash `isEqual` compares them.
   */
  datatype Value =
    | Undefined
    | Null
    | Bool(b: bool)
    | Num(n: int)
    | Str(s: string)
    | Arr(items: seq<Value>)
    | Obj(fields: map<string, Value>)

  /** `!!v` */
  predicate Truthy(v: Value) {
    match v
    case Undefined => false
    case Null => false
    case Bool(b) => b
    case Num(n) => n != 0
    case Str(s) => s != ""
    case Arr(_) => true
    case Obj(_) => true
  }

  /** `v || fallback`: every falsy value falls back. */
  function Or(v: Value, fallback: Value): (r: Value)
    ensures Truthy(r) <==> Truthy(v) || Truthy(fallback)
  {
    if Truthy(v) then v else fallback
  }

  /**
   * `v ?? fallback`: only `undefined` and `null` fall back, so it gives another
   * value than `v || fallback` exactly for a `false`, `0` or `''` that is not
   * the fallback itself.
   */
  function Coalesce(v: Value, fallback: Value): (r: Value)
    ensures (v.Undefined? || v.Null?) ==> r == fallback
    ensures !(v.Undefined? || v.Null?) ==> r == v
    ensures r != Or(v, fallback) <==> v in {Bool(false), Num(0), Str("")} && fallback != v
  {
    if v.Undefined? || v.Null? then fallback else v
  }

  /** `v?.key`: the field of an object, `undefined` for anything else or a missing key. */
  function Get(v: Value, key: string): (r: Value)
    ensures v.Obj? && key in v.fields ==> r == v.fields[key]
    ensures !(v.Obj? && key in v.fields) ==> r == Undefined
  {
    if v.Obj? && key in v.fields then v.fields[key] else Undefined
  }
}

=== FILE: layout.dfy ===
/** `LayoutContext.tsx`: the sidebar state of the Next.js app's layout. */
module Layout {
  import opened Wrappers

  /** `isSidebarCollapsed` may be `undefined` (`None`). */
  datatype State = State(isSidebarOpen: bool, isSidebarCollapsed: Option<bool>)

  /** The two known actions, each with an optional value; any other type string is unknown. */
  datatype Action =
    | ToggleSidebar(isSidebarOpen: Option<bool>)
    | ToggleSidebarCollapse(isSidebarCollapsed: Option<bool>)
    | Other(actionType: string)

  /** JavaScript `!` on a boolean that may be `undefined`: `!undefined` is `true`. */
  function Not(b: Option<bool>): bool {
    match b
    case None => true
    case Some(x) => !x
  }

  /** `layoutReducer`: an unknown action type throws `Unhandled action type: …`. */
  function LayoutReducer(s: State, a: Action): (r: Result<State, string>)
    ensures a.Other? <==> r.Err?
    ensures a.Other? ==> r.error == "Unhandled action type: " + a.actionType
    ensures a.ToggleSidebar? ==> (r.Ok? && r.value.isSidebarCollapsed == s.isSidebarCollapsed
      && r.value.isSidebarOpen == (if a.isSidebarOpen.Some? then a.isSidebarOpen.value else !s.isSidebarOpen))
    ensures a.ToggleSidebarCollapse? ==> (r.Ok? && r.value.isSidebarOpen == s.isSidebarOpen
      && r.value.isSidebarCollapsed == Some(if a.isSidebarCollapsed.Some? then a.isSidebarCollapsed.value
                                            else Not(s.isSidebarCollapsed)))
  {
    match a
    case ToggleSidebar(v) => Ok(s.(isSidebarOpen := v.GetOr(!s.isSidebarOpen)))
    case ToggleSidebarCollapse(v) => Ok(s.(isSidebarCollapsed := Some(v.GetOr(Not(s.isSidebarCollapsed)))))
    case Other(t) => Err("Unhandled action type: " + t)
  }

  /** Toggling the sidebar twice without a value restores it. */
  lemma ToggleSidebarTwice(s: State)
    ensures var once := LayoutReducer(s, ToggleSidebar(None)).value;
      LayoutReducer(once, ToggleSidebar(None)) == Ok(s)
  {
  }

  /**
   * Toggling the collapse twice without a value restores it once it is a boolean;
   * from `undefined` the first toggle gives `true` and the second `false`.
   */
  lemma ToggleCollapseTwice(s: State)
    ensures var twice := LayoutReducer(LayoutReducer(s, ToggleSidebarCollapse(None)).value, ToggleSidebarCollapse(None)).value;
      twice.isSidebarCollapsed == (if s.isSidebarCollapsed.Some? then s.isSidebarCollapsed else Some(false))
      && twice.isSidebarOpen == s.isSidebarOpen
  {
  }

  /** After any known action the collapse flag is defined. */
  lemma CollapseDefinedAfterToggle(s: State, v: Option<bool>)
    ensures LayoutReducer(s, ToggleSidebarCollapse(v)).value.isSidebarCollapsed.Some?
  {
  }
}

=== FILE: message_router.dfy ===
/**
 * The inbound message router that both `usePipelineRun` hooks install as the
 * channel's `onMessage` handler. Event names are colon-delimited:
 * `output:{block}:{output}`, `start:{block}` and `stop:{block}`.
 */
module MessageRouter {
  import opened Wrappers
  import opened Strings

  /** A call the router makes on the caller's `onOutput` or `onStatusChange`. */
  datatype Callback<P> =
    | OnOutput(blockId: string, outputName: Option<string>, payload: P)
    | OnStatusChange(blockId: string, isWorking: bool)

  /** `s` contains no colon. */
  predicate NoColon(s: string) {
    CharFree(s, ':')
  }

  /**
   * `event.startsWith(p + ":")` holds exactly when splitting `event` on `:` gives at
   * least two parts, the first of them `p`.
   */
  lemma {:induction false} PrefixIsFirstPart(event: string, p: string)
    requires NoColon(p)
    ensures StartsWith(event, p + ":") <==> (|Split(event, ":")| >= 2 && Split(event, ":")[0] == p)
  {
    var parts := Split(event, ":");
    match IndexOf(event, ":")
    case None =>
      assert parts == [event];
      if StartsWith(event, p + ":") {
        assert OccursAt(event, ":", |p|);
        assert false;
      }
    case Some(i) =>
      assert parts == [event[..i]] + Split(event[i + 1..], ":");
      if StartsWith(event, p + ":") {
        assert OccursAt(event, ":", |p|);
        assert forall k :: 0 <= k < |p| ==> event[k] == p[k] && p[k] != ':';
        assert event[i..i + 1][0] == event[i];
        assert i == |p|;
        assert event[..i] == p;
      }
      if parts[0] == p {
        assert event[..|p| + 1] == p + ":";
      }
  }

  /** The router's three independent `startsWith` tests followed by `return payload`. */
  function Route<P>(event: string, payload: P): (r: (seq<Callback<P>>, P))
    ensures r.1 == payload
  {
    var parts := Split(event, ":");
    var outputs := if StartsWith(event, "output:") && |parts| >= 2
      then [OnOutput(parts[1], At(parts, 2), payload)] else [];
    var starts := if StartsWith(event, "start:") && |parts| >= 2
      then [OnStatusChange(parts[1], true)] else [];
    var stops := if StartsWith(event, "stop:") && |parts| >= 2
      then [OnStatusChange(parts[1], false)] else [];
    (outputs + starts + stops, payload)
  }

  /** The event kinds, parsed as a tagged variant rather than by prefix tests. */
  datatype InboundEvent =
    | BlockOutput(blockId: string, outputName: Option<string>)
    | BlockStarted(blockId: string)
    | BlockStopped(blockId: string)
    | Unrecognised

  /** An independent reading of an event name: split on `:` and look at the first part. */
  function Parse(event: string): InboundEvent {
    var parts := Split(event, ":");
    if |parts| < 2 then Unrecognised
    else if parts[0] == "output" then BlockOutput(parts[1], At(parts, 2))
    else if parts[0] == "start" then BlockStarted(parts[1])
    else if parts[0] == "stop" then BlockStopped(parts[1])
    else Unrecognised
  }

  /** The callbacks an event of each kind should trigger. */
  function Dispatch<P>(e: InboundEvent, payload: P): seq<Callback<P>> {
    match e
    case BlockOutput(b, o) => [OnOutput(b, o, payload)]
    case BlockStarted(b) => [OnStatusChange(b, true)]
    case BlockStopped(b) => [OnStatusChange(b, false)]
    case Unrecognised => []
  }

  /**
   * The router agrees with the tagged parser on every event name: at most one
   * callback, the one the event's kind calls for, and none for an unknown kind.
   */
  lemma RouteMatchesParse<P>(event: string, payload: P)
    ensures Route(event, payload).0 == Dispatch(Parse(event), payload)
    ensures |Route(event, payload).0| <= 1
  {
    PrefixIsFirstPart(event, "output");
    PrefixIsFirstPart(event, "start");
    PrefixIsFirstPart(event, "stop");
  }

  /** `output:{block}:{output}` calls `onOutput(block, output, payload)` and nothing else. */
  lemma RouteOutput<P>(blockId: string, outputName: string, payload: P)
    requires NoColon(blockId) && NoColon(outputName)
    ensures Route("output:" + blockId + ":" + outputName, payload).0
      == [OnOutput(blockId, Some(outputName), payload)]
  {
    var parts := ["output", blockId, outputName];
    assert parts[1..] == [blockId, outputName] && parts[1..][1..] == [outputName];
    assert Join(parts[1..], ":") == blockId + ":" + outputName;
    assert Join(parts, ":") == "output:" + blockId + ":" + outputName;
    SplitJoin(parts, ':');
    RouteMatchesParse("output:" + blockId + ":" + outputName, payload);
  }

  /** `start:{block}` calls `onStatusChange(block, true)` and nothing else. */
  lemma RouteStart<P>(blockId: string, payload: P)
    requires NoColon(blockId)
    ensures Route("start:" + blockId, payload).0 == [OnStatusChange(blockId, true)]
  {
    var parts := ["start", blockId];
    assert Join(parts, ":") == "start:" + blockId;
    SplitJoin(parts, ':');
    RouteMatchesParse("start:" + blockId, payload);
  }

  /** `stop:{block}` calls `onStatusChange(block, false)` and nothing else. */
  lemma RouteStop<P>(blockId: string, payload: P)
    requires NoColon(blockId)
    ensures Route("stop:" + blockId, payload).0 == [OnStatusChange(blockId, false)]
  {
    var parts := ["stop", blockId];
    assert Join(parts, ":") == "stop:" + blockId;
    SplitJoin(parts, ':');
    RouteMatchesParse("stop:" + blockId, payload);
  }

  /** An event whose first part is none of the three kinds calls nothing. */
  lemma RouteUnknown<P>(kind: string, rest: string, payload: P)
    requires NoColon(kind) && kind != "output" && kind != "start" && kind != "stop"
    ensures Route(kind + ":" + rest, payload).0 == []
  {
    var e := kind + ":" + rest;
    RouteMatchesParse(e, payload);
    PrefixIsFirstPart(e, kind);
    assert e[..|kind| + 1] == kind + ":";
  }
}

=== FILE: node_fields.dfy ===
/**
 * `NodeFields.tsx`: the input form of a block in the run view (its submit handler
 * and send button) and the text shown for an output field.
 */
module NodeFields {
  import Js
  import Session = PipelineRunSession

  /** What a submit asks of the run session, in order. */
  datatype Action = ClearEvents(blockName: string) | Push(topic: string, payload: Session.InputPayload)

  /** Some entry has key `k`. */
  predicate HasKey(entries: seq<(string, Session.InputPayload)>, k: string) {
    exists i :: 0 <= i < |entries| && entries[i].0 == k
  }

  /** The keys of `entries`, each once, in the order of their first occurrence. */
  function Keys(entries: seq<(string, Session.InputPayload)>): (ks: seq<string>)
    ensures forall i, j :: 0 <= i < j < |ks| ==> ks[i] != ks[j]
    ensures forall k :: k in ks <==> HasKey(entries, k)
  {
    if entries == [] then []
    else
      var init := entries[..|entries| - 1];
      var last := entries[|entries| - 1];
      assert forall k :: HasKey(entries, k) <==> HasKey(init, k) || last.0 == k by {
        forall k | HasKey(entries, k) && last.0 != k ensures HasKey(init, k) {
          var i :| 0 <= i < |entries| && entries[i].0 == k;
          assert init[i] == entries[i];
        }
        forall k | HasKey(init, k) ensures HasKey(entries, k) {
          var i :| 0 <= i < |init| && init[i].0 == k;
          assert entries[i] == init[i];
        }
      }
      if last.0 in Keys(init) then Keys(init) else Keys(init) + [last.0]
  }

  /** The index of the first entry whose key is `k`. */
  function FirstIndex(entries: seq<(string, Session.InputPayload)>, k: string): (p: nat)
    requires HasKey(entries, k)
    ensures p < |entries| && entries[p].0 == k
    ensures forall i :: 0 <= i < p ==> entries[i].0 != k
  {
    if entries[0].0 == k then 0
    else
      assert HasKey(entries[1..], k) by {
        var i :| 0 <= i < |entries| && entries[i].0 == k;
        assert entries[1..][i - 1] == entries[i];
      }
      1 + FirstIndex(entries[1..], k)
  }

  /** Appending an entry does not move the first entry of a key already present. */
  lemma FirstIndexAppend(init: seq<(string, Session.InputPayload)>, last: (string, Session.InputPayload), k: string)
    requires HasKey(init, k)
    ensures HasKey(init + [last], k)
    ensures FirstIndex(init + [last], k) == FirstIndex(init, k)
  {
    var entries := init + [last];
    var q := FirstIndex(init, k);
    assert entries[q] == init[q];
    assert forall i :: 0 <= i < |init| ==> entries[i] == init[i];
  }

  /**
   * The keys are listed in the order of their first entries, as a plain object
   * filled entry by entry lists its (non integer-like) keys.
   */
  lemma {:induction false} KeysInFirstEntryOrder(entries: seq<(string, Session.InputPayload)>, i: nat, j: nat)
    requires i < j < |Keys(entries)|
    ensures HasKey(entries, Keys(entries)[i]) && HasKey(entries, Keys(entries)[j])
    ensures FirstIndex(entries, Keys(entries)[i]) < FirstIndex(entries, Keys(entries)[j])
  {
    var init := entries[..|entries| - 1];
    var last := entries[|entries| - 1];
    assert entries == init + [last];
    var ks := Keys(init);
    assert Keys(entries) == if last.0 in ks then ks else ks + [last.0];
    assert HasKey(init, ks[i]);
    FirstIndexAppend(init, last, ks[i]);
    if j < |ks| {
      KeysInFirstEntryOrder(init, i, j);
      FirstIndexAppend(init, last, ks[j]);
    } else {
      assert Keys(entries)[j] == last.0 && !HasKey(init, last.0);
      assert forall p :: 0 <= p < |init| ==> init[p] == entries[p];
    }
  }

  /** The value of the last entry whose key is `key`: the one a plain object keeps. */
  function LastValue(entries: seq<(string, Session.InputPayload)>, key: string): (v: Session.InputPayload)
    requires HasKey(entries, key)
    ensures exists i :: (0 <= i < |entries| && entries[i] == (key, v)
      && forall j :: i < j < |entries| ==> entries[j].0 != key)
  {
    var last := entries[|entries| - 1];
    if last.0 == key then last.1
    else
      var init := entries[..|entries| - 1];
      assert HasKey(init, key) by {
        var i :| 0 <= i < |entries| && entries[i].0 == key;
        assert init[i] == entries[i];
      }
      var v := LastValue(init, key);
      assert exists i :: (0 <= i < |entries| && entries[i] == (key, v)
        && forall j :: i < j < |entries| ==> entries[j].0 != key) by {
        var i :| 0 <= i < |init| && init[i] == (key, v)
          && forall j :: i < j < |init| ==> init[j].0 != key;
        assert forall j :: 0 <= j < |init| ==> entries[j] == init[j];
        assert forall j :: i < j < |entries| ==> entries[j].0 != key;
      }
      v
  }

  /** The pushes for one key: one per element of an array, else one. */
  function PushesFor(topic: string, value: Session.InputPayload): (r: seq<Action>)
    ensures value.Plain? && value.value.Arr? ==>
      |r| == |value.value.items|
      && forall i :: 0 <= i < |r| ==> r[i] == Push(topic, Session.Plain(value.value.items[i]))
    ensures !(value.Plain? && value.value.Arr?) ==> r == [Push(topic, value)]
  {
    if value.Plain? && value.value.Arr? then
      var items := value.value.items;
      seq(|items|, i requires 0 <= i < |items| => Push(topic, Session.Plain(items[i])))
    else [Push(topic, value)]
  }

  /** The pushes for the given keys, each under `{blockName}:{key}` with its last value. */
  function PushesForKeys(blockName: string, entries: seq<(string, Session.InputPayload)>, ks: seq<string>): seq<Action>
    requires forall i :: 0 <= i < |ks| ==> HasKey(entries, ks[i])
  {
    if ks == [] then []
    else
      PushesForKeys(blockName, entries, ks[..|ks| - 1])
      + PushesFor(blockName + ":" + ks[|ks| - 1], LastValue(entries, ks[|ks| - 1]))
  }

  /** The pushes for the first `j + 1` keys: those for the first `j`, then those for key `j`. */
  lemma PushesForKeysStep(blockName: string, entries: seq<(string, Session.InputPayload)>, ks: seq<string>, j: nat)
    requires j < |ks|
    requires forall i :: 0 <= i < |ks| ==> HasKey(entries, ks[i])
    ensures PushesForKeys(blockName, entries, ks[..j + 1])
      == PushesForKeys(blockName, entries, ks[..j]) + PushesFor(blockName + ":" + ks[j], LastValue(entries, ks[j]))
  {
    assert ks[..j + 1][..j] == ks[..j];
  }

  /** The keys of the form, each with the last value entered for it. */
  method CollectFields(entries: seq<(string, Session.InputPayload)>)
    returns (fields: map<string, Session.InputPayload>, order: seq<string>)
    ensures order == Keys(entries)
    ensures forall k :: k in fields <==> k in order
    ensures forall k :: k in fields ==> HasKey(entries, k) && fields[k] == LastValue(entries, k)
  {
    fields := map[];
    order := [];
    var i := 0;
    while i < |entries|
      invariant 0 <= i <= |entries|
      invariant order == Keys(entries[..i])
      invariant forall k :: k in fields <==> k in order
      invariant forall k :: k in fields ==> HasKey(entries[..i], k) && fields[k] == LastValue(entries[..i], k)
    {
      var key := entries[i].0;
      assert entries[..i + 1][..i] == entries[..i];
      if key !in fields {
        order := order + [key];
      }
      fields := fields[key := entries[i].1];
      i := i + 1;
    }
    assert entries[..i] == entries;
  }

  /** Appends the pushes for one key. */
  method AppendPushes(actions: seq<Action>, topic: string, value: Session.InputPayload) returns (r: seq<Action>)
    ensures r == actions + PushesFor(topic, value)
  {
    r := actions;
    if value.Plain? && value.value.Arr? {
      var items := value.value.items;
      var k := 0;
      while k < |items|
        invariant 0 <= k <= |items|
        invariant r == actions + PushesFor(topic, value)[..k]
      {
        assert PushesFor(topic, value)[..k + 1] == PushesFor(topic, value)[..k] + [Push(topic, Session.Plain(items[k]))];
        r := r + [Push(topic, Session.Plain(items[k]))];
        k := k + 1;
      }
      assert PushesFor(topic, value)[..k] == PushesFor(topic, value);
    } else {
      r := r + [Push(topic, value)];
    }
  }

  /**
   * `onSubmit`: clear the block's events, copy the form entries into a plain
   * object (a repeated key keeps its last value and its first position), then push
   * every key of that object under `{blockName}:{key}`.
   */
  method OnSubmit(blockName: string, entries: seq<(string, Session.InputPayload)>) returns (actions: seq<Action>)
    ensures |actions| >= 1 && actions[0] == ClearEvents(blockName)
    ensures actions[1..] == PushesForKeys(blockName, entries, Keys(entries))
  {
    var fields, order := CollectFields(entries);
    var pushes: seq<Action> := [];
    var j := 0;
    while j < |order|
      invariant 0 <= j <= |order|
      invariant forall i :: 0 <= i < |order| ==> HasKey(entries, order[i])
      invariant pushes == PushesForKeys(blockName, entries, order[..j])
    {
      PushesForKeysStep(blockName, entries, order, j);
      pushes := AppendPushes(pushes, blockName + ":" + order[j], fields[order[j]]);
      j := j + 1;
    }
    assert order[..j] == order;
    actions := [ClearEvents(blockName)] + pushes;
  }

  /** A key entered twice is pushed once, with its second value, at its first position. */
  method RepeatedKeyKeepsLast(a: string, b: string)
    returns (actions: seq<Action>)
    ensures actions == [ClearEvents("text_input_1"),
                        Push("text_input_1:input", Session.Plain(Js.Str(b))),
                        Push("text_input_1:other", Session.Plain(Js.Str(a)))]
  {
    var entries := RepeatedKeyForm(a, b);
    actions := OnSubmit("text_input_1", entries);
    RepeatedKeyPushes(a, b);
  }

  function RepeatedKeyForm(a: string, b: string): seq<(string, Session.InputPayload)> {
    [("input", Session.Plain(Js.Str(a))), ("other", Session.Plain(Js.Str(a))), ("input", Session.Plain(Js.Str(b)))]
  }

  lemma RepeatedKeyKeys(a: string, b: string)
    ensures Keys(RepeatedKeyForm(a, b)) == ["input", "other"]
  {
    var entries := RepeatedKeyForm(a, b);
    assert entries[..|entries| - 1] == entries[..2];
    assert entries[..2][..1] == entries[..1] && entries[..1][..0] == [];
    assert Keys(entries[..1]) == ["input"];
    assert Keys(entries[..2]) == ["input", "other"];
  }

  lemma RepeatedKeyPushes(a: string, b: string)
    ensures PushesForKeys("text_input_1", RepeatedKeyForm(a, b), Keys(RepeatedKeyForm(a, b)))
      == [Push("text_input_1:input", Session.Plain(Js.Str(b))), Push("text_input_1:other", Session.Plain(Js.Str(a)))]
  {
    var entries := RepeatedKeyForm(a, b);
    RepeatedKeyKeys(a, b);
    var ks := ["input", "other"];
    assert ks[..1] == ["input"] && ks[..1][..0] == [];
    assert entries[..|entries| - 1] == entries[..2];
    assert LastValue(entries, "input") == Session.Plain(Js.Str(b));
    assert LastValue(entries, "other") == Session.Plain(Js.Str(a));
    assert HasKey(entries, "input") && HasKey(entries, "other");
    var p1 := PushesFor("text_input_1:input", Session.Plain(Js.Str(b)));
    var p2 := PushesFor("text_input_1:other", Session.Plain(Js.Str(a)));
    assert PushesForKeys("text_input_1", entries, ks[..1][..0]) == [];
    assert "text_input_1" + ":" + "input" == "text_input_1:input";
    assert "text_input_1" + ":" + "other" == "text_input_1:other";
    assert PushesForKeys("text_input_1", entries, ks[..1]) == p1;
    assert PushesForKeys("text_input_1", entries, ks) == p1 + p2;
  }

  /** The send button is enabled only while the run is `running`. */
  function SendEnabled(status: Session.Status): (enabled: bool)
    ensures enabled <==> status == Session.Running
  {
    status == Session.Running
  }

  /**
   * A push of one input through the run hook: the send button is enabled exactly
   * when that push raises no "Start process first" alert, and a push from an
   * enabled button always reaches the channel's assertion-free path.
   */
  method PushFromForm(run: Session.PipelineRun, topic: string, payload: Session.InputPayload)
    returns (outcome: Session.Outcome)
    requires run.Valid()
    modifies run`outbound, run`notices
    ensures run.Valid() && run.status == old(run.status)
    ensures old(run.notices) <= run.notices
    ensures SendEnabled(run.status) <==> Session.StartProcessFirst !in run.notices[|old(run.notices)|..]
    ensures SendEnabled(run.status) ==> outcome == Session.Completed
  {
    var before := run.notices;
    outcome := run.Push(topic, payload);
    var alerts := if run.status != Session.Running then [Session.StartProcessFirst] else [];
    var refusals := if run.current.Some? && !payload.Plain? then [Session.SendFilesThroughRest] else [];
    assert run.notices == before + alerts + refusals;
    assert run.notices[|before|..] == alerts + refusals;
    assert Session.StartProcessFirst !in refusals;
  }

  /** A run event as the node keeps it: the output it came from and its message. */
  datatype Event = Event(output: string, message: string)

  /** `getTextFieldsMessages`: the messages of the events from `outputName`, joined. */
  function TextFieldsMessages(events: seq<Event>, outputName: string): string
  {
    if events == [] then ""
    else
      TextFieldsMessages(events[..|events| - 1], outputName)
      + (if events[|events| - 1].output == outputName then events[|events| - 1].message else "")
  }

  /**
   * The text of a batch of events is the text of its first part followed by that
   * of its second: messages appear in event order.
   */
  lemma {:induction false} TextFieldsMessagesAppend(a: seq<Event>, b: seq<Event>, outputName: string)
    ensures TextFieldsMessages(a + b, outputName) == TextFieldsMessages(a, outputName) + TextFieldsMessages(b, outputName)
  {
    if b != [] {
      var init := b[..|b| - 1];
      assert (a + b)[..|a + b| - 1] == a + init;
      TextFieldsMessagesAppend(a, init, outputName);
    } else {
      assert a + b == a;
    }
  }

  /** Events from other outputs add nothing; one from `outputName` adds its message. */
  lemma TextFieldsMessagesSingle(e: Event, outputName: string)
    ensures TextFieldsMessages([e], outputName) == if e.output == outputName then e.message else ""
  {
    assert [e][..0] == [];
  }

  /** The text never holds more characters than all messages together. */
  lemma {:induction false} TextFieldsMessagesLength(events: seq<Event>, outputName: string)
    ensures |TextFieldsMessages(events, outputName)| <= TotalLength(events)
  {
    if events != [] {
      TextFieldsMessagesLength(events[..|events| - 1], outputName);
    }
  }

  function TotalLength(events: seq<Event>): nat {
    if events == [] then 0 else TotalLength(events[..|events| - 1]) + |events[|events| - 1].message|
  }
}

=== FILE: pipeline_run_session.dfy ===
/**
 * The pipeline run session of the Remix app (`usePipelineRun` under
 * `pages/pipelines/show`): a status machine `idle -> starting -> running`, a
 * socket, the channel reference, and the pushes and callbacks the session makes.
 * The realtime transport is not modelled: what it would do arrives as events
 * (`SocketOpened`, `SocketErrored`, `JoinReplied`, `Receive`), and the token that
 * `/super-api/channel_auth` answers is a parameter of `StartRun`.
 */
module PipelineRunSession {
  import opened Wrappers
  import opened Strings
  import Js
  import opened MessageRouter

  datatype Status = Idle | Starting | Running

  /** The join state of a channel object; `Leaving` once `leave()` was called. */
  datatype ChannelState = Closed | Joining | Joined | Leaving

  /** One `socket.channel(topic, params)` object. */
  datatype Channel = Channel(topic: string, params: Js.Value, state: ChannelState)

  /** What a caller hands to `push`: a plain value, a `File`, or a `FileList`. */
  datatype InputPayload =
    | Plain(value: Js.Value)
    | FileBlob(bytes: seq<bv8>)
    | Files(files: seq<seq<bv8>>)

  /** One `channel.push(event, payload)` on the channel with the given index. */
  datatype Outbound = Outbound(channel: nat, event: string, payload: Js.Value)

  /** What the session shows the user or writes to the console instead of failing. */
  datatype Notice = StartProcessFirst | SendFilesThroughRest

  /** The body of the `POST /super-api/channel_auth` request. */
  datatype AuthRequest = AuthRequest(socketId: string, channelName: string)

  /** How a call ended: normally, or by a failed `assert(...)`. */
  datatype Outcome = Completed | AssertionFailed

  /** The channel a run of `pipelineId` in `organizationId` joins. */
  function ChannelTopic(organizationId: nat, pipelineId: nat): (t: string)
    ensures Split(t, ":") == ["pipelines", NatToString(organizationId), NatToString(pipelineId)]
  {
    var parts := ["pipelines", NatToString(organizationId), NatToString(pipelineId)];
    assert parts[1..] == [NatToString(organizationId), NatToString(pipelineId)];
    assert parts[1..][1..] == [NatToString(pipelineId)];
    assert Join(parts[1..], ":") == NatToString(organizationId) + ":" + NatToString(pipelineId);
    assert Join(parts, ":") == "pipelines:" + NatToString(organizationId) + ":" + NatToString(pipelineId);
    DigitsHaveNoColon(NatToString(organizationId));
    DigitsHaveNoColon(NatToString(pipelineId));
    SplitJoin(parts, ':');
    "pipelines:" + NatToString(organizationId) + ":" + NatToString(pipelineId)
  }

  lemma DigitsHaveNoColon(s: string)
    requires forall i :: 0 <= i < |s| ==> '0' <= s[i] <= '9'
    ensures NoColon(s)
  {
  }

  /**
   * The event name under which an input for `topic` (`{block}:{input}`) is pushed:
   * split on `:`, it reads `input` and then the parts of the topic.
   */
  function InputEvent(topic: string): (e: string)
    ensures Split(e, ":") == ["input"] + Split(topic, ":")
    ensures NoColon(topic) ==> Split(e, ":") == ["input", topic]
  {
    SplitCons("input", ':', topic);
    assert "input:" + topic == "input" + [':'] + topic;
    SplitFree(topic, ':');
    "input:" + topic
  }

  /** `channel.join()` from an `onOpen` callback: only a closed channel starts joining. */
  function JoinIfClosed(channels: seq<Channel>, id: nat): (r: seq<Channel>)
    requires id < |channels|
    ensures |r| == |channels|
    ensures forall k :: 0 <= k < |r| ==> r[k].topic == channels[k].topic
  {
    if channels[id].state == Closed then channels[id := channels[id].(state := Joining)] else channels
  }

  /** The channels after the `onOpen` callbacks for `hooks` have run, in order. */
  function JoinHooked(channels: seq<Channel>, hooks: seq<nat>): (r: seq<Channel>)
    requires forall k :: 0 <= k < |hooks| ==> hooks[k] < |channels|
    ensures |r| == |channels|
    ensures forall k :: 0 <= k < |r| ==> r[k].topic == channels[k].topic
  {
    if hooks == [] then channels
    else JoinIfClosed(JoinHooked(channels, hooks[..|hooks| - 1]), hooks[|hooks| - 1])
  }

  /**
   * After the `onOpen` callbacks, exactly the hooked channels that were closed are
   * joining; every other channel, a joined one in particular, is as it was.
   */
  lemma {:induction false} JoinHookedKeepsJoined(channels: seq<Channel>, hooks: seq<nat>)
    requires forall k :: 0 <= k < |hooks| ==> hooks[k] < |channels|
    ensures forall k :: 0 <= k < |channels| ==>
      JoinHooked(channels, hooks)[k] ==
        if k in hooks && channels[k].state == Closed then channels[k].(state := Joining) else channels[k]
  {
    if hooks != [] {
      var init := hooks[..|hooks| - 1];
      JoinHookedKeepsJoined(channels, init);
      assert hooks == init + [hooks[|hooks| - 1]];
    }
  }

  class PipelineRun {
    const organizationId: nat
    const pipelineId: nat
    /** The uuid the mount effect generates; it identifies the socket to the auth endpoint. */
    const socketId: string
    /** `pipelines:{organizationId}:{pipelineId}`, the name of every channel this session opens. */
    const topic: string

    var status: Status
    /** `socket.isConnected()` */
    var connected: bool
    /** Every channel object `startRun` created, in creation order. */
    var channels: seq<Channel>
    /** `channel.current`: the index of the channel the last `startRun` created. */
    var current: Option<nat>
    /** Channels whose `socket.onOpen` callback joins them, in registration order. */
    var openHooks: seq<nat>
    /** The number of `socket.onError` callbacks registered (each sets `idle`). */
    var errorHooks: nat
    var authRequests: seq<AuthRequest>
    var outbound: seq<Outbound>
    var callbacks: seq<Callback<Js.Value>>
    var notices: seq<Notice>

    ghost predicate Valid()
      reads this
    {
      && current == (if |channels| == 0 then None else Some(|channels| - 1))
      && (forall k :: 0 <= k < |openHooks| ==> openHooks[k] < |channels|)
      && (forall k :: 0 <= k < |channels| ==> channels[k].topic == topic)
      && (status != Idle ==> current.Some?)
      && (status == Running ==> exists k :: 0 <= k < |channels| && channels[k].state == Joined)
      && (connected ==> errorHooks > 0)
    }

    /** Mounting the hook: the effect creates the socket id and an unconnected socket. */
    constructor (organizationId: nat, pipelineId: nat, socketId: string)
      ensures Valid()
      ensures this.organizationId == organizationId && this.pipelineId == pipelineId
      ensures this.socketId == socketId && topic == ChannelTopic(organizationId, pipelineId)
      ensures status == Idle && !connected && channels == [] && current == None
      ensures openHooks == [] && errorHooks == 0
      ensures authRequests == [] && outbound == [] && callbacks == [] && notices == []
    {
      this.organizationId := organizationId;
      this.pipelineId := pipelineId;
      this.socketId := socketId;
      this.topic := ChannelTopic(organizationId, pipelineId);
      status := Idle;
      connected := false;
      channels := [];
      current := None;
      openHooks := [];
      errorHooks := 0;
      authRequests := [];
      outbound := [];
      callbacks := [];
      notices := [];
    }

    /**
     * `startRun`. The auth request is sent first; `token` is its answer, `None` when
     * the fetch rejects (then nothing else happens). Otherwise the status becomes
     * `starting`, a fresh channel becomes the current one, and it is joined now if
     * the socket is connected, or when the socket opens otherwise.
     */
    method StartRun(token: Option<Js.Value>)
      requires Valid()
      modifies this
      ensures Valid()
      ensures authRequests == old(authRequests)
        + [AuthRequest(socketId, topic)]
      ensures outbound == old(outbound) && callbacks == old(callbacks) && notices == old(notices)
      ensures connected == old(connected)
      ensures token.None? ==>
        && status == old(status) && channels == old(channels)
        && current == old(current) && openHooks == old(openHooks) && errorHooks == old(errorHooks)
      ensures token.Some? ==> status == Starting && current == Some(|old(channels)|)
      ensures token.Some? && !old(connected) ==>
        && channels == old(channels) + [Channel(topic, token.value, Closed)]
        && openHooks == old(openHooks) + [|old(channels)|]
        && errorHooks == old(errorHooks) + 1
      ensures token.Some? && old(connected) ==>
        && channels == old(channels) + [Channel(topic, token.value, Joining)]
        && openHooks == old(openHooks) && errorHooks == old(errorHooks)
    {
      var name := topic;
      authRequests := authRequests + [AuthRequest(socketId, name)];
      if token.None? {
        return;
      }
      status := Starting;
      var id := |channels|;
      channels := channels + [Channel(name, token.value, Closed)];
      current := Some(id);
      if !connected {
        openHooks := openHooks + [id];
        errorHooks := errorHooks + 1;
      } else if channels[id].state != Joined {
        channels := channels[id := channels[id].(state := Joining)];
      }
    }

    /**
     * The socket opened: each `onOpen` callback, in registration order, joins its
     * channel. A channel object that is not closed is left alone.
     */
    method SocketOpened()
      requires Valid()
      modifies this
      ensures Valid()
      ensures connected == (old(connected) || old(errorHooks) > 0)
      ensures openHooks == old(openHooks) && errorHooks == old(errorHooks)
      ensures channels == if old(errorHooks) > 0 then JoinHooked(old(channels), old(openHooks)) else old(channels)
      ensures status == old(status) && current == old(current)
      ensures authRequests == old(authRequests) && outbound == old(outbound)
      ensures callbacks == old(callbacks) && notices == old(notices)
    {
      if errorHooks == 0 {
        // connect() was never called, so the socket cannot open
        return;
      }
      connected := true;
      RunOpenHooks();
      JoinHookedKeepsJoined(old(channels), openHooks);
      if status == Running {
        ghost var k :| 0 <= k < |old(channels)| && old(channels)[k].state == Joined;
        assert channels[k].state == Joined;
      }
    }

    /** Each `onOpen` callback, in registration order, joins its channel if it is closed. */
    method RunOpenHooks()
      requires forall k :: 0 <= k < |openHooks| ==> openHooks[k] < |channels|
      modifies this`channels
      ensures channels == JoinHooked(old(channels), openHooks)
    {
      var i := 0;
      while i < |openHooks|
        invariant 0 <= i <= |openHooks|
        invariant channels == JoinHooked(old(channels), openHooks[..i])
      {
        assert openHooks[..i + 1][..i] == openHooks[..i];
        channels := JoinIfClosed(channels, openHooks[i]);
        i := i + 1;
      }
      assert openHooks[..i] == openHooks;
    }

    /** The socket reported an error: every registered `onError` callback sets `idle`. */
    method SocketErrored()
      requires Valid()
      modifies this
      ensures Valid()
      ensures !connected
      ensures status == if old(errorHooks) > 0 then Idle else old(status)
      ensures channels == old(channels) && current == old(current)
      ensures openHooks == old(openHooks) && errorHooks == old(errorHooks)
      ensures authRequests == old(authRequests) && outbound == old(outbound)
      ensures callbacks == old(callbacks) && notices == old(notices)
    {
      connected := false;
      if errorHooks > 0 {
        status := Idle;
      }
    }

    /**
     * The server answered the join of channel `id`. Only an `"ok"` has a handler,
     * and it sets `running`; an error or a timeout leaves the status as it was.
     */
    method JoinReplied(id: nat, ok: bool)
      requires Valid()
      requires id < |channels|
      modifies this
      ensures Valid()
      ensures old(channels)[id].state == Joining && ok ==>
        status == Running && channels == old(channels)[id := old(channels)[id].(state := Joined)]
      ensures old(channels)[id].state == Joining && !ok ==>
        status == old(status) && channels == old(channels)[id := old(channels)[id].(state := Closed)]
      ensures old(channels)[id].state != Joining ==> status == old(status) && channels == old(channels)
      ensures connected == old(connected) && current == old(current)
      ensures openHooks == old(openHooks) && errorHooks == old(errorHooks)
      ensures authRequests == old(authRequests) && outbound == old(outbound)
      ensures callbacks == old(callbacks) && notices == old(notices)
    {
      if channels[id].state == Joining {
        if ok {
          channels := channels[id := channels[id].(state := Joined)];
          status := Running;
          assert channels[id].state == Joined;
        } else {
          if status == Running {
            ghost var k :| 0 <= k < |channels| && channels[k].state == Joined;
            channels := channels[id := channels[id].(state := Closed)];
            assert channels[k].state == Joined;
          } else {
            channels := channels[id := channels[id].(state := Closed)];
          }
        }
      }
    }

    /** An inbound message: the router's callbacks are made and the payload is returned. */
    method Receive(event: string, payload: Js.Value) returns (returned: Js.Value)
      requires Valid()
      modifies this
      ensures Valid()
      ensures returned == payload
      ensures callbacks == old(callbacks) + Dispatch(Parse(event), payload)
      ensures status == old(status) && connected == old(connected)
      ensures channels == old(channels) && current == old(current)
      ensures openHooks == old(openHooks) && errorHooks == old(errorHooks)
      ensures authRequests == old(authRequests) && outbound == old(outbound) && notices == old(notices)
    {
      var routed := Route(event, payload);
      RouteMatchesParse(event, payload);
      callbacks := callbacks + routed.0;
      returned := routed.1;
    }

    /** `stopRun`: leave the current channel and set `idle`, whatever the server answers. */
    method StopRun() returns (outcome: Outcome)
      requires Valid()
      modifies this
      ensures Valid()
      ensures outcome == AssertionFailed <==> old(current).None?
      ensures old(current).None? ==> status == old(status) && channels == old(channels)
      ensures old(current).Some? ==>
        && status == Idle
        && channels == old(channels)[old(current).value := old(channels)[old(current).value].(state := Leaving)]
      ensures connected == old(connected) && current == old(current)
      ensures openHooks == old(openHooks) && errorHooks == old(errorHooks)
      ensures authRequests == old(authRequests) && outbound == old(outbound)
      ensures callbacks == old(callbacks) && notices == old(notices)
    {
      if current.None? {
        return AssertionFailed;
      }
      var id := current.value;
      channels := channels[id := channels[id].(state := Leaving)];
      status := Idle;
      return Completed;
    }

    /**
     * `push(topic, payload)`. A status other than `running` only raises the
     * "Start process first" alert; a missing channel fails the assertion; files
     * are refused with a console error; any other value is pushed once under
     * `input:{topic}`.
     */
    method Push(topic: string, payload: InputPayload) returns (outcome: Outcome)
      requires Valid()
      modifies this`outbound, this`notices
      ensures Valid()
      ensures outcome == AssertionFailed <==> current.None?
      ensures status != Idle ==> outcome == Completed
      ensures notices == old(notices)
        + (if status != Running then [StartProcessFirst] else [])
        + (if current.Some? && !payload.Plain? then [SendFilesThroughRest] else [])
      ensures outbound == old(outbound)
        + (if current.Some? && payload.Plain?
           then [Outbound(current.value, InputEvent(topic), payload.value)] else [])
    {
      if status != Running {
        notices := notices + [StartProcessFirst];
      }
      if current.None? {
        return AssertionFailed;
      }
      match payload {
        case FileBlob(_) =>
          notices := notices + [SendFilesThroughRest];
        case Files(_) =>
          notices := notices + [SendFilesThroughRest];
        case Plain(v) =>
          outbound := outbound + [Outbound(current.value, InputEvent(topic), v)];
      }
      return Completed;
    }
  }

  /**
   * `startRun` on an unconnected socket, then the socket opens and the server
   * accepts the join: the run is `running` and has pushed nothing.
   */
  method StartOpenJoin(organizationId: nat, pipelineId: nat, socketId: string, token: Js.Value)
    returns (status: Status, topic: string, pushed: nat)
    ensures status == Running
    ensures topic == "pipelines:" + NatToString(organizationId) + ":" + NatToString(pipelineId)
    ensures pushed == 0
  {
    var run := new PipelineRun(organizationId, pipelineId, socketId);
    run.StartRun(Some(token));
    assert run.status == Starting;
    run.SocketOpened();
    assert 0 in run.openHooks;
    run.JoinReplied(0, true);
    status := run.status;
    topic := run.channels[0].topic;
    pushed := |run.outbound|;
  }

  /**
   * `startRun`, then the socket opens and the server rejects the join: nothing
   * handles the rejection, so the status stays `starting`.
   */
  method StartRejected(organizationId: nat, pipelineId: nat, socketId: string, token: Js.Value)
    returns (status: Status)
    ensures status == Starting
  {
    var run := new PipelineRun(organizationId, pipelineId, socketId);
    run.StartRun(Some(token));
    run.SocketOpened();
    assert 0 in run.openHooks;
    run.JoinReplied(0, false);
    status := run.status;
  }

  /** `startRun`, then a socket error: back to `idle`. */
  method StartSocketError(organizationId: nat, pipelineId: nat, socketId: string, token: Js.Value)
    returns (status: Status)
    ensures status == Idle
  {
    var run := new PipelineRun(organizationId, pipelineId, socketId);
    run.StartRun(Some(token));
    run.SocketErrored();
    status := run.status;
  }

  /**
   * A second `startRun` on the connected socket creates no second socket: it
   * joins its new channel right away and registers no further socket callbacks.
   */
  method StartTwice(organizationId: nat, pipelineId: nat, socketId: string, token: Js.Value)
    returns (status: Status, openCallbacks: nat, channelCount: nat)
    ensures status == Running
    ensures openCallbacks == 1 && channelCount == 2
  {
    var run := new PipelineRun(organizationId, pipelineId, socketId);
    run.StartRun(Some(token));
    run.SocketOpened();
    run.StartRun(Some(token));
    run.JoinReplied(1, true);
    status := run.status;
    openCallbacks := |run.openHooks|;
    channelCount := |run.channels|;
  }

  /** Pushing while `idle` after a stop raises the alert and still hands the value to the left channel's `push`. */
  method PushAfterStop(organizationId: nat, pipelineId: nat, socketId: string, token: Js.Value,
                       topic: string, value: Js.Value)
    returns (sent: seq<Outbound>, alerted: seq<Notice>)
    ensures sent == [Outbound(0, "input:" + topic, value)]
    ensures alerted == [StartProcessFirst]
  {
    var run := new PipelineRun(organizationId, pipelineId, socketId);
    run.StartRun(Some(token));
    var _ := run.StopRun();
    var _ := run.Push(topic, Plain(value));
    sent := run.outbound;
    alerted := run.notices;
  }

  /** Pushing before any `startRun` alerts and then fails the channel assertion. */
  method PushBeforeStart(organizationId: nat, pipelineId: nat, socketId: string, topic: string,
                         payload: InputPayload)
    returns (outcome: Outcome, sent: nat)
    ensures outcome == AssertionFailed && sent == 0
  {
    var run := new PipelineRun(organizationId, pipelineId, socketId);
    outcome := run.Push(topic, payload);
    sent := |run.outbound|;
  }
}

=== FILE: pipelines_hooks.dfy ===
/**
 * `pipelines.hooks.tsx` of the earlier Next.js app: its `usePipelineRun`
 * (a run session that pushes `File` and `FileList` inputs as bytes over the
 * channel) and `getBlocksIO` / `nameIO`, which list the public inputs and outputs
 * of a pipeline's blocks under `{block}:{io}` names.
 */
module PipelinesHooks {
  import opened Wrappers
  import opened Strings
  import Js
  import opened MessageRouter
  import Session = PipelineRunSession
  import opened BlockIO

  /** A socket object. The hook body builds a new one on every render. */
  datatype Socket = Socket(
    connectRequested: bool,
    connected: bool,
    /** Channels whose `onOpen` callback joins them, in registration order. */
    openHooks: seq<nat>,
    /** The number of `onError` callbacks registered (each sets `idle`). */
    errorHooks: nat)

  /** An `arrayBuffer()` conversion whose `.then` will push its bytes under `event`. */
  datatype PendingPush = PendingPush(event: string, bytes: seq<bv8>)

  /** One `channel.push(event, payload)` on the channel with the given index. */
  datatype Outbound = Outbound(channel: nat, event: string, payload: OutboundPayload)

  /** A pushed payload: a plain value, or the raw bytes of a file. */
  datatype OutboundPayload = Value(value: Js.Value) | Bytes(bytes: seq<bv8>)

  /**
   * The channel this variant joins: split on `:`, `pipelines` and then the
   * pipeline id alone, with no organisation part.
   */
  function LegacyChannelTopic(pipelineId: string): (t: string)
    ensures Split(t, ":") == ["pipelines"] + Split(pipelineId, ":")
    ensures NoColon(pipelineId) ==> Split(t, ":") == ["pipelines", pipelineId]
    ensures NoColon(pipelineId) ==> |Split(t, ":")| == 2
  {
    SplitCons("pipelines", ':', pipelineId);
    assert "pipelines:" + pipelineId == "pipelines" + [':'] + pipelineId;
    SplitFree(pipelineId, ':');
    "pipelines:" + pipelineId
  }

  /** A fresh socket: not connected, no callbacks. */
  function FreshSocket(): Socket {
    Socket(false, false, [], 0)
  }

  class PipelineRun {
    const pipelineId: string
    const topic: string

    var status: Session.Status
    /** Every socket the hook body built; the last one is `socket.current`. */
    var sockets: seq<Socket>
    var channels: seq<Session.Channel>
    /** `channel.current` */
    var current: Option<nat>
    var pending: seq<PendingPush>
    var outbound: seq<Outbound>
    var callbacks: seq<Callback<Js.Value>>
    var alerts: nat

    ghost predicate Valid()
      reads this
    {
      && |sockets| >= 1
      && current == (if |channels| == 0 then None else Some(|channels| - 1))
      && (forall s, k :: 0 <= s < |sockets| && 0 <= k < |sockets[s].openHooks| ==>
            sockets[s].openHooks[k] < |channels|)
      && (forall k :: 0 <= k < |channels| ==> channels[k].topic == topic)
      && (status != Session.Idle ==> current.Some?)
      && (|pending| > 0 ==> current.Some?)
      && (status == Session.Running ==> exists k :: 0 <= k < |channels| && channels[k].state == Session.Joined)
    }

    /** The first render: one unconnected socket, status `idle`. */
    constructor (pipelineId: string)
      ensures Valid()
      ensures this.pipelineId == pipelineId && topic == LegacyChannelTopic(pipelineId)
      ensures status == Session.Idle && sockets == [FreshSocket()] && channels == [] && current == None
      ensures pending == [] && outbound == [] && callbacks == [] && alerts == 0
    {
      this.pipelineId := pipelineId;
      this.topic := LegacyChannelTopic(pipelineId);
      status := Session.Idle;
      sockets := [FreshSocket()];
      channels := [];
      current := None;
      pending := [];
      outbound := [];
      callbacks := [];
      alerts := 0;
    }

    /** A re-render: the hook body replaces `socket.current` with a new, unconnected socket. */
    method Render()
      requires Valid()
      modifies this`sockets
      ensures Valid()
      ensures sockets == old(sockets) + [FreshSocket()]
    {
      sockets := sockets + [FreshSocket()];
    }

    /**
     * `startRun`: status `starting`, a fresh channel with empty params becomes the
     * current one; it is joined now if the current socket is connected, or when
     * that socket opens otherwise.
     */
    method StartRun()
      requires Valid()
      modifies this`status, this`channels, this`current, this`sockets
      ensures Valid()
      ensures status == Session.Starting && current == Some(|old(channels)|)
      ensures var s := old(sockets)[|old(sockets)| - 1];
        && |sockets| == |old(sockets)|
        && sockets[..|sockets| - 1] == old(sockets)[..|sockets| - 1]
        && (!s.connected ==>
              && channels == old(channels) + [Session.Channel(topic, Js.Obj(map[]), Session.Closed)]
              && sockets[|sockets| - 1] == s.(connectRequested := true,
                   openHooks := s.openHooks + [|old(channels)|], errorHooks := s.errorHooks + 1))
        && (s.connected ==>
              && channels == old(channels) + [Session.Channel(topic, Js.Obj(map[]), Session.Joining)]
              && sockets == old(sockets))
    {
      status := Session.Starting;
      var id := |channels|;
      channels := channels + [Session.Channel(topic, Js.Obj(map[]), Session.Closed)];
      current := Some(id);
      var last := |sockets| - 1;
      var s := sockets[last];
      if !s.connected {
        sockets := sockets[last := s.(connectRequested := true,
          openHooks := s.openHooks + [id], errorHooks := s.errorHooks + 1)];
      } else if channels[id].state != Session.Joined {
        channels := channels[id := channels[id].(state := Session.Joining)];
      }
    }

    /** Socket `s` opened: its `onOpen` callbacks join their channels, in order. */
    method SocketOpened(s: nat)
      requires Valid()
      requires s < |sockets|
      modifies this`sockets, this`channels
      ensures Valid()
      ensures !old(sockets)[s].connectRequested ==> sockets == old(sockets) && channels == old(channels)
      ensures old(sockets)[s].connectRequested ==>
        && sockets == old(sockets)[s := old(sockets)[s].(connected := true)]
        && channels == Session.JoinHooked(old(channels), old(sockets)[s].openHooks)
    {
      if !sockets[s].connectRequested {
        return;
      }
      var hooks := sockets[s].openHooks;
      sockets := sockets[s := sockets[s].(connected := true)];
      var i := 0;
      while i < |hooks|
        invariant 0 <= i <= |hooks|
        invariant forall k :: 0 <= k < |hooks| ==> hooks[k] < |old(channels)|
        invariant channels == Session.JoinHooked(old(channels), hooks[..i])
        invariant sockets == old(sockets)[s := old(sockets)[s].(connected := true)]
      {
        assert hooks[..i + 1][..i] == hooks[..i];
        channels := Session.JoinIfClosed(channels, hooks[i]);
        i := i + 1;
      }
      assert hooks[..i] == hooks;
      Session.JoinHookedKeepsJoined(old(channels), hooks);
    }

    /** Socket `s` reported an error: each of its `onError` callbacks sets `idle`. */
    method SocketErrored(s: nat)
      requires Valid()
      requires s < |sockets|
      modifies this`sockets, this`status
      ensures Valid()
      ensures sockets == old(sockets)[s := old(sockets)[s].(connected := false)]
      ensures status == if old(sockets)[s].errorHooks > 0 then Session.Idle else old(status)
    {
      if sockets[s].errorHooks > 0 {
        status := Session.Idle;
      }
      sockets := sockets[s := sockets[s].(connected := false)];
    }

    /** The server answered the join of channel `id`; only `"ok"` has a handler. */
    method JoinReplied(id: nat, ok: bool)
      requires Valid()
      requires id < |channels|
      modifies this`channels, this`status
      ensures Valid()
      ensures old(channels)[id].state == Session.Joining && ok ==>
        status == Session.Running && channels == old(channels)[id := old(channels)[id].(state := Session.Joined)]
      ensures old(channels)[id].state == Session.Joining && !ok ==>
        status == old(status) && channels == old(channels)[id := old(channels)[id].(state := Session.Closed)]
      ensures old(channels)[id].state != Session.Joining ==> status == old(status) && channels == old(channels)
    {
      if channels[id].state == Session.Joining {
        if ok {
          channels := channels[id := channels[id].(state := Session.Joined)];
          status := Session.Running;
          assert channels[id].state == Session.Joined;
        } else {
          if status == Session.Running {
            ghost var k :| 0 <= k < |channels| && channels[k].state == Session.Joined;
            assert k != id;
            channels := channels[id := channels[id].(state := Session.Closed)];
            assert channels[k].state == Session.Joined;
          } else {
            channels := channels[id := channels[id].(state := Session.Closed)];
          }
        }
      }
    }

    /** An inbound message: the same router as the Remix hook. */
    method Receive(event: string, payload: Js.Value) returns (returned: Js.Value)
      requires Valid()
      modifies this`callbacks
      ensures Valid()
      ensures returned == payload
      ensures callbacks == old(callbacks) + Dispatch(Parse(event), payload)
    {
      var routed := Route(event, payload);
      RouteMatchesParse(event, payload);
      callbacks := callbacks + routed.0;
      returned := routed.1;
    }

    /** `stopRun`: leave the current channel and set `idle`. */
    method StopRun() returns (outcome: Session.Outcome)
      requires Valid()
      modifies this`channels, this`status
      ensures Valid()
      ensures outcome == Session.AssertionFailed <==> current.None?
      ensures current.None? ==> status == old(status) && channels == old(channels)
      ensures current.Some? ==>
        && status == Session.Idle
        && channels == old(channels)[current.value := old(channels)[current.value].(state := Session.Leaving)]
    {
      if current.None? {
        return Session.AssertionFailed;
      }
      var id := current.value;
      channels := channels[id := channels[id].(state := Session.Leaving)];
      status := Session.Idle;
      return Session.Completed;
    }

    /**
     * `push(topic, payload)`: a status other than `running` raises the alert and
     * carries on; without a channel the assertion fails. A plain value is pushed
     * at once; a `File`, and each file of a `FileList` in list order, starts a byte
     * conversion whose push happens when it completes.
     */
    method Push(topic: string, payload: Session.InputPayload) returns (outcome: Session.Outcome)
      requires Valid()
      modifies this`alerts, this`outbound, this`pending
      ensures Valid()
      ensures alerts == old(alerts) + (if status != Session.Running then 1 else 0)
      ensures outcome == Session.AssertionFailed <==> current.None?
      ensures current.None? ==> outbound == old(outbound) && pending == old(pending)
      ensures current.Some? ==> match payload
        case Plain(v) =>
          outbound == old(outbound) + [Outbound(current.value, Session.InputEvent(topic), Value(v))]
          && pending == old(pending)
        case FileBlob(b) =>
          outbound == old(outbound) && pending == old(pending) + [PendingPush(Session.InputEvent(topic), b)]
        case Files(fs) =>
          outbound == old(outbound) && pending == old(pending) + Conversions(Session.InputEvent(topic), fs)
    {
      if status != Session.Running {
        alerts := alerts + 1;
      }
      if current.None? {
        return Session.AssertionFailed;
      }
      var event := Session.InputEvent(topic);
      match payload {
        case Plain(v) =>
          outbound := outbound + [Outbound(current.value, event, Value(v))];
        case FileBlob(b) =>
          pending := pending + [PendingPush(event, b)];
        case Files(fs) =>
          StartConversions(event, fs);
      }
      return Session.Completed;
    }

    /** Starts one byte conversion per file of a `FileList`, in list order. */
    method StartConversions(event: string, fs: seq<seq<bv8>>)
      requires Valid() && current.Some?
      modifies this`pending
      ensures Valid()
      ensures pending == old(pending) + Conversions(event, fs)
    {
      var i := 0;
      while i < |fs|
        invariant 0 <= i <= |fs|
        invariant pending == old(pending) + Conversions(event, fs[..i])
        invariant Valid()
      {
        assert fs[..i + 1] == fs[..i] + [fs[i]];
        ConversionsAppend(event, fs[..i], fs[i]);
        pending := pending + [PendingPush(event, fs[i])];
        i := i + 1;
      }
      assert fs[..i] == fs;
    }

    /**
     * The conversion at index `k` completed: its bytes are pushed on the channel
     * that is current now. Conversions may complete in any order.
     */
    method ConversionDone(k: nat)
      requires Valid()
      requires k < |pending|
      modifies this`pending, this`outbound
      ensures Valid()
      ensures pending == old(pending)[..k] + old(pending)[k + 1..]
      ensures outbound == old(outbound) + [Outbound(current.value, old(pending)[k].event, Bytes(old(pending)[k].bytes))]
    {
      var p := pending[k];
      pending := pending[..k] + pending[k + 1..];
      outbound := outbound + [Outbound(current.value, p.event, Bytes(p.bytes))];
    }
  }

  /** One pending conversion per file, in list order, all under `event`. */
  function Conversions(event: string, files: seq<seq<bv8>>): (r: seq<PendingPush>)
    ensures |r| == |files|
    ensures forall i :: 0 <= i < |files| ==> r[i] == PendingPush(event, files[i])
  {
    if files == [] then [] else [PendingPush(event, files[0])] + Conversions(event, files[1..])
  }

  lemma ConversionsAppend(event: string, files: seq<seq<bv8>>, f: seq<bv8>)
    ensures Conversions(event, files + [f]) == Conversions(event, files) + [PendingPush(event, f)]
  {
  }

  /** Start, open and an `ok` join: a running session with nothing pending or sent. */
  method RunningSession(pipelineId: string) returns (run: PipelineRun)
    ensures fresh(run) && run.Valid()
    ensures run.status == Session.Running && run.current.Some?
    ensures run.pending == [] && run.outbound == []
  {
    run := new PipelineRun(pipelineId);
    run.StartRun();
    run.SocketOpened(0);
    assert 0 in run.sockets[0].openHooks;
    run.JoinReplied(0, true);
  }

  /**
   * A `FileList` of two files, pushed while running: both conversions complete,
   * the second first, and the bytes go out in completion order, not list order.
   */
  method FileListOrderNotEnforced(pipelineId: string, topic: string, first: seq<bv8>, second: seq<bv8>)
    returns (sent: seq<Outbound>)
    ensures |sent| == 2
    ensures sent[0].event == "input:" + topic && sent[0].payload == Bytes(second)
    ensures sent[1].event == "input:" + topic && sent[1].payload == Bytes(first)
  {
    var run := RunningSession(pipelineId);
    var event := Session.InputEvent(topic);
    var _ := run.Push(topic, Session.Files([first, second]));
    assert run.pending == [PendingPush(event, first), PendingPush(event, second)];
    assert run.outbound == [];
    run.ConversionDone(1);
    assert run.pending == [PendingPush(event, first)];
    run.ConversionDone(0);
    sent := run.outbound;
  }

  /**
   * A re-render between two `startRun` calls replaces the connected socket with a
   * fresh one, so the second call connects a second socket.
   */
  method RenderForcesReconnect(pipelineId: string)
    returns (socketsConnecting: nat)
    ensures socketsConnecting == 2
  {
    var run := new PipelineRun(pipelineId);
    run.StartRun();
    run.SocketOpened(0);
    run.Render();
    run.StartRun();
    socketsConnecting := (if run.sockets[0].connectRequested then 1 else 0)
      + (if run.sockets[1].connectRequested then 1 else 0);
  }

  // ---- getBlocksIO / nameIO ----

  datatype BlockType = BlockType(inputs: seq<IO>, outputs: seq<IO>)

  datatype BlockConfig = BlockConfig(name: string, blockType: BlockType)

  datatype BlocksIO = BlocksIO(inputs: seq<IO>, outputs: seq<IO>)

  /** `nameIO(name, io)`: each entry renamed `{name}:{io.name}`, nothing else touched. */
  function NameIO(name: string, ios: seq<IO>): (r: seq<IO>)
    ensures |r| == |ios|
    ensures forall i :: 0 <= i < |ios| ==>
      && r[i].name == name + ":" + ios[i].name
      && r[i].ioType == ios[i].ioType
      && r[i].public == ios[i].public
  {
    seq(|ios|, i requires 0 <= i < |ios| => ios[i].(name := name + ":" + ios[i].name))
  }

  /** The public inputs of one block, renamed `{block}:{io}`. */
  function BlockInputs(b: BlockConfig): seq<IO> {
    NameIO(b.name, PublicOnly(b.blockType.inputs))
  }

  /** The public outputs of one block, renamed `{block}:{io}`. */
  function BlockOutputs(b: BlockConfig): seq<IO> {
    NameIO(b.name, PublicOnly(b.blockType.outputs))
  }

  /** `getBlocksIO`: the `reduce` over the blocks, left to right. */
  function GetBlocksIO(blocks: seq<BlockConfig>): BlocksIO
  {
    if blocks == [] then BlocksIO([], [])
    else
      var acc := GetBlocksIO(blocks[..|blocks| - 1]);
      var b := blocks[|blocks| - 1];
      BlocksIO(acc.inputs + BlockInputs(b), acc.outputs + BlockOutputs(b))
  }

  /** The public inputs of `blocks`, renamed, block by block from the first. */
  function PublicInputs(blocks: seq<BlockConfig>): seq<IO> {
    if blocks == [] then [] else BlockInputs(blocks[0]) + PublicInputs(blocks[1..])
  }

  /** The public outputs of `blocks`, renamed, block by block from the first. */
  function PublicOutputs(blocks: seq<BlockConfig>): seq<IO> {
    if blocks == [] then [] else BlockOutputs(blocks[0]) + PublicOutputs(blocks[1..])
  }

  /**
   * `getBlocksIO` lists exactly the public inputs and outputs, in block order and
   * then declaration order.
   */
  lemma {:induction false} GetBlocksIOInOrder(blocks: seq<BlockConfig>)
    ensures GetBlocksIO(blocks) == BlocksIO(PublicInputs(blocks), PublicOutputs(blocks))
  {
    if blocks != [] {
      var init := blocks[..|blocks| - 1];
      var b := blocks[|blocks| - 1];
      GetBlocksIOInOrder(init);
      assert blocks == init + [b];
      PublicInputsAppend(init, b);
      PublicOutputsAppend(init, b);
    }
  }

  lemma {:induction false} PublicInputsAppend(blocks: seq<BlockConfig>, b: BlockConfig)
    ensures PublicInputs(blocks + [b]) == PublicInputs(blocks) + BlockInputs(b)
  {
    if blocks != [] {
      assert (blocks + [b])[1..] == blocks[1..] + [b];
      PublicInputsAppend(blocks[1..], b);
    } else {
      assert [b][1..] == [];
    }
  }

  lemma {:induction false} PublicOutputsAppend(blocks: seq<BlockConfig>, b: BlockConfig)
    ensures PublicOutputs(blocks + [b]) == PublicOutputs(blocks) + BlockOutputs(b)
  {
    if blocks != [] {
      assert (blocks + [b])[1..] == blocks[1..] + [b];
      PublicOutputsAppend(blocks[1..], b);
    } else {
      assert [b][1..] == [];
    }
  }

  /** `io` is a public input of `b` and `x` is it renamed `{block}:{io}`. */
  predicate IsBlockInput(b: BlockConfig, io: IO, x: IO) {
    io in b.blockType.inputs && io.public && x == io.(name := b.name + ":" + io.name)
  }

  /** The renamed public inputs of one block are exactly its public inputs, renamed. */
  lemma BlockInputsMembers(b: BlockConfig, x: IO)
    ensures x in BlockInputs(b) <==> exists io :: IsBlockInput(b, io, x)
  {
    var pub := PublicOnly(b.blockType.inputs);
    var named := BlockInputs(b);
    if x in named {
      var j :| 0 <= j < |named| && named[j] == x;
      assert IsBlockInput(b, pub[j], x);
    }
    if exists io :: IsBlockInput(b, io, x) {
      var io :| IsBlockInput(b, io, x);
      assert io in pub;
      var j :| 0 <= j < |pub| && pub[j] == io;
      assert named[j] == x;
    }
  }

  /**
   * Every listed input is a public input of some block, renamed `{block}:{io}`,
   * and every public input of every block is listed.
   */
  lemma {:induction false} PublicInputsMembers(blocks: seq<BlockConfig>, x: IO)
    ensures x in PublicInputs(blocks) <==>
      exists i, io :: 0 <= i < |blocks| && IsBlockInput(blocks[i], io, x)
  {
    if blocks != [] {
      PublicInputsMembers(blocks[1..], x);
      BlockInputsMembers(blocks[0], x);
      if exists i, io :: 0 <= i < |blocks| && IsBlockInput(blocks[i], io, x) {
        var i, io :| 0 <= i < |blocks| && IsBlockInput(blocks[i], io, x);
        if i > 0 {
          assert IsBlockInput(blocks[1..][i - 1], io, x);
        }
      }
      if x in PublicInputs(blocks[1..]) {
        var i, io :| 0 <= i < |blocks[1..]| && IsBlockInput(blocks[1..][i], io, x);
        assert IsBlockInput(blocks[i + 1], io, x);
      }
    }
  }
}

=== FILE: placeholders.dfy ===
/**
 * The two placeholder patterns of the web app's URL and prompt templates:
 * `/{{(.*?)}}/g`, whose lazy body stops at the first `}}` on its line, and
 * `/{{([\w.]+)}}/g`, whose body is a run of word characters and dots.
 */
module Placeholders {
  import opened Wrappers
  import opened Strings

  /** `{{` starts at `i`. */
  predicate OpenAt(s: string, i: nat) {
    i + 1 < |s| && s[i] == '{' && s[i + 1] == '{'
  }

  /** `}}` starts at `i`. */
  predicate CloseAt(s: string, i: nat) {
    i + 1 < |s| && s[i] == '}' && s[i + 1] == '}'
  }

  /** The characters a regular-expression `.` does not match. */
  predicate IsLineTerminator(c: char) {
    c == '\n' || c == '\r' || c as int == 0x2028 || c as int == 0x2029
  }

  /**
   * Where the lazy `(.*?)}}` part of the pattern closes when started at `k`: the
   * first `}}` at or after `k` with no line terminator before it.
   */
  function ClosingFrom(s: string, k: nat): (r: Option<nat>)
    decreases |s| - k
    ensures r.Some? ==> k <= r.value && r.value + 2 <= |s|
  {
    if CloseAt(s, k) then Some(k)
    else if k >= |s| || IsLineTerminator(s[k]) then None
    else ClosingFrom(s, k + 1)
  }

  /**
   * The close found is a `}}` with neither a `}}` nor a line terminator before it;
   * when none is found, every later `}}` has a line terminator before it.
   */
  lemma {:induction false} ClosingFromIsFirst(s: string, k: nat)
    decreases |s| - k
    ensures var r := ClosingFrom(s, k);
      && (r.Some? ==> (CloseAt(s, r.value)
           && forall m :: k <= m < r.value ==> !CloseAt(s, m) && !IsLineTerminator(s[m])))
      && (r.None? ==> forall j :: k <= j && CloseAt(s, j) ==>
           exists m :: k <= m < j && IsLineTerminator(s[m]))
  {
    if !CloseAt(s, k) && k < |s| && !IsLineTerminator(s[k]) {
      ClosingFromIsFirst(s, k + 1);
    }
  }

  /** A match of `{{(.*?)}}` starts at `q`. */
  predicate StartsMatch(s: string, q: nat) {
    OpenAt(s, q) && ClosingFrom(s, q + 2).Some?
  }

  /**
   * The spans `[start, end)` that `template.match(/{{(.*?)}}/g)` reports from
   * position `p` on: the leftmost match, then the matches after its end.
   */
  function MatchSpans(s: string, p: nat): (spans: seq<(nat, nat)>)
    decreases |s| - p
    ensures forall k :: 0 <= k < |spans| ==> p <= spans[k].0 && spans[k].0 + 4 <= spans[k].1 <= |s|
    ensures forall k :: 0 <= k < |spans| - 1 ==> spans[k].1 <= spans[k + 1].0
  {
    if p >= |s| then []
    else if StartsMatch(s, p) then
      var e := ClosingFrom(s, p + 2).value + 2;
      [(p, e)] + MatchSpans(s, e)
    else MatchSpans(s, p + 1)
  }

  /** Every span starts a match of the pattern and ends just after that match's lazy close. */
  predicate SpansAreMatches(s: string, spans: seq<(nat, nat)>) {
    forall k :: 0 <= k < |spans| ==>
      StartsMatch(s, spans[k].0) && spans[k].1 == ClosingFrom(s, spans[k].0 + 2).value + 2
  }

  /** A match in front of matching spans keeps them matching. */
  lemma SpansConsMatches(s: string, span: (nat, nat), rest: seq<(nat, nat)>)
    requires StartsMatch(s, span.0) && span.1 == ClosingFrom(s, span.0 + 2).value + 2
    requires SpansAreMatches(s, rest)
    ensures SpansAreMatches(s, [span] + rest)
  {
    var spans := [span] + rest;
    forall k | 0 < k < |spans|
      ensures StartsMatch(s, spans[k].0) && spans[k].1 == ClosingFrom(s, spans[k].0 + 2).value + 2
    {
      assert spans[k] == rest[k - 1];
    }
  }

  /** Each reported span is a match of the pattern, closed at the first `}}` its line allows. */
  lemma {:induction false} MatchSpansAreMatches(s: string, p: nat)
    decreases |s| - p
    ensures SpansAreMatches(s, MatchSpans(s, p))
  {
    if p < |s| {
      if StartsMatch(s, p) {
        var e := ClosingFrom(s, p + 2).value + 2;
        assert MatchSpans(s, p) == [(p, e)] + MatchSpans(s, e);
        MatchSpansAreMatches(s, e);
        SpansConsMatches(s, (p, e), MatchSpans(s, e));
      } else {
        assert MatchSpans(s, p) == MatchSpans(s, p + 1);
        MatchSpansAreMatches(s, p + 1);
      }
    }
  }

  /**
   * The first reported span is the leftmost match from `p`; there is none exactly
   * when no match starts at or after `p`.
   */
  lemma {:induction false} MatchSpansLeftmost(s: string, p: nat)
    decreases |s| - p
    ensures MatchSpans(s, p) == [] <==> forall q :: p <= q < |s| ==> !StartsMatch(s, q)
    ensures MatchSpans(s, p) != [] ==>
      StartsMatch(s, MatchSpans(s, p)[0].0) && forall q :: p <= q < MatchSpans(s, p)[0].0 ==> !StartsMatch(s, q)
  {
    if p < |s| && !StartsMatch(s, p) {
      MatchSpansLeftmost(s, p + 1);
    }
  }

  /** The lazy close is the first `}}` when no line terminator comes before it. */
  lemma {:induction false} ClosingIsFirst(s: string, k: nat, j: nat)
    requires k <= j && CloseAt(s, j)
    requires forall m :: k <= m < j ==> !CloseAt(s, m) && !IsLineTerminator(s[m])
    ensures ClosingFrom(s, k) == Some(j)
    decreases j - k
  {
    if k < j {
      ClosingIsFirst(s, k + 1, j);
    }
  }

  /** `context[key]` as a replacement string: a missing key gives `"undefined"`. */
  function LookupOrUndefined(context: map<string, string>, key: string): string {
    if key in context then context[key] else "undefined"
  }

  /**
   * `s.replace(/{{(.*?)}}/g, (_, key) => context[key])`, from position `p`: the
   * text before the next match is kept, the match is replaced by the value of its
   * body, and the scan goes on after it.
   */
  function LazyReplace(s: string, p: nat, context: map<string, string>): string
    requires p <= |s|
    decreases |s| - p
  {
    var spans := MatchSpans(s, p);
    if spans == [] then s[p..]
    else
      var (a, e) := spans[0];
      s[p..a] + LookupOrUndefined(context, s[a + 2..e - 2]) + LazyReplace(s, e, context)
  }

  /** Text in which no `{{` occurs is kept as it is. */
  lemma LazyReplaceWithoutPlaceholder(s: string, context: map<string, string>)
    requires forall i :: 0 <= i < |s| ==> !OpenAt(s, i)
    ensures LazyReplace(s, 0, context) == s
  {
    MatchSpansLeftmost(s, 0);
  }

  /**
   * A text with one reference `{{key}}` from `a` to `j + 2` (its key on one line,
   * without `}`) and no `{` elsewhere has that reference replaced by its value.
   */
  lemma LazyReplaceOne(s: string, a: nat, j: nat, context: map<string, string>)
    requires a + 2 <= j && OpenAt(s, a) && CloseAt(s, j)
    requires forall q :: 0 <= q < a ==> s[q] != '{'
    requires forall m :: a + 2 <= m < j ==> s[m] != '}' && !IsLineTerminator(s[m])
    requires forall q :: j + 2 <= q < |s| ==> s[q] != '{'
    ensures LazyReplace(s, 0, context) == s[..a] + LookupOrUndefined(context, s[a + 2..j]) + s[j + 2..]
  {
    ClosingIsFirst(s, a + 2, j);
    FirstSpan(s, 0, a, j + 2);
    NoSpans(s, j + 2);
  }

  /** When the first match from `p` starts at `a` and ends at `e`, it is the first span. */
  lemma {:induction false} FirstSpan(s: string, p: nat, a: nat, e: nat)
    requires StartsMatch(s, a) && e == ClosingFrom(s, a + 2).value + 2
    requires p <= a && forall q :: p <= q < a ==> s[q] != '{'
    decreases a - p
    ensures MatchSpans(s, p) == [(a, e)] + MatchSpans(s, e)
  {
    if p < a {
      FirstSpan(s, p + 1, a, e);
    }
  }

  /** Brace-free text has no span. */
  lemma {:induction false} NoSpans(s: string, p: nat)
    requires forall q :: p <= q < |s| ==> s[q] != '{'
    decreases |s| - p
    ensures MatchSpans(s, p) == []
  {
    if p < |s| {
      NoSpans(s, p + 1);
    }
  }

  /** `\w` or a dot. */
  predicate IsKeyChar(c: char) {
    ('a' <= c <= 'z') || ('A' <= c <= 'Z') || ('0' <= c <= '9') || c == '_' || c == '.'
  }

  /** The length of the run of key characters starting at `k`. */
  function KeyRunLength(s: string, k: nat): (n: nat)
    decreases |s| - k
    ensures k + n <= |s| || n == 0
    ensures forall m :: k <= m < k + n ==> IsKeyChar(s[m])
    ensures k + n < |s| ==> !IsKeyChar(s[k + n])
  {
    if k < |s| && IsKeyChar(s[k]) then 1 + KeyRunLength(s, k + 1) else 0
  }

  /** Where a match of `{{([\w.]+)}}` starting at `p` ends, if one does. */
  function WordKeyAt(s: string, p: nat): (r: Option<nat>)
    ensures r.Some? ==> p + 5 <= r.value <= |s|
  {
    var n := KeyRunLength(s, p + 2);
    if OpenAt(s, p) && n >= 1 && CloseAt(s, p + 2 + n) then Some(p + 4 + n) else None
  }

  /** The position of the first dot at or after `i`. */
  function DotFrom(key: string, i: nat): (r: Option<nat>)
    decreases |key| - i
    ensures r.Some? ==> i <= r.value < |key| && key[r.value] == '.'
  {
    if i >= |key| then None
    else if key[i] == '.' then Some(i)
    else DotFrom(key, i + 1)
  }

  /** The first dot from `i` on is found. */
  lemma {:induction false} DotFromIsFirst(key: string, i: nat, j: nat)
    requires i <= j < |key| && key[j] == '.'
    requires forall m :: i <= m < j ==> key[m] != '.'
    decreases j - i
    ensures DotFrom(key, i) == Some(j)
  {
    if i < j {
      DotFromIsFirst(key, i + 1, j);
    }
  }

  /** Without a dot from `i` on, none is found. */
  lemma {:induction false} DotFromNone(key: string, i: nat)
    requires forall m :: i <= m < |key| ==> key[m] != '.'
    decreases |key| - i
    ensures DotFrom(key, i).None?
  {
    if i < |key| {
      DotFromNone(key, i + 1);
    }
  }

  /** `key.replace(/^[^.]+\./, '')`: drops everything up to the first dot, unless the key starts with one. */
  function CleanKey(key: string): (r: string)
  {
    match DotFrom(key, 0)
    case Some(i) => if i >= 1 then key[i + 1..] else key
    case None => key
  }

  /** Cleaning never lengthens a key. */
  lemma CleanKeyShorter(key: string)
    ensures |CleanKey(key)| <= |key|
  {
  }

  /** A key `segment.rest` whose first segment has no dot loses that segment. */
  lemma CleanKeyDropsFirstSegment(segment: string, rest: string)
    requires |segment| >= 1 && forall i :: 0 <= i < |segment| ==> segment[i] != '.'
    ensures CleanKey(segment + "." + rest) == rest
  {
    var key := segment + "." + rest;
    DotFromIsFirst(key, 0, |segment|);
    assert key[|segment| + 1..] == rest;
  }

  /** A key without any dot is kept. */
  lemma CleanKeyWithoutDot(key: string)
    requires forall i :: 0 <= i < |key| ==> key[i] != '.'
    ensures CleanKey(key) == key
  {
    DotFromNone(key, 0);
  }

  /** The replacement for a matched key: the value of the cleaned key, or the cleaned key itself. */
  function KeyValue(key: string, context: map<string, string>): string
  {
    var ck := CleanKey(key);
    if ck in context then context[ck] else ck
  }

  /**
   * `s.replace(/{{([\w.]+)}}/g, …)` from position `p`, each key cleaned and looked
   * up in `context`, falling back to the cleaned key.
   */
  function ReplaceWordKeys(s: string, p: nat, context: map<string, string>): string
    decreases |s| - p
  {
    if p >= |s| then ""
    else
      var (out, q) := WordKeyStep(s, p, context);
      out + ReplaceWordKeys(s, q, context)
  }

  /** One step of the scan at `p`: what it writes, and where it goes on. */
  function WordKeyStep(s: string, p: nat, context: map<string, string>): (r: (string, nat))
    requires p < |s|
    ensures p < r.1 <= |s|
  {
    match WordKeyAt(s, p)
    case Some(e) => (KeyValue(s[p + 2..e - 2], context), e)
    case None => ([s[p]], p + 1)
  }

  /** Text without an opening brace is left as it is. */
  lemma {:induction false} ReplaceWordKeysNoBrace(s: string, p: nat, context: map<string, string>)
    requires p <= |s|
    requires forall i :: p <= i < |s| ==> s[i] != '{'
    decreases |s| - p
    ensures ReplaceWordKeys(s, p, context) == s[p..]
  {
    if p < |s| {
      ReplaceWordKeysNoBrace(s, p + 1, context);
      assert s[p..] == [s[p]] + s[p + 1..];
    }
  }

  /**
   * A placeholder whose key of word characters or dots runs from `p + 2` to `k`
   * is replaced by the value of its cleaned key, or by that key.
   */
  lemma {:induction false} PlaceholderReplaced(s: string, p: nat, k: nat, context: map<string, string>)
    requires p + 2 < k && OpenAt(s, p) && CloseAt(s, k)
    requires forall m :: p + 2 <= m < k ==> IsKeyChar(s[m])
    ensures ReplaceWordKeys(s, p, context) == KeyValue(s[p + 2..k], context) + ReplaceWordKeys(s, k + 2, context)
  {
    assert WordKeyAt(s, p) == Some(k + 2) by {
      KeyRunExact(s, p + 2, k - (p + 2));
    }
    ReplaceWordKeysAt(s, p, k, context);
  }

  /** One step of the scan over a match whose key ends at `k`. */
  lemma {:induction false} ReplaceWordKeysAt(s: string, p: nat, k: nat, context: map<string, string>)
    requires p < |s| && WordKeyAt(s, p) == Some(k + 2)
    ensures p + 2 <= k <= |s|
    ensures ReplaceWordKeys(s, p, context) == KeyValue(s[p + 2..k], context) + ReplaceWordKeys(s, k + 2, context)
  {
    assert WordKeyStep(s, p, context) == (KeyValue(s[p + 2..k], context), k + 2);
  }

  lemma {:induction false} KeyRunExact(s: string, k: nat, n: nat)
    requires k + n < |s| && !IsKeyChar(s[k + n])
    requires forall m :: k <= m < k + n ==> IsKeyChar(s[m])
    decreases n
    ensures KeyRunLength(s, k) == n
  {
    if n > 0 {
      KeyRunExact(s, k + 1, n - 1);
    }
  }
}

=== FILE: prompt_inputs.dfy ===
/**
 * `NodePromptInputs.tsx`: the `{{block:output}}` references of a block's prompt
 * template and which of them no connection feeds.
 */
module PromptInputs {
  import opened Wrappers
  import opened Strings
  import opened Placeholders

  /** `m.replace(/{{|}}/g, '')`: every `{{` and `}}`, scanned left to right, removed. */
  function StripBraces(m: string): (r: string)
    ensures |r| <= |m|
  {
    if |m| >= 2 && ((m[0] == '{' && m[1] == '{') || (m[0] == '}' && m[1] == '}')) then StripBraces(m[2..])
    else if m == [] then []
    else [m[0]] + StripBraces(m[1..])
  }

  /** The text of each span. */
  function Texts(s: string, spans: seq<(nat, nat)>): (r: seq<string>)
    requires forall k :: 0 <= k < |spans| ==> spans[k].0 <= spans[k].1 <= |s|
    ensures |r| == |spans|
    ensures forall k :: 0 <= k < |spans| ==> r[k] == StripBraces(s[spans[k].0..spans[k].1])
  {
    if spans == [] then []
    else [StripBraces(s[spans[0].0..spans[0].1])] + Texts(s, spans[1..])
  }

  /** `getInputsFromTemplate` */
  function InputsFromTemplate(template: string): (r: seq<string>)
    ensures |r| == |MatchSpans(template, 0)|
  {
    Texts(template, MatchSpans(template, 0))
  }

  /** No brace characters. */
  predicate NoBraces(x: string) {
    forall i :: 0 <= i < |x| ==> x[i] != '{' && x[i] != '}'
  }

  /** Removing the braces from a reference `{{x}}` gives back `x`. */
  lemma {:induction false} StripReference(x: string)
    requires NoBraces(x)
    ensures StripBraces("{{" + x + "}}") == x
  {
    assert ("{{" + x + "}}")[2..] == x + "}}";
    StripTail(x);
  }

  lemma {:induction false} StripTail(x: string)
    requires NoBraces(x)
    ensures StripBraces(x + "}}") == x
  {
    if x == [] {
      assert ([] + "}}")[2..] == [];
    } else {
      assert (x + "}}")[1..] == x[1..] + "}}";
      assert (x + "}}")[0] == x[0];
      StripTail(x[1..]);
    }
  }

  /** A template that is one reference to `x` (no braces, one line) yields exactly `[x]`. */
  lemma SingleReference(x: string)
    requires NoBraces(x)
    requires forall i :: 0 <= i < |x| ==> !IsLineTerminator(x[i])
    ensures InputsFromTemplate("{{" + x + "}}") == [x]
  {
    var s := "{{" + x + "}}";
    var j := |x| + 2;
    assert CloseAt(s, j);
    forall m | 2 <= m < j
      ensures !CloseAt(s, m) && !IsLineTerminator(s[m])
    {
      assert s[m] == x[m - 2];
    }
    ClosingIsFirst(s, 2, j);
    assert StartsMatch(s, 0);
    assert MatchSpans(s, j + 2) == [];
    assert MatchSpans(s, 0) == [(0, j + 2)];
    assert s[0..j + 2] == s;
    StripReference(x);
  }

  /** `[...new Set(arr)]`: each string once, at the position of its first occurrence. */
  function RemoveDuplicates(arr: seq<string>): (r: seq<string>)
    ensures forall i, j :: 0 <= i < j < |r| ==> r[i] != r[j]
    ensures forall x :: x in r <==> x in arr
  {
    if arr == [] then []
    else
      var init := RemoveDuplicates(arr[..|arr| - 1]);
      assert forall x :: x in arr <==> x in arr[..|arr| - 1] || x == arr[|arr| - 1] by {
        assert arr == arr[..|arr| - 1] + [arr[|arr| - 1]];
      }
      if arr[|arr| - 1] in init then init else init + [arr[|arr| - 1]]
  }

  /** The index of the first occurrence of `x`. */
  function FirstIndex(arr: seq<string>, x: string): (i: nat)
    requires x in arr
    ensures i < |arr| && arr[i] == x && x !in arr[..i]
  {
    if arr[0] == x then 0 else 1 + FirstIndex(arr[1..], x)
  }

  /** The kept strings appear in the order of their first occurrences. */
  lemma {:induction false} RemoveDuplicatesKeepsOrder(arr: seq<string>)
    ensures forall i, j :: 0 <= i < j < |RemoveDuplicates(arr)| ==>
      FirstIndex(arr, RemoveDuplicates(arr)[i]) < FirstIndex(arr, RemoveDuplicates(arr)[j])
  {
    if arr != [] {
      var init := arr[..|arr| - 1];
      var last := arr[|arr| - 1];
      RemoveDuplicatesKeepsOrder(init);
      var r := RemoveDuplicates(arr);
      var ri := RemoveDuplicates(init);
      assert arr == init + [last];
      forall x | x in init
        ensures FirstIndex(arr, x) == FirstIndex(init, x)
      {
        FirstIndexPrefix(init, last, x);
      }
      forall i, j | 0 <= i < j < |r|
        ensures FirstIndex(arr, r[i]) < FirstIndex(arr, r[j])
      {
        if j < |ri| {
          assert r[i] == ri[i] && r[j] == ri[j];
        } else {
          assert r[j] == last && last !in init;
          assert r[i] == ri[i] && ri[i] in init;
          assert FirstIndex(arr, last) == |init| by {
            FirstIndexNew(init, last);
          }
        }
      }
    }
  }

  lemma {:induction false} FirstIndexPrefix(init: seq<string>, last: string, x: string)
    requires x in init
    ensures FirstIndex(init + [last], x) == FirstIndex(init, x)
  {
    if init[0] != x {
      assert (init + [last])[1..] == init[1..] + [last];
      FirstIndexPrefix(init[1..], last, x);
    }
  }

  lemma {:induction false} FirstIndexNew(init: seq<string>, last: string)
    requires last !in init
    ensures FirstIndex(init + [last], last) == |init|
  {
    if init != [] {
      assert (init + [last])[1..] == init[1..] + [last];
      FirstIndexNew(init[1..], last);
    }
  }

  /** `splitInput`: `block:output` split on every colon; joining gives the input back. */
  function SplitInput(input: string): (parts: seq<string>)
    ensures |parts| >= 1
    ensures Join(parts, ":") == input
  {
    JoinSplit(input, ":");
    Split(input, ":")
  }

  /** The source end of a connection between two blocks. */
  datatype Connection = Connection(fromBlock: string, fromOutput: string, toBlock: string, toInput: string)

  /**
   * `checkIfInputIsConnected`: `input[1]` is `undefined` when there was no colon,
   * so a `{{block}}` reference is never connected; otherwise some connection
   * comes from block `input[0]` and output `input[1]`.
   */
  function IsConnected(input: seq<string>, connections: seq<Connection>): (r: bool)
    requires |input| >= 1
    ensures |input| == 1 ==> !r
    ensures |input| >= 2 ==>
      (r <==> exists i :: 0 <= i < |connections| && connections[i].fromBlock == input[0] && connections[i].fromOutput == input[1])
  {
    exists c :: c in connections && c.fromBlock == input[0] && Some(c.fromOutput) == At(input, 1)
  }

  /** The inputs no connection feeds, in their order. */
  function NotConnected(inputs: seq<seq<string>>, connections: seq<Connection>): (r: seq<seq<string>>)
    requires forall i :: 0 <= i < |inputs| ==> |inputs[i]| >= 1
    ensures |r| <= |inputs|
  {
    if inputs == [] then []
    else
      (if IsConnected(inputs[0], connections) then [] else [inputs[0]])
      + NotConnected(inputs[1..], connections)
  }

  /** The not-connected inputs are exactly the inputs the connection check rejects. */
  lemma {:induction false} NotConnectedMembers(inputs: seq<seq<string>>, connections: seq<Connection>)
    requires forall i :: 0 <= i < |inputs| ==> |inputs[i]| >= 1
    ensures forall x :: x in NotConnected(inputs, connections) <==> x in inputs && !IsConnected(x, connections)
  {
    if inputs != [] {
      NotConnectedMembers(inputs[1..], connections);
      assert inputs == [inputs[0]] + inputs[1..];
    }
  }

  /** The filter keeps the order: the not-connected inputs of `a + b` are those of `a`, then those of `b`. */
  lemma {:induction false} NotConnectedAppend(a: seq<seq<string>>, b: seq<seq<string>>, connections: seq<Connection>)
    requires forall i :: 0 <= i < |a| ==> |a[i]| >= 1
    requires forall i :: 0 <= i < |b| ==> |b[i]| >= 1
    ensures NotConnected(a + b, connections) == NotConnected(a, connections) + NotConnected(b, connections)
  {
    if a == [] {
      assert a + b == b;
    } else {
      assert (a + b)[1..] == a[1..] + b;
      NotConnectedAppend(a[1..], b, connections);
    }
  }

  /** The edges' `data`, dropping the edges that carry none. */
  function Connections(edges: seq<Option<Connection>>): (r: seq<Connection>)
    ensures forall c :: c in r <==> Some(c) in edges
  {
    if edges == [] then []
    else (if edges[0].Some? then [edges[0].value] else []) + Connections(edges[1..])
  }

  /** What the component shows: nothing, or the inputs and the not-connected ones. */
  datatype Shown = Nothing | PromptInputsList(inputs: seq<seq<string>>, notConnected: seq<seq<string>>)

  /** Each reference split into its parts. */
  function SplitAll(refs: seq<string>): (r: seq<seq<string>>)
    ensures |r| == |refs|
    ensures forall i :: 0 <= i < |r| ==> |r[i]| >= 1 && Join(r[i], ":") == refs[i]
  {
    if refs == [] then [] else [SplitInput(refs[0])] + SplitAll(refs[1..])
  }

  /** `inputs`: the distinct references, each split on its colons. */
  function Inputs(template: string): seq<seq<string>> {
    SplitAll(RemoveDuplicates(InputsFromTemplate(template)))
  }

  /** A template without any `{{…}}` match has no inputs. */
  lemma NoMatchNoInputs(template: string)
    requires forall q :: 0 <= q < |template| ==> !StartsMatch(template, q)
    ensures Inputs(template) == []
  {
    MatchSpansLeftmost(template, 0);
  }

  /**
   * `NodePromptInputs`: a missing `prompt_template` counts as `''`; without any
   * reference nothing is rendered.
   */
  function Render(promptTemplate: Option<string>, edges: seq<Option<Connection>>): (r: Shown)
    ensures r.Nothing? <==> Inputs(promptTemplate.GetOr("")) == []
    ensures r.PromptInputsList? ==> (r.inputs == Inputs(promptTemplate.GetOr(""))
      && forall x :: x in r.notConnected <==> x in r.inputs && !IsConnected(x, Connections(edges)))
  {
    var inputs := Inputs(promptTemplate.GetOr(""));
    if |inputs| == 0 then Nothing
    else
      NotConnectedMembers(inputs, Connections(edges));
      PromptInputsList(inputs, NotConnected(inputs, Connections(edges)))
  }

  /** A block without a prompt template renders nothing. */
  lemma MissingTemplateRendersNothing(edges: seq<Option<Connection>>)
    ensures Render(None, edges) == Nothing
  {
    assert MatchSpans("", 0) == [];
  }
}

=== FILE: readonly_fields.dfy ===
/**
 * `NodeReadonlyFields.tsx`: the read-only properties a block node shows, and the
 * URL of the select list behind an asynchronously labelled value.
 */
module ReadonlyFields {
  import opened Wrappers
  import opened Strings
  import opened Placeholders
  import Js

  /** `isObjectField`: the schema's `type` is `'object'`. */
  function IsObjectField(schema: Js.Value): (r: bool)
    ensures r <==> schema.Obj? && "type" in schema.fields && schema.fields["type"] == Js.Str("object")
  {
    Js.Get(schema, "type") == Js.Str("object")
  }

  /** `schema?.properties?.opts` */
  function Opts(schema: Js.Value): Js.Value {
    Js.Get(Js.Get(schema, "properties"), "opts")
  }

  /** The fields of `opts.properties ?? {}`, none when that is not an object. */
  function OptProperties(opts: Js.Value): map<string, Js.Value> {
    var props := Js.Coalesce(Js.Get(opts, "properties"), Js.Obj(map[]));
    if props.Obj? then props.fields else map[]
  }

  /**
   * `properties`: the properties of the `opts` schema marked `readonly`, when
   * `opts` is an object field; none otherwise.
   */
  function ReadonlyProperties(schema: Js.Value): (r: map<string, Js.Value>)
    ensures !IsObjectField(Opts(schema)) ==> r == map[]
    ensures IsObjectField(Opts(schema)) ==> forall k :: k in r <==>
      k in OptProperties(Opts(schema)) && Js.Truthy(Js.Get(OptProperties(Opts(schema))[k], "readonly"))
    ensures forall k :: k in r ==> k in OptProperties(Opts(schema)) && r[k] == OptProperties(Opts(schema))[k]
  {
    var opts := Opts(schema);
    if IsObjectField(opts) then
      var props := OptProperties(opts);
      map k | k in props && Js.Truthy(Js.Get(props[k], "readonly")) :: props[k]
    else map[]
  }

  /** A property whose `type` is `string`, `number` or `boolean`: the only kinds rendered. */
  predicate Renderable(property: Js.Value) {
    Js.Get(property, "type") in {Js.Str("string"), Js.Str("number"), Js.Str("boolean")}
  }

  /** `renderProperties`: the keys that produce an item; the others render `null`. */
  function RenderedKeys(properties: map<string, Js.Value>): (r: set<string>)
    ensures forall k :: k in r <==> k in properties && Renderable(properties[k])
  {
    set k | k in properties && Renderable(properties[k])
  }

  /** Only read-only properties are ever rendered, and only of the three scalar types. */
  lemma RenderedAreReadonlyScalars(schema: Js.Value, k: string)
    requires k in RenderedKeys(ReadonlyProperties(schema))
    ensures IsObjectField(Opts(schema))
    ensures Js.Truthy(Js.Get(OptProperties(Opts(schema))[k], "readonly"))
    ensures var t := Js.Get(OptProperties(Opts(schema))[k], "type");
      t == Js.Str("string") || t == Js.Str("number") || t == Js.Str("boolean")
  {
  }

  /** `showValue`: every boolean and number is shown, `false` and `0` included; others by truthiness. */
  function ShowValue(v: Js.Value): (r: bool)
    ensures r <==> v.Bool? || v.Num? || Js.Truthy(v)
  {
    if v.Bool? || v.Num? then true else Js.Truthy(v)
  }

  /** Exactly the empty string, `undefined` and `null` are hidden. */
  lemma ShowValueHides(v: Js.Value)
    ensures !ShowValue(v) <==> v == Js.Str("") || v.Undefined? || v.Null?
  {
  }

  /** An option of the asynchronously loaded select list. */
  datatype SelectOption = SelectOption(value: Js.Value, labelValue: Js.Value)

  /** `options.find((option) => option.value === value)` */
  function Find(options: seq<SelectOption>, value: Js.Value): (r: Option<nat>)
    ensures r.Some? ==> (r.value < |options| && options[r.value].value == value
      && forall i :: 0 <= i < r.value ==> options[i].value != value)
    ensures r.None? ==> forall i :: 0 <= i < |options| ==> options[i].value != value
  {
    if options == [] then None
    else if options[0].value == value then Some(0)
    else match Find(options[1..], value)
      case Some(i) => Some(i + 1)
      case None => None
  }

  /** `find(…)?.label ?? value`: the label of the first option with this value, else the value. */
  function DisplayedValue(options: seq<SelectOption>, value: Js.Value): (r: Js.Value)
    ensures (forall i :: 0 <= i < |options| ==> options[i].value != value) ==> r == value
    ensures forall i :: (0 <= i < |options| && options[i].value == value
      && (forall j :: 0 <= j < i ==> options[j].value != value)) ==>
        r == Js.Coalesce(options[i].labelValue, value)
  {
    match Find(options, value)
    case Some(i) => Js.Coalesce(options[i].labelValue, value)
    case None => value
  }

  /**
   * `readyUrl`: the first `{{organization_id}}` and the first `{{pipeline_id}}`
   * become the ids, then every `{{key}}` of word characters and dots is replaced
   * by the context value of its cleaned key, or by that key.
   */
  function ReadyUrl(url: string, organizationId: nat, pipelineId: nat, context: map<string, string>): string {
    var withOrganization := ReplaceFirst(url, "{{organization_id}}", NatToString(organizationId));
    var withPipeline := ReplaceFirst(withOrganization, "{{pipeline_id}}", NatToString(pipelineId));
    ReplaceWordKeys(withPipeline, 0, context)
  }

  /** A URL without any brace is used as it is. */
  lemma ReadyUrlWithoutPlaceholders(url: string, organizationId: nat, pipelineId: nat, context: map<string, string>)
    requires forall i :: 0 <= i < |url| ==> url[i] != '{'
    ensures ReadyUrl(url, organizationId, pipelineId, context) == url
  {
    NotContainedWithoutBrace(url, "{{organization_id}}");
    NotContainedWithoutBrace(url, "{{pipeline_id}}");
    ReplaceWordKeysNoBrace(url, 0, context);
  }

  /**
   * The first `{{organization_id}}` and the first `{{pipeline_id}}` become the
   * ids; the text around them, free of braces, is kept.
   */
  lemma {:induction false} ReadyUrlIds(a: string, m: string, b: string, organizationId: nat, pipelineId: nat,
                                       context: map<string, string>)
    requires forall i :: 0 <= i < |a| ==> a[i] != '{'
    requires forall i :: 0 <= i < |m| ==> m[i] != '{'
    requires forall i :: 0 <= i < |b| ==> b[i] != '{'
    ensures ReadyUrl(a + "{{organization_id}}" + m + "{{pipeline_id}}" + b, organizationId, pipelineId, context)
      == a + NatToString(organizationId) + m + NatToString(pipelineId) + b
  {
    var org := NatToString(organizationId);
    var pipe := NatToString(pipelineId);
    DigitsBraceFree(org);
    DigitsBraceFree(pipe);
    ReplaceBoth(a, "{{organization_id}}", m, "{{pipeline_id}}", b, org, pipe);
    BraceFreeJoin(a, org, m, pipe, b);
    var ready := a + org + m + pipe + b;
    ReplaceWordKeysNoBrace(ready, 0, context);
    assert ready[0..] == ready;
  }

  /** No character of `s` is `{`. */
  predicate BraceFree(s: string) {
    forall i :: 0 <= i < |s| ==> s[i] != '{'
  }

  lemma DigitsBraceFree(s: string)
    requires forall i :: 0 <= i < |s| ==> '0' <= s[i] <= '9'
    ensures BraceFree(s)
  {
  }

  lemma BraceFreeAppend(x: string, y: string)
    requires BraceFree(x) && BraceFree(y)
    ensures BraceFree(x + y)
  {
    forall i | 0 <= i < |x + y| ensures (x + y)[i] != '{' {
      if i < |x| { assert (x + y)[i] == x[i]; } else { assert (x + y)[i] == y[i - |x|]; }
    }
  }

  lemma BraceFreeJoin(a: string, x: string, m: string, y: string, b: string)
    requires BraceFree(a) && BraceFree(x) && BraceFree(m) && BraceFree(y) && BraceFree(b)
    ensures BraceFree(a + x + m + y + b)
  {
    BraceFreeAppend(a, x);
    BraceFreeAppend(a + x, m);
    BraceFreeAppend(a + x + m, y);
    BraceFreeAppend(a + x + m + y, b);
  }

  /**
   * Replacing the first `p` by `x` and then the first `q` by `y` in `a + p + m + q + b`,
   * when `p` and `q` start with `{` and `a`, `x` and `m` hold none.
   */
  lemma ReplaceBoth(a: string, p: string, m: string, q: string, b: string, x: string, y: string)
    requires |p| >= 1 && p[0] == '{' && |q| >= 1 && q[0] == '{'
    requires BraceFree(a) && BraceFree(x) && BraceFree(m)
    ensures ReplaceFirst(ReplaceFirst(a + p + m + q + b, p, x), q, y) == a + x + m + y + b
  {
    Regroup5(a, p, m, q, b);
    ReplaceFirstAt(a, p, m + q + b, x);
    Regroup5(a, x, m, q, b);
    BraceFreeAppend(a, x);
    BraceFreeAppend(a + x, m);
    ReplaceFirstAt(a + x + m, q, b, y);
  }

  lemma Regroup5(a: string, p: string, m: string, q: string, b: string)
    ensures a + p + m + q + b == a + p + (m + q + b)
    ensures a + p + (m + q + b) == a + p + m + q + b
  {
  }

  /** A pattern starting with `{` does not occur in a text without `{`. */
  lemma NotContainedWithoutBrace(s: string, pat: string)
    requires |pat| >= 1 && pat[0] == '{'
    requires forall i :: 0 <= i < |s| ==> s[i] != '{'
    ensures !Contains(s, pat)
  {
    forall i: nat | i <= |s| ensures !OccursAt(s, pat, i) {
      assert i + |pat| <= |s| ==> s[i..i + |pat|][0] == s[i];
    }
  }
}

=== FILE: routes.dfy ===
/** `routes`: the application's path builders. */
module Routes {
  import opened Strings

  /** An organization or pipeline id: a string or a number. */
  datatype Id = Text(text: string) | Number(n: nat)

  /** An id as a template string renders it. */
  function IdText(id: Id): string {
    match id
    case Text(s) => s
    case Number(n) => NatToString(n)
  }

  /** A path made of `/`-separated segments after the leading `/`. */
  function Path(segments: seq<string>): (r: string)
    ensures |r| >= 1 && r[0] == '/'
  {
    "/" + Join(segments, "/")
  }

  /** A path splits on `/` into an empty first part followed by its segments. */
  lemma PathSegments(segments: seq<string>)
    requires |segments| >= 1
    requires forall k :: 0 <= k < |segments| ==> CharFree(segments[k], '/')
    ensures Split(Path(segments), "/") == [""] + segments
  {
    var parts := [""] + segments;
    assert parts[1..] == segments;
    assert Join(parts, "/") == "" + "/" + Join(segments, "/");
    SplitJoin(parts, '/');
  }

  /** A path with one more segment. */
  lemma PathAppend(segments: seq<string>, segment: string)
    requires |segments| >= 1
    ensures Path(segments + [segment]) == Path(segments) + "/" + segment
  {
    JoinAppend(segments, segment, "/");
  }

  const Dashboard := "/"
  const Login := "/login"
  const Register := "/register"
  const Organizations := "/organizations"

  function Organization(o: Id): (r: string)
    ensures r == Path([IdText(o)])
  {
    "/" + IdText(o)
  }

  function NewOrganization(): (r: string)
    ensures r == Path(["organizations", "new"])
  {
    PathAppend(["organizations"], "new");
    assert ["organizations"] + ["new"] == ["organizations", "new"];
    Organizations + "/new"
  }

  function Pipelines(o: Id): (r: string)
    ensures r == Path([IdText(o), "pipelines"])
  {
    PathAppend([IdText(o)], "pipelines");
    assert [IdText(o)] + ["pipelines"] == [IdText(o), "pipelines"];
    Organization(o) + "/pipelines"
  }

  function Pipeline(o: Id, p: Id): (r: string)
    ensures r == Path([IdText(o), "pipelines", IdText(p)])
  {
    PathAppend([IdText(o), "pipelines"], IdText(p));
    assert [IdText(o), "pipelines"] + [IdText(p)] == [IdText(o), "pipelines", IdText(p)];
    Pipelines(o) + "/" + IdText(p)
  }

  function PipelineRuns(o: Id, p: Id): (r: string)
    ensures r == Path([IdText(o), "pipelines", IdText(p), "overview"])
  {
    PathAppend([IdText(o), "pipelines", IdText(p)], "overview");
    assert [IdText(o), "pipelines", IdText(p)] + ["overview"] == [IdText(o), "pipelines", IdText(p), "overview"];
    Pipeline(o, p) + "/overview"
  }

  function PipelineInterface(o: Id, p: Id): (r: string)
    ensures r == Path([IdText(o), "pipelines", IdText(p), "interface"])
  {
    PathAppend([IdText(o), "pipelines", IdText(p)], "interface");
    assert [IdText(o), "pipelines", IdText(p)] + ["interface"] == [IdText(o), "pipelines", IdText(p), "interface"];
    Pipeline(o, p) + "/interface"
  }

  function PipelineSettings(o: Id, p: Id): (r: string)
    ensures r == Path([IdText(o), "pipelines", IdText(p), "settings"])
  {
    PathAppend([IdText(o), "pipelines", IdText(p)], "settings");
    assert [IdText(o), "pipelines", IdText(p)] + ["settings"] == [IdText(o), "pipelines", IdText(p), "settings"];
    Pipeline(o, p) + "/settings"
  }

  function PipelinesNew(o: Id): (r: string)
    ensures r == Path([IdText(o), "pipelines", "new"])
  {
    PathAppend([IdText(o)], "pipelines");
    assert [IdText(o)] + ["pipelines"] == [IdText(o), "pipelines"];
    PathAppend([IdText(o), "pipelines"], "new");
    assert [IdText(o), "pipelines"] + ["new"] == [IdText(o), "pipelines", "new"];
    Organization(o) + "/pipelines/new"
  }

  function KnowledgeBase(o: Id): (r: string)
    ensures r == Path([IdText(o), "knowledge-base"])
  {
    PathAppend([IdText(o)], "knowledge-base");
    assert [IdText(o)] + ["knowledge-base"] == [IdText(o), "knowledge-base"];
    Organization(o) + "/knowledge-base"
  }

  function CollectionKnowledgeBase(o: Id, collectionName: string): (r: string)
    ensures r == Path([IdText(o), "knowledge-base", collectionName])
  {
    PathAppend([IdText(o), "knowledge-base"], collectionName);
    assert [IdText(o), "knowledge-base"] + [collectionName] == [IdText(o), "knowledge-base", collectionName];
    KnowledgeBase(o) + "/" + collectionName
  }

  function CollectionKnowledgeBaseNew(o: Id, collectionName: string): (r: string)
    ensures r == Path([IdText(o), "knowledge-base", collectionName, "new"])
  {
    PathAppend([IdText(o), "knowledge-base", collectionName], "new");
    assert [IdText(o), "knowledge-base", collectionName] + ["new"] == [IdText(o), "knowledge-base", collectionName, "new"];
    CollectionKnowledgeBase(o, collectionName) + "/new"
  }

  function ApiKeys(o: Id): (r: string)
    ensures r == Path([IdText(o), "api-keys"])
  {
    PathAppend([IdText(o)], "api-keys");
    assert [IdText(o)] + ["api-keys"] == [IdText(o), "api-keys"];
    Organization(o) + "/api-keys"
  }

  /** Every route is an absolute path. */
  lemma RoutesAreAbsolute(o: Id, p: Id, collectionName: string)
    ensures forall r :: (r in [Dashboard, Login, Register, Organizations, Organization(o), NewOrganization(),
      Pipelines(o), Pipeline(o, p), PipelineRuns(o, p), PipelineInterface(o, p), PipelineSettings(o, p),
      PipelinesNew(o), KnowledgeBase(o), CollectionKnowledgeBase(o, collectionName),
      CollectionKnowledgeBaseNew(o, collectionName), ApiKeys(o)]) ==> (|r| >= 1 && r[0] == '/')
  {
  }

  /**
   * The path of a pipeline's page reads back as its organization and pipeline ids,
   * when neither contains `/`; so distinct pipelines get distinct paths.
   */
  lemma PipelineSegments(o: Id, p: Id)
    requires CharFree(IdText(o), '/') && CharFree(IdText(p), '/')
    ensures Split(Pipeline(o, p), "/") == ["", IdText(o), "pipelines", IdText(p)]
  {
    PathSegments([IdText(o), "pipelines", IdText(p)]);
  }

  lemma PipelineInjective(o: Id, p: Id, o': Id, p': Id)
    requires CharFree(IdText(o), '/') && CharFree(IdText(p), '/')
    requires CharFree(IdText(o'), '/') && CharFree(IdText(p'), '/')
    requires Pipeline(o, p) == Pipeline(o', p')
    ensures IdText(o) == IdText(o') && IdText(p) == IdText(p')
  {
    PipelineSegments(o, p);
    PipelineSegments(o', p');
    assert ["", IdText(o), "pipelines", IdText(p)][1] == IdText(o);
    assert ["", IdText(o'), "pipelines", IdText(p')][3] == IdText(p');
  }

  /** A collection's path reads back as its organization and collection name. */
  lemma CollectionSegments(o: Id, collectionName: string)
    requires CharFree(IdText(o), '/') && CharFree(collectionName, '/')
    ensures Split(CollectionKnowledgeBaseNew(o, collectionName), "/")
      == ["", IdText(o), "knowledge-base", collectionName, "new"]
  {
    PathSegments([IdText(o), "knowledge-base", collectionName, "new"]);
  }

  /**
   * A pipeline's sub-pages sit under the pipeline's path, and the new-pipeline
   * page is the path a pipeline with id `new` would have.
   */
  lemma PipelinePagesNest(o: Id, p: Id)
    ensures StartsWith(PipelineRuns(o, p), Pipeline(o, p) + "/")
    ensures StartsWith(PipelineInterface(o, p), Pipeline(o, p) + "/")
    ensures StartsWith(PipelineSettings(o, p), Pipeline(o, p) + "/")
    ensures StartsWith(Pipeline(o, p), Pipelines(o) + "/")
    ensures PipelinesNew(o) == Pipeline(o, Text("new"))
  {
    var base := Pipeline(o, p);
    assert PipelineRuns(o, p) == (base + "/") + "overview";
    assert PipelineInterface(o, p) == (base + "/") + "interface";
    assert PipelineSettings(o, p) == (base + "/") + "settings";
    assert base == (Pipelines(o) + "/") + IdText(p);
    assert (PipelineRuns(o, p))[..|base + "/"|] == base + "/";
    assert (PipelineInterface(o, p))[..|base + "/"|] == base + "/";
    assert (PipelineSettings(o, p))[..|base + "/"|] == base + "/";
    assert base[..|Pipelines(o) + "/"|] == Pipelines(o) + "/";
  }
}

=== FILE: run_pipeline_button.dfy ===
/** `RunPipelineButton.tsx`: what a click on the run/stop button does. */
module RunPipelineButton {
  import Session = PipelineRunSession

  datatype ClickEffect = ErrorToast(title: string) | CallStartRun | CallStopRun

  /** `handleRun`: checks validity, then unsaved changes, then toggles the run. */
  function HandleRun(isValid: bool, isUpToDate: bool, status: Session.Status): (e: ClickEffect)
    ensures !isValid ==> e == ErrorToast("Invalid workflow")
    ensures isValid && !isUpToDate ==> e == ErrorToast("Unsaved changes")
    ensures e.ErrorToast? <==> !isValid || !isUpToDate
    ensures e == CallStartRun <==> isValid && isUpToDate && status == Session.Idle
    ensures e == CallStopRun <==> isValid && isUpToDate && status != Session.Idle
  {
    if !isValid then ErrorToast("Invalid workflow")
    else if !isUpToDate then ErrorToast("Unsaved changes")
    else if status == Session.Idle then CallStartRun
    else CallStopRun
  }

  /** The button's caption: "Run" while idle, "Stop" otherwise. */
  function Label(status: Session.Status): string {
    if status == Session.Idle then "Run" else "Stop"
  }

  /** On a valid, saved workflow the click does what the caption says. */
  lemma ClickMatchesLabel(status: Session.Status)
    ensures HandleRun(true, true, status) == (if Label(status) == "Run" then CallStartRun else CallStopRun)
  {
  }
}

=== FILE: search_params.dfy ===
/**
 * `URLSearchParams` as the pages use it: an ordered list of name/value pairs,
 * edited in place with `set` and `delete` and read with `get`.
 */
module SearchParams {
  import opened Wrappers

  type Param = (string, string)

  /** `get(name)`: the value of the first pair with that name, `null` (`None`) when there is none. */
  function GetParam(entries: seq<Param>, name: string): Option<string> {
    if entries == [] then None
    else if entries[0].0 == name then Some(entries[0].1)
    else GetParam(entries[1..], name)
  }

  /** `get` answers `null` exactly when no pair has the name, and otherwise the value of the first. */
  lemma {:induction false} GetParamFirst(entries: seq<Param>, name: string)
    ensures GetParam(entries, name).None? <==> forall i :: 0 <= i < |entries| ==> entries[i].0 != name
    ensures GetParam(entries, name).Some? ==> exists i :: (0 <= i < |entries| && entries[i] == (name, GetParam(entries, name).value)
      && forall j :: 0 <= j < i ==> entries[j].0 != name)
  {
    if entries != [] && entries[0].0 != name {
      GetParamFirst(entries[1..], name);
      assert forall i :: 0 <= i < |entries[1..]| ==> entries[1..][i] == entries[i + 1];
      if GetParam(entries, name).Some? {
        var i :| 0 <= i < |entries[1..]| && entries[1..][i] == (name, GetParam(entries, name).value)
          && forall j :: 0 <= j < i ==> entries[1..][j].0 != name;
        assert entries[i + 1] == (name, GetParam(entries, name).value);
        assert forall j :: 0 <= j < i + 1 ==> entries[j].0 != name by {
          forall j | 0 <= j < i + 1 ensures entries[j].0 != name {
            if j > 0 { assert entries[j] == entries[1..][j - 1]; }
          }
        }
      }
    }
  }

  /** `delete(name)`: every pair with that name removed, the others kept in order. */
  function Deleted(entries: seq<Param>, name: string): seq<Param> {
    if entries == [] then []
    else (if entries[0].0 == name then [] else [entries[0]]) + Deleted(entries[1..], name)
  }

  /**
   * `set(name, value)`: the first pair with that name takes the value and the
   * later ones are removed; with no such pair, the pair is appended.
   */
  function SetEntries(entries: seq<Param>, name: string, value: string): seq<Param> {
    if entries == [] then [(name, value)]
    else if entries[0].0 == name then [(name, value)] + Deleted(entries[1..], name)
    else [entries[0]] + SetEntries(entries[1..], name, value)
  }

  /** The pairs whose names are outside `names`, in order. */
  function Outside(entries: seq<Param>, names: set<string>): seq<Param> {
    if entries == [] then []
    else (if entries[0].0 in names then [] else [entries[0]]) + Outside(entries[1..], names)
  }

  /** How many pairs carry the name. */
  function Count(entries: seq<Param>, name: string): nat {
    if entries == [] then 0 else (if entries[0].0 == name then 1 else 0) + Count(entries[1..], name)
  }

  lemma {:induction false} DeletedGet(entries: seq<Param>, name: string, other: string)
    ensures GetParam(Deleted(entries, name), other) == if other == name then None else GetParam(entries, other)
  {
    if entries != [] {
      DeletedGet(entries[1..], name, other);
      if entries[0].0 != name {
        assert Deleted(entries, name) == [entries[0]] + Deleted(entries[1..], name);
        assert ([entries[0]] + Deleted(entries[1..], name))[1..] == Deleted(entries[1..], name);
      } else {
        assert Deleted(entries, name) == Deleted(entries[1..], name);
      }
    }
  }

  /** After `set`, `get` gives the new value for that name and what it gave before for any other. */
  lemma {:induction false} SetGet(entries: seq<Param>, name: string, value: string, other: string)
    ensures GetParam(SetEntries(entries, name, value), other)
      == if other == name then Some(value) else GetParam(entries, other)
  {
    if entries != [] {
      var r := SetEntries(entries, name, value);
      if entries[0].0 == name {
        DeletedGet(entries[1..], name, other);
        assert r[1..] == Deleted(entries[1..], name);
      } else {
        SetGet(entries[1..], name, value, other);
        assert r[1..] == SetEntries(entries[1..], name, value);
      }
    }
  }

  lemma {:induction false} DeletedCount(entries: seq<Param>, name: string)
    ensures Count(Deleted(entries, name), name) == 0
  {
    if entries != [] {
      DeletedCount(entries[1..], name);
      var r := Deleted(entries, name);
      if entries[0].0 != name {
        assert r == [entries[0]] + Deleted(entries[1..], name);
        assert r[1..] == Deleted(entries[1..], name);
      } else {
        assert r == Deleted(entries[1..], name);
      }
    }
  }

  /** `set` leaves exactly one pair with the name. */
  lemma {:induction false} SetLeavesOne(entries: seq<Param>, name: string, value: string)
    ensures Count(SetEntries(entries, name, value), name) == 1
  {
    var r := SetEntries(entries, name, value);
    if entries == [] {
    } else if entries[0].0 == name {
      DeletedCount(entries[1..], name);
      assert r[1..] == Deleted(entries[1..], name);
    } else {
      SetLeavesOne(entries[1..], name, value);
      assert r[1..] == SetEntries(entries[1..], name, value);
    }
  }

  /** `set` on a name that is present keeps every pair before its first occurrence in place. */
  lemma {:induction false} SetInPlace(entries: seq<Param>, name: string, value: string, i: nat)
    requires i < |entries| && entries[i].0 == name
    requires forall j :: 0 <= j < i ==> entries[j].0 != name
    ensures |SetEntries(entries, name, value)| > i
    ensures SetEntries(entries, name, value)[..i + 1] == entries[..i] + [(name, value)]
  {
    var r := SetEntries(entries, name, value);
    if i > 0 {
      SetInPlace(entries[1..], name, value, i - 1);
      assert r == [entries[0]] + SetEntries(entries[1..], name, value);
      assert entries[..i] == [entries[0]] + entries[1..][..i - 1];
    }
  }

  lemma {:induction false} DeletedOutside(entries: seq<Param>, name: string, names: set<string>)
    requires name in names
    ensures Outside(Deleted(entries, name), names) == Outside(entries, names)
  {
    if entries != [] {
      DeletedOutside(entries[1..], name, names);
      var r := Deleted(entries, name);
      if entries[0].0 != name {
        assert r == [entries[0]] + Deleted(entries[1..], name);
        assert r[1..] == Deleted(entries[1..], name);
      } else {
        assert r == Deleted(entries[1..], name);
      }
    }
  }

  /** `set` of a name inside `names` leaves the pairs named outside it, and their order, alone. */
  lemma {:induction false} SetOutside(entries: seq<Param>, name: string, value: string, names: set<string>)
    requires name in names
    ensures Outside(SetEntries(entries, name, value), names) == Outside(entries, names)
  {
    var r := SetEntries(entries, name, value);
    if entries == [] {
      assert r[1..] == [];
    } else if entries[0].0 == name {
      DeletedOutside(entries[1..], name, names);
      assert r[1..] == Deleted(entries[1..], name);
    } else {
      SetOutside(entries[1..], name, value, names);
      assert r[1..] == SetEntries(entries[1..], name, value);
    }
  }

  /** A `URLSearchParams` object. */
  class UrlSearchParams {
    var entries: seq<Param>

    /** `new URLSearchParams(search)` */
    constructor(init: seq<Param>)
      ensures entries == init
    {
      entries := init;
    }

    function Get(name: string): Option<string>
      reads this
    {
      GetParam(entries, name)
    }

    method Set(name: string, value: string)
      modifies this
      ensures entries == SetEntries(old(entries), name, value)
      ensures Get(name) == Some(value)
      ensures forall other :: other != name ==> Get(other) == old(Get(other))
    {
      SetGet(entries, name, value, name);
      forall other | other != name
        ensures GetParam(SetEntries(entries, name, value), other) == GetParam(entries, other)
      {
        SetGet(entries, name, value, other);
      }
      entries := SetEntries(entries, name, value);
    }

    method Delete(name: string)
      modifies this
      ensures entries == Deleted(old(entries), name)
      ensures Get(name) == None
      ensures forall other :: other != name ==> Get(other) == old(Get(other))
    {
      DeletedGet(entries, name, name);
      forall other | other != name
        ensures GetParam(Deleted(entries, name), other) == GetParam(entries, other)
      {
        DeletedGet(entries, name, other);
      }
      entries := Deleted(entries, name);
    }
  }
}

=== FILE: server_utils.dfy ===
/**
 * `loaderBuilder` and `actionBuilder`: wrappers around a page's loader or action
 * that pick the handler for the request method and turn the API errors into
 * responses, thrown or returned.
 */
module ServerUtils {
  import opened Wrappers
  import opened Strings

  /** The errors the API client raises; `Other` is any other exception. */
  datatype AppError =
    | ValidationError(fieldErrors: map<string, string>)
    | UnauthorizedError
    | NotFoundError
    | UnknownAPIError
    | Other(name: string)

  /** How a handler settled: its return value or the error it threw. */
  datatype Outcome<R> = Returned(value: R) | Threw(error: AppError)

  /** The responses the builders make themselves. */
  datatype Reply =
    | NotFound                                           // json(null, { status: 404 })
    | UnknownApi(toastCookie: string)                    // json({ error }, { status: 500, Set-Cookie })
    | LoginRedirect                                      // redirect("/login", { Set-Cookie })
    | ValidationFailure(fieldErrors: map<string, string>) // validationError({ fieldErrors })

  /** The cookie that expires the session key. */
  const ExpiredSessionCookie := "_buildel_key=; Path=/; Expires=Thu, 01 Jan 1970 00:00:00 GMT"

  /** The HTTP status of a reply; a redirect is a 302. */
  function Status(reply: Reply): nat
    requires !reply.ValidationFailure?
  {
    match reply
    case NotFound => 404
    case UnknownApi(_) => 500
    case LoginRedirect => 302
  }

  /** The `Set-Cookie` header a reply carries. */
  function SetCookie(reply: Reply): Option<string> {
    match reply
    case UnknownApi(cookie) => Some(cookie)
    case LoginRedirect => Some(ExpiredSessionCookie)
    case _ => None
  }

  /** The `Location` header a reply carries. */
  function Location(reply: Reply): Option<string> {
    if reply.LoginRedirect? then Some("/login") else None
  }

  /** How a built loader or action settles. */
  datatype Settled<R> =
    | Value(value: R)        // the handler's own return value
    | Replied(reply: Reply)  // a reply returned
    | Raised(reply: Reply)   // a reply thrown
    | Rethrown(error: AppError)

  /**
   * `loaderBuilder`'s catch: an unknown API error throws a 500 with the toast
   * cookie, not found throws a 404, unauthorized throws the login redirect, and
   * everything else, a validation error included, is rethrown.
   */
  function LoaderSettles<R>(outcome: Outcome<R>, toastCookie: string): (r: Settled<R>)
    ensures outcome.Returned? <==> r.Value?
    ensures outcome.Returned? ==> r == Value(outcome.value)
    ensures !r.Replied?
    ensures r.Rethrown? ==> outcome == Threw(r.error)
    ensures outcome == Threw(UnknownAPIError) ==> r == Raised(UnknownApi(toastCookie))
    ensures outcome == Threw(NotFoundError) ==> r == Raised(NotFound)
    ensures outcome == Threw(UnauthorizedError) ==> r == Raised(LoginRedirect)
    ensures outcome.Threw? && (outcome.error.ValidationError? || outcome.error.Other?) ==>
      r == Rethrown(outcome.error)
  {
    match outcome
    case Returned(v) => Value(v)
    case Threw(UnknownAPIError) => Raised(UnknownApi(toastCookie))
    case Threw(NotFoundError) => Raised(NotFound)
    case Threw(UnauthorizedError) => Raised(LoginRedirect)
    case Threw(e) => Rethrown(e)
  }

  /** The handlers an action may register, one per method. */
  datatype Handlers<R> = Handlers(
    post: Option<Outcome<R>>,
    delete: Option<Outcome<R>>,
    patch: Option<Outcome<R>>,
    put: Option<Outcome<R>>,
    get: Option<Outcome<R>>)

  /** The `switch` on the method: the registered handler's outcome, if any. */
  function HandlerFor<R>(requestMethod: string, handlers: Handlers<R>): (r: Option<Outcome<R>>)
    ensures requestMethod !in {"POST", "DELETE", "PATCH", "PUT", "GET"} ==> r.None?
  {
    if requestMethod == "POST" then handlers.post
    else if requestMethod == "DELETE" then handlers.delete
    else if requestMethod == "PATCH" then handlers.patch
    else if requestMethod == "PUT" then handlers.put
    else if requestMethod == "GET" then handlers.get
    else None
  }

  /**
   * `actionBuilder`: no handler for the method returns a 404; a validation error
   * is returned with its field errors; unauthorized and not found are thrown as
   * in loaders; an unknown API error is returned, not thrown; anything else is
   * rethrown.
   */
  function ActionSettles<R>(requestMethod: string, handlers: Handlers<R>, toastCookie: string): (r: Settled<R>)
    ensures HandlerFor(requestMethod, handlers).None? ==> r == Replied(NotFound)
    ensures HandlerFor(requestMethod, handlers) == Some(Threw(UnknownAPIError)) ==> r == Replied(UnknownApi(toastCookie))
    ensures forall fieldErrors :: HandlerFor(requestMethod, handlers) == Some(Threw(ValidationError(fieldErrors))) ==>
      r == Replied(ValidationFailure(fieldErrors))
    ensures var h := HandlerFor(requestMethod, handlers);
      h.Some? && h.value.Returned? ==> r == Value(h.value.value)
    ensures HandlerFor(requestMethod, handlers) == Some(Threw(NotFoundError)) ==> r == Raised(NotFound)
    ensures HandlerFor(requestMethod, handlers) == Some(Threw(UnauthorizedError)) ==> r == Raised(LoginRedirect)
    ensures var h := HandlerFor(requestMethod, handlers);
      h.Some? && h.value.Threw? && h.value.error.Other? ==> r == Rethrown(h.value.error)
  {
    match HandlerFor(requestMethod, handlers)
    case None => Replied(NotFound)
    case Some(Returned(v)) => Value(v)
    case Some(Threw(ValidationError(fieldErrors))) => Replied(ValidationFailure(fieldErrors))
    case Some(Threw(UnauthorizedError)) => Raised(LoginRedirect)
    case Some(Threw(NotFoundError)) => Raised(NotFound)
    case Some(Threw(UnknownAPIError)) => Replied(UnknownApi(toastCookie))
    case Some(Threw(e)) => Rethrown(e)
  }

  /** A method outside the five the switch knows always gets a 404. */
  lemma UnknownMethodNotFound<R>(requestMethod: string, handlers: Handlers<R>, toastCookie: string)
    requires requestMethod !in {"POST", "DELETE", "PATCH", "PUT", "GET"}
    ensures ActionSettles(requestMethod, handlers, toastCookie).Replied?
    ensures Status(ActionSettles(requestMethod, handlers, toastCookie).reply) == 404
  {
  }

  /**
   * Loaders and actions treat a handler's outcome alike, except that an action
   * returns the replies to a validation error and to an unknown API error where a
   * loader rethrows the first and throws the second.
   */
  lemma LoaderAndActionAgree<R>(requestMethod: string, handlers: Handlers<R>, toastCookie: string)
    requires HandlerFor(requestMethod, handlers).Some?
    ensures var outcome := HandlerFor(requestMethod, handlers).value;
      var l := LoaderSettles(outcome, toastCookie);
      var a := ActionSettles(requestMethod, handlers, toastCookie);
      match outcome
      case Threw(ValidationError(fieldErrors)) => l == Rethrown(outcome.error) && a == Replied(ValidationFailure(fieldErrors))
      case Threw(UnknownAPIError) => l == Raised(UnknownApi(toastCookie)) && a == Replied(UnknownApi(toastCookie))
      case _ => l == a
  {
  }

  /** Unauthorized, in either builder, throws a redirect to `/login` that expires the session cookie. */
  lemma UnauthorizedRedirectsToLogin<R>(requestMethod: string, handlers: Handlers<R>, toastCookie: string)
    requires HandlerFor(requestMethod, handlers) == Some(Threw(UnauthorizedError))
    ensures LoaderSettles(HandlerFor(requestMethod, handlers).value, toastCookie) == Raised(LoginRedirect)
    ensures ActionSettles(requestMethod, handlers, toastCookie) == Raised(LoginRedirect)
    ensures Location(LoginRedirect) == Some("/login") && SetCookie(LoginRedirect) == Some(ExpiredSessionCookie)
  {
  }

  /**
   * The URL `requestFetchTyped` hands to `fetchTyped`: `PAGE_URL` followed by
   * `/super-api` and the path; an unset `PAGE_URL` renders as `undefined`.
   */
  function ApiUrl(pageUrl: Option<string>, path: string): (r: string)
    ensures StartsWith(r, pageUrl.GetOr("undefined") + "/super-api")
    ensures r[|pageUrl.GetOr("undefined") + "/super-api"|..] == path
  {
    var prefix := pageUrl.GetOr("undefined") + "/super-api";
    assert (prefix + path)[..|prefix|] == prefix;
    prefix + path
  }
}

=== FILE: strings.dfy ===
/**
 * String operations of JavaScript's `String.prototype` (`startsWith`, `indexOf`,
 * `split` and `replace` with a string pattern, `join`) and decimal rendering of
 * identifiers, written out on `seq<char>`.
 */
module Strings {
  import opened Wrappers

  /** Whitespace as JavaScript's `\s` class and `String.prototype.trim` define it. */
  predicate IsWhitespace(c: char) {
    var n := c as int;
    (9 <= n <= 13) || n == 32 || n == 0xA0 || n == 0x1680 || (0x2000 <= n <= 0x200A)
    || n == 0x2028 || n == 0x2029 || n == 0x202F || n == 0x205F || n == 0x3000 || n == 0xFEFF
  }

  /** No character of `s` is whitespace. */
  predicate NoWhitespace(s: string) {
    forall i :: 0 <= i < |s| ==> !IsWhitespace(s[i])
  }

  /** `s.startsWith(p)` */
  predicate StartsWith(s: string, p: string) {
    |p| <= |s| && s[..|p|] == p
  }

  /** `pat` occurs in `s` at index `i`. */
  predicate OccursAt(s: string, pat: string, i: nat) {
    i + |pat| <= |s| && s[i..i + |pat|] == pat
  }

  /** `s.includes(pat)` */
  predicate Contains(s: string, pat: string) {
    exists i: nat | i <= |s| :: OccursAt(s, pat, i)
  }

  /** The first index at or after `from` where `pat` occurs. */
  function IndexOfFrom(s: string, pat: string, from: nat): (r: Option<nat>)
    ensures r.Some? ==> from <= r.value && OccursAt(s, pat, r.value)
    ensures r.Some? ==> forall k: nat :: from <= k < r.value ==> !OccursAt(s, pat, k)
    ensures r.None? ==> forall k: nat :: from <= k ==> !OccursAt(s, pat, k)
    decreases |s| - from
  {
    if from + |pat| > |s| then None
    else if OccursAt(s, pat, from) then Some(from)
    else IndexOfFrom(s, pat, from + 1)
  }

  /** `s.indexOf(pat)`, with -1 as `None`: the first occurrence of `pat` in `s`. */
  function IndexOf(s: string, pat: string): (r: Option<nat>)
    ensures r.Some? ==> OccursAt(s, pat, r.value)
    ensures r.Some? ==> forall k: nat :: k < r.value ==> !OccursAt(s, pat, k)
    ensures r.None? <==> !Contains(s, pat)
  {
    IndexOfFrom(s, pat, 0)
  }

  /**
   * `s.replace(pat, rep)` with a string pattern: only the first occurrence is
   * replaced. Every replacement used in this model is free of `$`, so
   * JavaScript's `$&`-style substitution patterns never arise.
   */
  function ReplaceFirst(s: string, pat: string, rep: string): (r: string)
    ensures !Contains(s, pat) ==> r == s
    ensures Contains(s, pat) ==>
      (exists i: nat :: OccursAt(s, pat, i)
        && (forall k: nat :: k < i ==> !OccursAt(s, pat, k))
        && r == s[..i] + rep + s[i + |pat|..])
  {
    match IndexOf(s, pat)
    case None => s
    case Some(i) => s[..i] + rep + s[i + |pat|..]
  }

  /** When the text before an occurrence of `pat` cannot start one, that occurrence is the one replaced. */
  lemma ReplaceFirstAt(a: string, pat: string, b: string, rep: string)
    requires |pat| >= 1 && forall i :: 0 <= i < |a| ==> a[i] != pat[0]
    ensures ReplaceFirst(a + pat + b, pat, rep) == a + rep + b
  {
    var s := a + pat + b;
    assert OccursAt(s, pat, |a|) by {
      assert s[|a|..|a| + |pat|] == pat;
    }
    forall k: nat | k < |a|
      ensures !OccursAt(s, pat, k)
    {
      assert s[k] == a[k];
      assert k + |pat| <= |s| ==> s[k..k + |pat|][0] == s[k];
    }
    assert IndexOf(s, pat) == Some(|a|);
    assert s[..|a|] == a && s[|a| + |pat|..] == b;
  }

  /** `s.split(sep)` for a non-empty string separator. */
  function Split(s: string, sep: string): (parts: seq<string>)
    requires |sep| > 0
    ensures |parts| >= 1
    decreases |s|
  {
    match IndexOf(s, sep)
    case None => [s]
    case Some(i) => [s[..i]] + Split(s[i + |sep|..], sep)
  }

  /** `parts.join(sep)` */
  function Join(parts: seq<string>, sep: string): string {
    if |parts| == 0 then ""
    else if |parts| == 1 then parts[0]
    else parts[0] + sep + Join(parts[1..], sep)
  }

  /** Joining one more part appends the separator and the part. */
  lemma {:induction false} JoinAppend(parts: seq<string>, part: string, sep: string)
    requires |parts| >= 1
    ensures Join(parts + [part], sep) == Join(parts, sep) + sep + part
  {
    if |parts| > 1 {
      assert (parts + [part])[1..] == parts[1..] + [part];
      JoinAppend(parts[1..], part, sep);
    } else {
      assert (parts + [part])[1..] == [part];
    }
  }

  /** Joining the parts of a split with the same separator gives back the input. */
  lemma {:induction false} JoinSplit(s: string, sep: string)
    requires |sep| > 0
    ensures Join(Split(s, sep), sep) == s
    decreases |s|
  {
    match IndexOf(s, sep)
    case None =>
    case Some(i) =>
      var rest := s[i + |sep|..];
      JoinSplit(rest, sep);
      JoinCons(s[..i], Split(rest, sep), sep);
      CutAt(s, sep, i);
  }

  /** Joining a part in front of at least one more puts the separator between them. */
  lemma JoinCons(head: string, parts: seq<string>, sep: string)
    requires |parts| >= 1
    ensures Join([head] + parts, sep) == head + sep + Join(parts, sep)
  {
    assert ([head] + parts)[1..] == parts;
  }

  /** A text is the part before an occurrence, the occurrence, and the part after it. */
  lemma CutAt(s: string, pat: string, i: nat)
    requires OccursAt(s, pat, i)
    ensures s == s[..i] + pat + s[i + |pat|..]
  {
  }

  /** The text before the first occurrence of `sep` does not contain `sep`. */
  lemma PrefixBeforeFirstFree(s: string, sep: string, i: nat)
    requires |sep| > 0 && i <= |s|
    requires forall k: nat :: k < i ==> !OccursAt(s, sep, k)
    ensures !Contains(s[..i], sep)
  {
    forall k: nat | k <= i
      ensures !OccursAt(s[..i], sep, k)
    {
      if k + |sep| <= i {
        assert !OccursAt(s, sep, k);
        assert s[..i][k..k + |sep|] == s[k..k + |sep|];
      }
    }
  }

  /** No part of a split contains the separator. */
  lemma {:induction false} SplitPartsFree(s: string, sep: string)
    requires |sep| > 0
    ensures forall p :: p in Split(s, sep) ==> !Contains(p, sep)
    decreases |s|
  {
    match IndexOf(s, sep)
    case None =>
    case Some(i) =>
      var rest := Split(s[i + |sep|..], sep);
      SplitPartsFree(s[i + |sep|..], sep);
      PrefixBeforeFirstFree(s, sep, i);
      assert Split(s, sep) == [s[..i]] + rest;
      forall p | p in Split(s, sep) ensures !Contains(p, sep) {
        if p != s[..i] {
          assert p in rest;
        }
      }
  }

  /** `c` does not occur in `s`. */
  predicate CharFree(s: string, c: char) {
    forall i :: 0 <= i < |s| ==> s[i] != c
  }

  /** Splitting at a one-character separator that the first part lacks: that part, then the split of the rest. */
  lemma SplitCons(a: string, c: char, b: string)
    requires CharFree(a, c)
    ensures Split(a + [c] + b, [c]) == [a] + Split(b, [c])
  {
    var s := a + [c] + b;
    assert OccursAt(s, [c], |a|);
    forall k: nat | k < |a| ensures !OccursAt(s, [c], k) {
      assert s[k] == a[k];
    }
    assert IndexOf(s, [c]) == Some(|a|);
    assert s[|a| + 1..] == b;
    assert s[..|a|] == a;
  }

  /** A text without the separator splits into itself alone. */
  lemma SplitFree(s: string, c: char)
    ensures CharFree(s, c) ==> Split(s, [c]) == [s]
  {
    if CharFree(s, c) {
      forall i: nat | i <= |s| ensures !OccursAt(s, [c], i) {
        if i + 1 <= |s| {
          assert s[i] != c;
        }
      }
    }
  }

  /** Splitting the join of parts free of a one-character separator gives the parts back. */
  lemma {:induction false} SplitJoin(parts: seq<string>, c: char)
    requires |parts| >= 1
    requires forall k :: 0 <= k < |parts| ==> CharFree(parts[k], c)
    ensures Split(Join(parts, [c]), [c]) == parts
  {
    if |parts| == 1 {
      SplitFree(parts[0], c);
    } else {
      SplitJoin(parts[1..], c);
      SplitCons(parts[0], c, Join(parts[1..], [c]));
      assert [parts[0]] + parts[1..] == parts;
    }
  }

  /** The first part of a split is the prefix before the first separator. */
  lemma SplitHead(s: string, sep: string)
    requires |sep| > 0
    ensures IndexOf(s, sep).None? ==> Split(s, sep) == [s]
    ensures IndexOf(s, sep).Some? ==> Split(s, sep)[0] == s[..IndexOf(s, sep).value]
  {
  }

  /** The decimal digit for `d`. */
  function Digit(d: nat): (c: char)
    requires d < 10
    ensures '0' <= c <= '9'
  {
    "0123456789"[d]
  }

  /** `n.toString()` for a non-negative integer. */
  function NatToString(n: nat): (s: string)
    ensures |s| >= 1
    ensures forall i :: 0 <= i < |s| ==> '0' <= s[i] <= '9'
  {
    if n < 10 then [Digit(n)] else NatToString(n / 10) + [Digit(n % 10)]
  }

  /** Array indexing as JavaScript does it: `undefined` past the end. */
  function At(parts: seq<string>, i: nat): (r: Option<string>)
    ensures r.Some? <==> i < |parts|
    ensures r.Some? ==> r.value == parts[i]
  {
    if i < |parts| then Some(parts[i]) else None
  }
}

=== FILE: undo_redo.dfy ===
/**
 * `useUndoRedo.tsx`: the history of the pipeline editor's graph, a current value
 * between the values it can be undone to and those it can be redone to.
 */
module UndoRedo {
  import Js

  /** `prev` holds the oldest value first; `next` holds the next redo first. */
  datatype History = History(prev: seq<Js.Value>, curr: Js.Value, next: seq<Js.Value>)

  datatype Action = Set(data: Js.Value, ignore: bool) | Redo | Undo

  /** The `{data, ignore}` object a SET action carries as its payload. */
  function Payload(data: Js.Value, ignore: bool): Js.Value {
    Js.Obj(map["data" := data, "ignore" := Js.Bool(ignore)])
  }

  /** Every value of the history, oldest first. */
  function Timeline(h: History): seq<Js.Value> {
    h.prev + [h.curr] + h.next
  }

  /** The position of the current value in the timeline. */
  function Cursor(h: History): nat {
    |h.prev|
  }

  /** The initial state of the hook. */
  function Initial(initial: Js.Value): (h: History)
    ensures Timeline(h) == [initial] && Cursor(h) == 0
  {
    History([], initial, [])
  }

  /**
   * `reducer` as written: the no-op guard of SET compares the current value with
   * the whole `{data, ignore}` payload.
   */
  function Reduce(h: History, a: Action): History {
    match a
    case Set(data, ignore) =>
      if h.curr == Payload(data, ignore) then h
      else if ignore then h.(curr := data)
      else History(h.prev + [h.curr], data, [])
    case Redo =>
      if |h.next| == 0 then h
      else History(h.prev + [h.curr], h.next[0], h.next[1..])
    case Undo =>
      if |h.prev| == 0 then h
      else History(h.prev[..|h.prev| - 1], h.prev[|h.prev| - 1], [h.curr] + h.next)
  }

  /** `reducer` with the guard comparing the current value with `data`, as evidently intended. */
  function ReduceIntended(h: History, a: Action): History {
    match a
    case Set(data, ignore) =>
      if h.curr == data then h
      else Reduce(h, a)
    case _ => Reduce(h, a)
  }

  /** `allowUndo`: an UNDO would change the history. */
  function AllowUndo(h: History): (allowed: bool)
    ensures allowed <==> Reduce(h, Undo) != h
  {
    |h.prev| > 0
  }

  /** `allowRedo`: a REDO would change the history. */
  function AllowRedo(h: History): (allowed: bool)
    ensures allowed <==> Reduce(h, Redo) != h
  {
    |h.next| > 0
  }

  /** UNDO steps one place back in the same timeline, and only when `allowUndo` holds. */
  lemma UndoMovesBack(h: History)
    ensures Timeline(Reduce(h, Undo)) == Timeline(h)
    ensures AllowUndo(h) ==> Cursor(Reduce(h, Undo)) == Cursor(h) - 1
    ensures !AllowUndo(h) ==> Reduce(h, Undo) == h
    ensures AllowUndo(h) ==> Reduce(h, Undo).curr == h.prev[|h.prev| - 1] && Reduce(h, Undo).next == [h.curr] + h.next
  {
    if AllowUndo(h) {
      var p := h.prev;
      assert p[..|p| - 1] + [p[|p| - 1]] == p;
      assert Timeline(Reduce(h, Undo)) == p[..|p| - 1] + [p[|p| - 1]] + ([h.curr] + h.next);
    }
  }

  /** REDO steps one place forward in the same timeline, and only when `allowRedo` holds. */
  lemma RedoMovesForward(h: History)
    ensures Timeline(Reduce(h, Redo)) == Timeline(h)
    ensures AllowRedo(h) ==> Cursor(Reduce(h, Redo)) == Cursor(h) + 1
    ensures !AllowRedo(h) ==> Reduce(h, Redo) == h
    ensures AllowRedo(h) ==> Reduce(h, Redo).curr == h.next[0] && Reduce(h, Redo).prev == h.prev + [h.curr]
  {
    if AllowRedo(h) {
      assert [h.next[0]] + h.next[1..] == h.next;
      assert Timeline(Reduce(h, Redo)) == (h.prev + [h.curr]) + [h.next[0]] + h.next[1..];
    }
  }

  /** UNDO and REDO keep the number of values in the history. */
  lemma UndoRedoKeepSize(h: History)
    ensures |Reduce(h, Undo).prev| + 1 + |Reduce(h, Undo).next| == |h.prev| + 1 + |h.next|
    ensures |Reduce(h, Redo).prev| + 1 + |Reduce(h, Redo).next| == |h.prev| + 1 + |h.next|
  {
    UndoMovesBack(h);
    RedoMovesForward(h);
  }

  /** An UNDO that did something is cancelled by a REDO. */
  lemma UndoThenRedo(h: History)
    requires AllowUndo(h)
    ensures Reduce(Reduce(h, Undo), Redo) == h
  {
    var p := h.prev;
    assert p[..|p| - 1] + [p[|p| - 1]] == p;
    assert ([h.curr] + h.next)[1..] == h.next;
  }

  /** A REDO that did something is cancelled by an UNDO. */
  lemma RedoThenUndo(h: History)
    requires AllowRedo(h)
    ensures Reduce(Reduce(h, Redo), Undo) == h
  {
    assert (h.prev + [h.curr])[..|h.prev|] == h.prev;
    assert [h.next[0]] + h.next[1..] == h.next;
  }

  /**
   * A recorded SET keeps everything that could be undone, makes `data` current
   * and drops the redo list; an ignored SET replaces the current value only.
   */
  lemma SetRecords(h: History, data: Js.Value, ignore: bool)
    requires h.curr != Payload(data, ignore)
    ensures !ignore ==> (Timeline(Reduce(h, Set(data, ignore))) == h.prev + [h.curr, data]
      && Cursor(Reduce(h, Set(data, ignore))) == Cursor(h) + 1 && !AllowRedo(Reduce(h, Set(data, ignore))))
    ensures ignore ==> Reduce(h, Set(data, ignore)) == History(h.prev, data, h.next)
  {
  }

  /**
   * As written, setting the current value again (not ignored) is not a no-op: it
   * records a duplicate history entry, because the guard never sees `data`.
   */
  lemma SetSameValueRecordsDuplicate()
    ensures var h := History([], Js.Num(1), []);
      Reduce(h, Set(Js.Num(1), false)) == History([Js.Num(1)], Js.Num(1), [])
  {
    var h := History([], Js.Num(1), []);
    assert Js.Num(1) != Payload(Js.Num(1), false);
  }

  /** As intended, setting the current value again leaves the history as it is. */
  lemma IntendedSetSameValueIsNoOp(h: History, ignore: bool)
    ensures ReduceIntended(h, Set(h.curr, ignore)) == h
  {
  }

  /** Otherwise the intended reducer agrees with the one as written. */
  lemma IntendedAgreesElsewhere(h: History, a: Action)
    requires !(a.Set? && a.data == h.curr)
    requires !(a.Set? && h.curr == Payload(a.data, a.ignore))
    ensures ReduceIntended(h, a) == Reduce(h, a)
  {
  }
}

=== FILE: wrappers.dfy ===
/** Option and Result: JavaScript's `undefined` and thrown errors, made explicit. */
module Wrappers {

  /** `None` stands for a JavaScript `undefined` (a missing value or key). */
  datatype Option<+T> = None | Some(value: T) {
    /** JavaScript's `value ?? fallback`. */
    function GetOr(fallback: T): T {
      match this
      case Some(v) => v
      case None => fallback
    }
  }

  /** The outcome of a call that may throw. */
  datatype Result<+R, +E> = Ok(value: R) | Err(error: E)
}
